=== FILE: README.md ===
# Projekt scrapers and corpus builders, modelled in Dafny

The repository is a set of Python scripts under `Projekt/`. They search
scholarly sources (arXiv, DOAJ, Google Scholar, the Hrčak portal) and
download PDFs. They turn PDFs into text (PyPDF2, PyMuPDF, Tesseract OCR,
unstructured) and turn text files into JSON records. They scrape web pages
and build normalised word corpora with NLTK. This project models the
deterministic layer underneath those scripts and proves properties about it:

- file and path naming;
- pagination and link selection;
- token normalisation;
- corpus files;
- text assembly from pages;
- metadata records.

Every library call becomes a parameter of the model:

- HTTP requests;
- the BeautifulSoup parser;
- feedparser;
- the `scholarly` result stream;
- the PDF readers and OCR;
- the NLTK tokenizer, stopword list and lemmatizer;
- `urllib.parse.quote` and `urljoin`;
- `partition_text` / `partition_pdf`;
- `json.dump`;
- `os.listdir`.

One module per script, plus shared modules:

- `Base`: `Option`, bytes, sequence helpers.
- `PyStr`: `split`, `join`, `replace`, `strip`, `startswith`/`endswith`, character deletion and substitution.
- `PyChars`: `isalpha`, `isalnum`, `isdigit`, `lower`, `string.punctuation`, whitespace.
- `PyNum`: `str(int)` and `int(str)`.
- `PyLines`: `str.split()` and `str.splitlines()`.
- `Fs`:
  - `os.path.join`, `os.path.splitext`;
  - a `Disk` class whose `files` map is the file system the scripts write, with `open`/`write`/`os.remove` as methods;
  - `Batch`, the loop over a directory listing.
- `Http`: responses and `raise_for_status`.
- `Html`: an element tree with `find_all`, `find`, `get_text` and `decompose`.
- `Corpus`: what the corpus builders share.

Each script's `main` (or module-level code) is a `RunScript` method. Its
`ensures` ties the final `Disk` contents to a specification function of the
inputs, and lemmas prove what the script promises about that function.

## Model

| member | source | states |
|---|---|---|
| `Arxiv.SanitizeFilename` | Projekt/arxiv.py:9-21 | the result is the title with every one of `\ / * ? : " < > \|` deleted and then the leading and trailing whitespace stripped: the unique middle of the deleted text whose ends are not whitespace and whose cut-off prefix and suffix are all whitespace |
| `Arxiv.SanitizeIdempotent` | Projekt/arxiv.py:20-21 | sanitizing a sanitized title changes nothing |
| `Arxiv.SanitizeKeepsCleanName` | Projekt/arxiv.py:20-21 | a title without forbidden characters or surrounding whitespace is kept as it is |
| `Arxiv.QueryUrlParams` | Projekt/arxiv.py:71-77 | the query of page k is exactly the three parameters `search_query=all:<kw>`, `start=<k*10>`, `max_results=10`, when the encoded keywords hold no `?` or `&` |
| `Arxiv.QueryUrlNumbers` | Projekt/arxiv.py:61-77 | `int` reads back start = k*10 and max_results = 10 from that query |
| `Arxiv.QueryUrlsDistinct` | Projekt/arxiv.py:73-77 | two page indices with the same query URL are equal |
| `Arxiv.PdfUrl` | Projekt/arxiv.py:89-96 | None exactly when no link has type `application/pdf` (section 4.2.7.3 of RFC 4287); otherwise the href of the first such link |
| `Arxiv.PdfUrlIgnoresLaterLinks` | Projekt/arxiv.py:93-96 | links after the first PDF link do not change the PDF URL |
| `Arxiv.FindPdfUrl` | Projekt/arxiv.py:90-96 | the loop with `break` returns the first-match PDF URL |
| `Arxiv.EntryPathShape` | Projekt/arxiv.py:98-106 | the path is `arxiv_pdf/<sanitized title or "untitled">.pdf`, and the sanitized title holds no `/` |
| `Arxiv.EntryWithoutPdfSkipped` | Projekt/arxiv.py:98-113 | an entry without a PDF link leaves the disk unchanged |
| `Arxiv.AfterEntriesOnlyEntryPaths` | Projekt/arxiv.py:89-113 | a path that is not some entry's target keeps its presence and contents |
| `Arxiv.EmptyPageContinues` | Projekt/arxiv.py:83-86 | a page whose feed has no entries changes nothing, and the loop goes on to the next page |
| `Arxiv.DownloadEntries` | Projekt/arxiv.py:89-113 | the entry loop leaves the disk as the entry-by-entry specification says |
| `Arxiv.AfterUrlsArePages` | Projekt/arxiv.py:71-81 | requesting the URLs of pages 0..n-1 in order is the page-by-page run |
| `Arxiv.SearchPage` | Projekt/arxiv.py:73-113 | one page requests the URL of page k and applies its entries |
| `Arxiv.SearchPages` | Projekt/arxiv.py:71-113 | `max(num_pages, 0)` URLs are requested, URL k being the query of page k, and the disk is the result of those pages |
| `Arxiv.RunScript` | Projekt/arxiv.py:46-113 | a page count that `int` rejects ends `main` with no request and no file; otherwise the pages are searched in order |
| `Http.AfterSave` | Projekt/arxiv.py:32-43 | a successful response writes its body to the path; an error status or a transport failure changes nothing; other paths are untouched |
| `Http.SaveResponse` | Projekt/doaj.py:53-64 | `download_pdf` leaves the disk as `AfterSave` says |
| `Doaj.SearchUrlQuery` | Projekt/doaj.py:31 | the URL's query is exactly `page=<page>` and `pageSize=<size>`, when type and term hold no `?` |
| `Doaj.SearchUrlNumbers` | Projekt/doaj.py:11-31 | `int` reads back the page and page size from that query |
| `Doaj.Headers` | Projekt/doaj.py:26-28 | JSON is always accepted; `Authorization: Bearer <key>` (section 2.1 of RFC 6750) is present exactly when a non-empty key is given; there are no other headers |
| `Doaj.FirstMatching` | Projekt/doaj.py:83-88 | `soup.find`: None exactly when nothing matches, else the first match |
| `Doaj.UsableHref` | Projekt/doaj.py:84-85 | a found anchor's non-empty href |
| `Doaj.GetArticlePdfLink` | Projekt/doaj.py:67-98 | a failed request gives None. When the first `pdf-link` anchor has a non-empty href, that href is the result; otherwise the result is that of the first anchor whose string is exactly `PDF` (None when it has no usable href or there is none) |
| `Doaj.NoCandidateNoLink` | Projekt/doaj.py:92-94 | a page with no `pdf-link` or `PDF` anchor gives None |
| `Doaj.Issns` | Projekt/doaj.py:118-119 | one entry per `pissn`/`eissn` identifier, and each such identifier's value is listed |
| `Doaj.IssnsSnoc` | Projekt/doaj.py:118-119 | the list is built in identifier order: one more identifier appends its value (or `N/A`) exactly when it is an ISSN, so order and repeats are kept |
| `Doaj.Dois` | Projekt/doaj.py:130-131 | one entry per `doi` identifier, and each such identifier's id is listed |
| `Doaj.DoisSnoc` | Projekt/doaj.py:130-131 | the list is built in identifier order: one more identifier appends its id exactly when it is a DOI |
| `Doaj.FirstLink` | Projekt/doaj.py:137-140 | the first link of the given type, None exactly when there is none |
| `Doaj.JournalLink` | Projekt/doaj.py:123-125 | "Not available" without a homepage link; otherwise the URL (or `None`) of the first homepage link |
| `Doaj.SanitizeFilename` | Projekt/doaj.py:147-159 | the result is the title with `_` put for every one of `\ / * ? : " < > \|` and then stripped: the unique middle of the substituted text whose ends are not whitespace and whose cut-off prefix and suffix are all whitespace; it holds no forbidden character |
| `Doaj.SanitizeOneForOne` | Projekt/doaj.py:158-159 | in terms of the title itself: the result is the title's characters from the end of its leading whitespace on, each kept or replaced by `_` where forbidden, and what the title has before and after them is whitespace; the result does not end in whitespace |
| `Doaj.SanitizeIdempotent` | Projekt/doaj.py:158-159 | sanitizing twice is sanitizing once |
| `Doaj.PdfUrlOf` | Projekt/doaj.py:171-178 | only the first `fulltext` link is followed; none means no PDF |
| `Doaj.AfterArticlesTouchesOnlyTheirPaths` | Projekt/doaj.py:170-188 | downloading removes no file and changes only the results' own `<title or article_i>.pdf` paths |
| `Doaj.DownloadArticles` | Projekt/doaj.py:162-188 | the loop leaves the disk as the result-by-result specification says: skipped results change nothing, the loop never stops early |
| `Doaj.ReadQuery` | Projekt/doaj.py:191-206 | the query is accepted exactly when the stripped, lowercased type is `journals` or `articles` and the stripped term is non-empty; a blank key means no key |
| `Doaj.QueryAuthorization` | Projekt/doaj.py:206-209 | the search carries a bearer token exactly when a non-blank key was typed |
| `Doaj.RunScript` | Projekt/doaj.py:191-221 | a rejected query makes no request. Otherwise page 1 of 10 is requested with the key's headers, and only an article search with results downloads |
| `Hrcak.FileId` | Projekt/hrcak.py:26 | the file id holds no `/` |
| `Hrcak.FileIdIsLastSegment` | Projekt/hrcak.py:26 | the URL ends with the id, just after a `/` when there is one |
| `Hrcak.PdfNameInFolder` | Projekt/hrcak.py:26-29 | the file is `<folder>/<id>.pdf` |
| `Hrcak.DownloadPdf` | Projekt/hrcak.py:9-40 | a transport failure raises. Status 200 writes the body to `<folder>/<id>.pdf` and returns that path. Any other status writes nothing and returns None |
| `Hrcak.PagesText` | Projekt/hrcak.py:56-62 | the text exists exactly when every page yields text |
| `Hrcak.PagesTextOfTexts` | Projekt/hrcak.py:59-62 | the text is the page texts concatenated in page order with no separator |
| `Hrcak.ExtractText` | Projekt/hrcak.py:53-66 | an unreadable file or a failing page gives None, never a partial text |
| `Hrcak.ExtractTextFromPdf` | Projekt/hrcak.py:43-66 | the `text +=` loop computes `ExtractText` |
| `Hrcak.Preview` | Projekt/hrcak.py:117 | the preview is the first `min(200, len)` characters of the text |
| `Hrcak.SearchUrlParams` | Projekt/hrcak.py:84-89 | the query of page k is exactly `q=<keyword>` and `start=<k*10>` |
| `Hrcak.SearchUrlStart` | Projekt/hrcak.py:86-89 | `int` reads back the offset k*10 |
| `Hrcak.SearchUrlsDistinct` | Projekt/hrcak.py:86-89 | different pages use different URLs |
| `Hrcak.FileUrls` | Projekt/hrcak.py:99-105 | one URL per `/file/` href |
| `Hrcak.FileUrlsExactly` | Projekt/hrcak.py:103-105 | a URL is fetched exactly when it resolves a `/file/` href against the base URL |
| `Hrcak.HrefsFetchFileUrls` | Projekt/hrcak.py:99-117 | walking a page's hrefs fetches exactly its `/file/` URLs, in order |
| `Hrcak.FetchStepPreview` | Projekt/hrcak.py:100-117 | one fetch keeps the previews shown and adds at most one. An added preview is `(PdfName(url), Preview(text))` for a 200 response whose saved body yields non-empty text, and that step has just saved the body under that name |
| `Hrcak.PreviewsAreOfDownloads` | Projekt/hrcak.py:100-117 | over any run of fetches, every preview added is that of one of the fetched URLs, downloaded with status 200 |
| `Hrcak.PageStepPreviews` | Projekt/hrcak.py:84-117 | one result page keeps the previews shown and adds only previews of successful downloads |
| `Hrcak.GrowsTrans` | Projekt/hrcak.py:84-117 | keeping earlier previews and adding only previews of downloads is kept over successive pages |
| `Hrcak.RunPreviewsDownloaded` | Projekt/hrcak.py:84-117 | over a whole run of pages, every preview shown is that of a file downloaded with status 200, its text read from the body |
| `Hrcak.AbortedStaysPut` | Projekt/hrcak.py:21-33 | after an uncaught request failure no further fetch changes anything |
| `Hrcak.AbortedAfterPages` | Projekt/hrcak.py:84-93 | after an uncaught failure no further page changes anything |
| `Hrcak.ScrapeLinks` | Projekt/hrcak.py:99-117 | the link loop gives the files, previews and abort flag of the specification |
| `Hrcak.ScrapePage` | Projekt/hrcak.py:86-117 | one page: the search request, then its links |
| `Hrcak.ScrapePdfsFromWebsite` | Projekt/hrcak.py:69-117 | pages 0..num_pages-1 in order, until an exception |
| `Hrcak.RunScript` | Projekt/hrcak.py:120-131 | a non-integer page count raises before any request; otherwise `https://hrcak.srce.hr` is scraped into `pdfs` |
| `KreiranjeKorp.IsEmoji` | Projekt/Kreiranje_korp.py:16-18 | true exactly when some character lies in U+1F600–1F64F, U+1F300–1F5FF, U+1F680–1F6FF, U+1F700–1F77F, U+1F900–1F9FF or U+2700–27BF |
| `KreiranjeKorp.KeepIsAlphaNotStopword` | Projekt/Kreiranje_korp.py:30 | the four-part test is equivalent to "alphabetic and not a stopword": the emoji and digit tests never reject an alphabetic token |
| `KreiranjeKorp.LineSentence` | Projekt/Kreiranje_korp.py:27-31 | a line yields at most one word per token |
| `KreiranjeKorp.LineSentenceOfAlphaTokens` | Projekt/Kreiranje_korp.py:28-31 | the sentence is the lemma of the lowercase form of each alphabetic non-stopword token, in order; the punctuation removal changes nothing |
| `KreiranjeKorp.Preprocess` | Projekt/Kreiranje_korp.py:20-36 | at most one sentence per line, and none empty |
| `KreiranjeKorp.PreprocessDropsOnlyEmpty` | Projekt/Kreiranje_korp.py:26-33 | the result is the per-line sentences in order with exactly the empty ones removed |
| `KreiranjeKorp.PreprocessText` | Projekt/Kreiranje_korp.py:22-36 | the loop computes `Preprocess` |
| `KreiranjeKorp.SaveCorpus` | Projekt/Kreiranje_korp.py:38-46 | appends: the file becomes its old contents followed by one space-joined, `\n`-terminated line per sentence |
| `KreiranjeKorp.AppendTwice` | Projekt/Kreiranje_korp.py:43-46 | appending two corpora in turn equals appending their concatenation |
| `KreiranjeKorp.CorpusPath` | Projekt/Kreiranje_korp.py:52-56 | the corpus path starts with `Corpus/` and ends with `_corpus.txt` |
| `KreiranjeKorp.PreprocessEmpty` | Projekt/Kreiranje_korp.py:26-33 | no sentence is left exactly when no line keeps a token |
| `KreiranjeKorp.PreprocessNoVocabulary` | Projekt/Kreiranje_korp.py:32-33 | the sentences hold no word exactly when no line keeps a token |
| `KreiranjeKorp.RunScript` | Projekt/Kreiranje_korp.py:50-93 | when the scraper raises, nothing changes. A missing `document.txt` ends the script, and a stale one is read when the scraper writes nothing. A new model on sentences without words raises before anything is saved. Otherwise the model is saved, the site's corpus file gets the sentences appended, and `document.txt` is removed |
| `Corpus.NormalizeAlpha` | Projekt/Kreiranje_korp.py:29 | for an alphabetic word, lowercasing then deleting punctuation is lowercasing |
| `Corpus.SiteName` | Projekt/Pocetak_soup.py:42 | the site name holds no `/` |
| `Corpus.SiteNameOfUrl` | Projekt/Kreiranje_korp.py:52 | for `scheme://host/path` with no `//` in the path, the site name is the host |
| `Corpus.SentenceLines` | Projekt/Pocetak_soup.py:36-37 | one line per sentence |
| `Corpus.CorpusTextAppend` | Projekt/Kreiranje_korp.py:44-46 | the text of a concatenation of corpora is the concatenation of their texts |
| `Corpus.ReadBackCorpus` | Projekt/Pocetak_soup.py:35-37 | splitting a corpus file on `\n` gives one line per sentence plus a final empty piece, and splitting a line on spaces gives the sentence back |
| `PocetakSoup.LineSentence` | Projekt/Pocetak_soup.py:23-27 | at most one word per token |
| `PocetakSoup.PunctuationTokenKept` | Projekt/Pocetak_soup.py:25-26 | any non-empty punctuation-only token that is not a stopword passes the filter, and what is emitted for it is the lemma of "" |
| `PocetakSoup.PunctuationTokenEmitted` | Projekt/Pocetak_soup.py:22-27 | a line whose only token is such a token becomes the sentence `[lemma of ""]` |
| `PocetakSoup.PreprocessOnePerLine` | Projekt/Pocetak_soup.py:16-30 | exactly one sentence per line, empty or not, in line order |
| `PocetakSoup.PreprocessText` | Projekt/Pocetak_soup.py:18-30 | the loop computes `Preprocess` |
| `PocetakSoup.SaveCorpus` | Projekt/Pocetak_soup.py:33-37 | overwrites: the file holds exactly one space-joined, `\n`-terminated line per sentence |
| `PocetakSoup.SaveOverwrites` | Projekt/Pocetak_soup.py:35 | saving twice keeps only the second corpus |
| `PocetakSoup.CorpusFile` | Projekt/Pocetak_soup.py:46 | the corpus file ends with `_corpus.txt` and is never `document.txt` |
| `PocetakSoup.PreprocessNoVocabulary` | Projekt/Pocetak_soup.py:58-63 | the sentences hold no word exactly when no line keeps a token |
| `PocetakSoup.RunScript` | Projekt/Pocetak_soup.py:40-73 | after scraping, a missing `document.txt` ends the script. Otherwise its lines are preprocessed; sentences without any word make Word2Vec raise before anything is saved. Otherwise the model is saved, the corpus file is overwritten and `document.txt` is removed |
| `Pocetak.Cleaned` | Projekt/Pocetak.py:36-39 | a cleaned word holds no punctuation and is no longer than the token |
| `Pocetak.CleanedTokens` | Projekt/Pocetak.py:34-39 | every token cleaned, in order |
| `Pocetak.Lemmas` | Projekt/Pocetak.py:44 | every word lemmatized, in order |
| `Pocetak.NormalizedWordsAreKeptLemmas` | Projekt/Pocetak.py:33-45 | a line's words are the lemmas of exactly those cleaned tokens that pass the test, in token order |
| `Pocetak.KeptLemmasSnoc` | Projekt/Pocetak.py:42-45 | one more token adds its lemma exactly when it is kept |
| `Pocetak.PunctuationTokenDropped` | Projekt/Pocetak.py:39-42 | a punctuation-only token is cleaned to "" and dropped (the filter runs after stripping) |
| `Pocetak.NormalizeLine` | Projekt/Pocetak.py:33-45 | the inner loop, rebinding `word`, computes the line's words |
| `Pocetak.AllWordsFlattens` | Projekt/Pocetak.py:28-48 | the result is the per-line lists concatenated in line order |
| `Pocetak.NormalizeLines` | Projekt/Pocetak.py:24-48 | the outer loop with `extend` computes the flat list |
| `Pocetak.WordsReadBack` | Projekt/Pocetak.py:51-53 | the output file splits back into the words, one per line |
| `Pocetak.RunScript` | Projekt/Pocetak.py:9-54 | after scraping, a missing `document.txt` ends the script; otherwise `final_corpus.txt` holds one word per line, each followed by `\n` |
| `Unstructured.LowerIsAlnum` | Projekt/Unstructured.py:23-25 | the lowercase form of an alphanumeric token is alphanumeric and space-free |
| `Unstructured.CleanTokens` | Projekt/Unstructured.py:22-26 | at most one word per token; each is alphanumeric, space-free and not a stopword (which tokens give them, and in what order, is `CleanTokensSnoc`) |
| `Unstructured.CleanTokensExactly` | Projekt/Unstructured.py:22-26 | a word is kept exactly when it is the lowercase form of an alphanumeric non-stopword token |
| `Unstructured.CleanTokensSnoc` | Projekt/Unstructured.py:22-26 | the words follow the tokens in order: one more token appends its lowercase form exactly when it is kept, so repeats are kept too |
| `Unstructured.CleanTextSplits` | Projekt/Unstructured.py:29 | the text is empty exactly when nothing was kept; otherwise splitting it on spaces gives the kept tokens |
| `Unstructured.CleanAll` | Projekt/Unstructured.py:55-57 | one cleaned text per element, none holding a line break |
| `Unstructured.CleanElements` | Projekt/Unstructured.py:52-58 | the element loop collects `CleanAll` |
| `Unstructured.CorpusFileName` | Projekt/Unstructured.py:48-49 | the file is `Corpus_unstructured/<site>.txt`, never `output1.txt` |
| `Unstructured.Analysed` | Projekt/Unstructured.py:69-70 | every analysed text is longer than 30 characters |
| `Unstructured.AnalysedExactly` | Projekt/Unstructured.py:69-70 | a text is analysed exactly when it is a cleaned text longer than 30 characters |
| `Unstructured.AnalyseTexts` | Projekt/Unstructured.py:69-87 | the analysis loop visits exactly `Analysed` |
| `Unstructured.RunScript` | Projekt/Unstructured.py:33-93 | a missing `output1.txt` aborts (`os.remove` raises). Otherwise the corpus file holds each cleaned element followed by `\n\n`, the long ones are analysed, and `output1.txt` is removed |
| `Scraping.ParagraphTexts` | Projekt/Scraping.py:17 | one text per `p` element |
| `Scraping.ScrapeDocument` | Projekt/Scraping.py:4-23 | a transport failure raises; a status other than 200 writes nothing; status 200 writes each paragraph's text plus `\n`, in document order, even for zero paragraphs |
| `Scraping.ParagraphsReadBack` | Projekt/Scraping.py:20-23 | the file splits back into one line per `p` element plus a final empty piece |
| `ScrapingSoup.CleanedRemovesHeadersAndFooters` | Projekt/Scraping_soup.py:19-22 | the two `decompose` loops equal pruning both tags at once; no header or footer remains; only text goes missing |
| `ScrapingSoup.StrippedStrings` | Projekt/Scraping_soup.py:31 | every string written is non-empty and has no surrounding whitespace |
| `ScrapingSoup.BodyTextLines` | Projekt/Scraping_soup.py:31 | the written text splits on `\n` back into the stripped strings |
| `ScrapingSoup.BodyHasNoHeaderOrFooter` | Projekt/Scraping_soup.py:19-31 | the body found in the cleaned document holds no header or footer |
| `ScrapingSoup.AfterScrape` | Projekt/Scraping_soup.py:9-33 | a request error or a missing body writes nothing; otherwise the output file holds the body's text |
| `ScrapingSoup.ScrapeDocument` | Projekt/Scraping_soup.py:5-33 | the request carries the fixed User-Agent, and the disk is as `AfterScrape` says |
| `PdfTessar.TesseractCmdChoice` | Projekt/pdf_tessar.py:7-14 | a non-empty `TESSERACT_CMD` wins; an empty one counts as unset; otherwise the default path is used exactly when it exists |
| `PdfTessar.SelectTesseractCmd` | Projekt/pdf_tessar.py:7-14 | the conditional assignment computes `TesseractCmd` |
| `PdfTessar.Marker` | Projekt/pdf_tessar.py:40 | a marker starts with `--- Page ` and ends with ` ---\n` |
| `PdfTessar.MarkersDistinct` | Projekt/pdf_tessar.py:38-40 | different page numbers give different markers |
| `PdfTessar.PagesTextBlocks` | Projekt/pdf_tessar.py:37-40 | the text is the blocks `marker(i+1) + text_i + "\n"` of pages 0..n-1, in order |
| `PdfTessar.ExtractText` | Projekt/pdf_tessar.py:37-40 | the `+=` loop computes that text |
| `PdfTessar.OutputPathOfPdf` | Projekt/pdf_tessar.py:31 | `<base>.pdf` goes to `txts/<base>.txt` |
| `PdfTessar.EveryPdfWritten` | Projekt/pdf_tessar.py:28-44 | every `.pdf` name's text file holds its text after the run, unless a later PDF has the same stem |
| `PdfTessar.OutputPathInjective` | Projekt/pdf_tessar.py:31 | different stems give different output paths |
| `PdfTessar.RunScript` | Projekt/pdf_tessar.py:5-48 | the command is chosen, then every listed name is handled in listing order |
| `PyPdf2.PagesTextIsConcat` | Projekt/pypdf2.py:21-25 | the text exists exactly when no page raises, and it is every page's text (`""` for None) concatenated in order |
| `PyPdf2.ExtractText` | Projekt/pypdf2.py:21-25 | the page loop computes that text |
| `PyPdf2.PagesTextRaises` | Projekt/pypdf2.py:17-33 | once a page raises, there is no text for the file |
| `PyPdf2.UpperCasePdfSelected` | Projekt/pypdf2.py:13 | `.PDF` and `.pdf` names are both selected |
| `PyPdf2.OutputPathOfPdf` | Projekt/pypdf2.py:15 | `<base>.pdf` or `<base>.PDF` goes to `pypdf2_text/<base>.txt` |
| `PyPdf2.FailureSkipped` | Projekt/pypdf2.py:17-33 | a file whose reading raises writes nothing, and the others are processed as if it were not listed |
| `PyPdf2.ProcessFile` | Projekt/pypdf2.py:13-33 | one name: an unselected or failing file writes nothing; otherwise exactly its output file is written |
| `PyPdf2.RunScript` | Projekt/pypdf2.py:12-33 | the listing loop |
| `PdfToTextPymupdf.Readable` | Projekt/pdf_to_text_pymupdf.py:22-25 | the pages before the first failing one |
| `PdfToTextPymupdf.PrefixTextIsConcat` | Projekt/pdf_to_text_pymupdf.py:17-25 | the text of a prefix of pages is their concatenation with no separator |
| `PdfToTextPymupdf.PartialTextStopsAtFailure` | Projekt/pdf_to_text_pymupdf.py:22-30 | when page k raises, the result is pages 0..k-1 concatenated, whatever follows |
| `PdfToTextPymupdf.PartialTextComplete` | Projekt/pdf_to_text_pymupdf.py:17-25 | without failure, all pages are concatenated |
| `PdfToTextPymupdf.ExtractTextFromPdf` | Projekt/pdf_to_text_pymupdf.py:16-30 | the loop returns the partial text and never raises |
| `PdfToTextPymupdf.OutputNameOfPdf` | Projekt/pdf_to_text_pymupdf.py:43 | a name whose only `.pdf` is its ending gets `.txt` instead |
| `PdfToTextPymupdf.RunScript` | Projekt/pdf_to_text_pymupdf.py:33-49 | every `.pdf` name gets its (possibly partial) text under `txts/`, in listing order |
| `UnstructuredProcess.PdfFiles` | Projekt/unstructured_process.py:15 | only PDF names (in any case), no more than listed |
| `UnstructuredProcess.PdfFilesExactly` | Projekt/unstructured_process.py:15 | a name is selected exactly when it is listed and its lowercase form ends in `.pdf` |
| `UnstructuredProcess.FullTextSplits` | Projekt/unstructured_process.py:35 | elements without line breaks are recovered by splitting the text on `\n\n` |
| `UnstructuredProcess.OutputPathOfPdf` | Projekt/unstructured_process.py:29 | `<base>.pdf` goes to `unstruc_txt/<base>.txt` |
| `UnstructuredProcess.FailureSkipped` | Projekt/unstructured_process.py:23-44 | a failing file writes nothing, and the loop goes on as if it were not selected |
| `UnstructuredProcess.ProcessPdfs` | Projekt/unstructured_process.py:13-44 | reports whether anything was selected, and processes the selected files in order |
| `JsonConvert.TextMode` | Projekt/json_convert.py:21-22 | reading in text mode leaves no carriage return and never lengthens the text |
| `JsonConvert.TextModeKeepsPlainText` | Projekt/json_convert.py:21-22 | text without carriage returns is read unchanged |
| `JsonConvert.TextModeIdempotent` | Projekt/json_convert.py:21-22 | reading what was read changes nothing more |
| `JsonConvert.MakeRecord` | Projekt/json_convert.py:29-43 | the record keeps the name and content verbatim. The word count is the number of maximal non-whitespace runs. The line count is the number of line terminators, plus one for an unterminated last line |
| `JsonConvert.BlankCounts` | Projekt/json_convert.py:29-30 | blank content has no words, and empty content has no lines |
| `JsonConvert.JsonNameOfTxt` | Projekt/json_convert.py:46 | a name whose only `.txt` is its ending gets `.json` instead |
| `JsonConvert.JsonNameEnds` | Projekt/json_convert.py:46 | the JSON name of a `.txt` name ends in `.json` |
| `JsonConvert.JsonPathNotTxt` | Projekt/json_convert.py:46 | a JSON path is never the path of a text file |
| `JsonConvert.Converted` | Projekt/json_convert.py:6-52 | the loop never removes a file |
| `JsonConvert.TextsKept` | Projekt/json_convert.py:8-50 | every text file keeps its content, and a missing one stays missing |
| `JsonConvert.OthersKept` | Projekt/json_convert.py:8-50 | the run writes only the JSON paths of the listed text files: every other path (a `.csv` in the directory, an unrelated `.json`, a file elsewhere) keeps its presence and its content |
| `JsonConvert.RecordOfOriginal` | Projekt/json_convert.py:20-50 | each text file's JSON holds the record of its original content as read in text mode, unless a later file's JSON has the same path |
| `JsonConvert.TxtToJson` | Projekt/json_convert.py:6-52 | the listing loop leaves the disk as `Converted` says |
| `Scholar.SanitizeFilename` | Projekt/scholar.py:10-14 | the result is non-empty, at most 100 long, holds none of `< > : " / \ \| ? *`, and does not start with `.` or a space; an all-dots-and-spaces title gives `untitled` |
| `Scholar.SanitizeOneForOne` | Projekt/scholar.py:10-14 | in terms of the title itself: unless the title is all dots and spaces, the result is its cut copy (`IsCutCopy`) — its characters from the end of its leading dots and spaces on, each kept or replaced by `_` where forbidden; when shorter than 100, it does not end in a dot or space and all the title has after it is dots and spaces; when exactly 100, the stripped title reached 100 (something other than a dot or space comes at or after its 100th character) |
| `Scholar.CutCopyUnique` | Projekt/scholar.py:10-14 | a title has only one cut copy from a given place, so together with `SanitizeOneForOne` it determines the sanitized name of every title that is not all dots and spaces |
| `Scholar.SanitizeKeepsSafeName` | Projekt/scholar.py:12-14 | an already safe name is kept |
| `Scholar.Window` | Projekt/scholar.py:23-31 | at most 10 results: the stream elements from index (page-1)*10 on, in order, as many as remain |
| `Scholar.SearchArticles` | Projekt/scholar.py:16-31 | the loop with `continue`/`break` returns the window |
| `Scholar.WindowsTile` | Projekt/scholar.py:119-121 | pages 1..p together show the first p*10 results, in order |
| `Scholar.EmptyPageStaysEmpty` | Projekt/scholar.py:122-124 | after an empty page every later page is empty, so the `break` loses nothing |
| `Scholar.PdfLinks` | Projekt/scholar.py:47-53 | one link per href ending in `.pdf` in any case |
| `Scholar.PdfLinksExactly` | Projekt/scholar.py:47-53 | exactly the `.pdf` hrefs are kept; `http…` hrefs as they are, others resolved against the article URL (section 5.2 of RFC 3986) |
| `Scholar.FindPdfLinks` | Projekt/scholar.py:33-57 | a failed request gives []; otherwise the links in document order |
| `Scholar.DownloadVerdict` | Projekt/scholar.py:66-95 | a file is kept only for a complete stream with a PDF Content-Type and a `%PDF` header (section 7.5.2 of ISO 32000-1). A wrong Content-Type is rejected before writing. Request failures fail |
| `Scholar.DownloadKeepsOnlyPdfs` | Projekt/scholar.py:77-95 | no other file is touched; a file created or changed starts with `%PDF`; every failure after the Content-Type check leaves no file |
| `Scholar.WriteChunks` | Projekt/scholar.py:77-81 | the file is extended by the chunks in order |
| `Scholar.DownloadPdf` | Projekt/scholar.py:59-95 | returns the verdict and leaves the disk as `AfterDownload` says |
| `Scholar.HeaderCheck` | Projekt/scholar.py:84-86 | comparing `f.read(4)` with `%PDF` is the header test |
| `Scholar.StreamOutcome` | Projekt/scholar.py:76-95 | an interrupted stream's file is removed; a complete one is kept exactly when it has the header |
| `Scholar.SaveStream` | Projekt/scholar.py:76-95 | writing, checking and removing leave the disk as `AfterDownload` says |
| `Scholar.ParseKeywords` | Projekt/scholar.py:102-103 | every keyword is stripped, non-empty and comma-free |
| `Scholar.ReadKeywords` | Projekt/scholar.py:102-103 | the two statements compute `ParseKeywords` |
| `Scholar.ParseKeywordsOfJoin` | Projekt/scholar.py:102-103 | typing keywords separated by commas gives back exactly those keywords |
| `Scholar.ParseKeywordsOfEmpty` | Projekt/scholar.py:102-106 | an empty answer gives no keywords |
| `Scholar.ParseKeywordsOfPieces` | Projekt/scholar.py:102-103 | when the pieces are proper keywords, they are the result |
| `Scholar.PageCount` | Projekt/scholar.py:108-114 | the page count is at least 1 |
| `Scholar.PageCountOfNumeral` | Projekt/scholar.py:109-110 | typing a positive number gives that many pages |
| `Scholar.ArticleUrl` | Projekt/scholar.py:128-131 | a non-empty `pub_url` wins, else a non-empty bib URL, else none |
| `Scholar.BaseTitle` | Projekt/scholar.py:141 | non-empty and not starting with `/` |
| `Scholar.TargetPathSuffixed` | Projekt/scholar.py:140-143 | with several links, link idx goes to `scholar_pdf/<base>_<idx>.pdf` |
| `Scholar.TargetPathsDistinct` | Projekt/scholar.py:140-143 | with several links, every link gets its own file |
| `Scholar.TargetPathSingle` | Projekt/scholar.py:142-143 | with one link there is no suffix |
| `Scholar.AfterLinksKeepsExisting` | Projekt/scholar.py:145-149 | an existing file is skipped, never overwritten or removed |
| `Scholar.DownloadLinks` | Projekt/scholar.py:140-149 | the link loop leaves the disk as `AfterLinks` says |
| `Scholar.ProcessPub` | Projekt/scholar.py:126-149 | one result: no URL or no links does nothing; otherwise its links are downloaded |
| `Scholar.AfterPubsAppend` | Projekt/scholar.py:119-149 | processing two runs of results in turn is processing their concatenation |
| `Scholar.PubStepKeepsExisting` | Projekt/scholar.py:145-147 | one result never changes an existing file |
| `Scholar.AfterPubsKeepsExisting` | Projekt/scholar.py:126-149 | nor does any run of results |
| `Scholar.ProcessPubs` | Projekt/scholar.py:126-149 | the loop over a page's results |
| `Scholar.SearchKeyword` | Projekt/scholar.py:119-149 | for `num_pages` ≥ 1, at most that many pages, each the non-empty window of its number. The loop stops early only at an empty page. Together the pages are the first `num_pages*10` results, and those are processed |
| `Scholar.PagesTile` | Projekt/scholar.py:119-125 | the pages shown so far are the first results |
| `Scholar.SearchPage` | Projekt/scholar.py:120-149 | one turn of the page loop: an empty page changes nothing |
| `Scholar.AfterKeywordsKeepsExisting` | Projekt/scholar.py:117-149 | a file that existed before `main` is unchanged after it |
| `Scholar.RunScript` | Projekt/scholar.py:97-149 | the keywords are the parsed answer (none: return). Each keyword's first `pages*10` results are processed, in keyword order |
| `Scholar.SearchKeywords` | Projekt/scholar.py:117-149 | the keyword loop |
| `Scholar.SearchKeywordFrom` | Projekt/scholar.py:118-149 | one keyword: its first `pages*10` results are processed |
| `Html.FindAll` | Projekt/Scraping.py:17 | `find_all(tag)` returns only elements with that tag |
| `Html.FindFirst` | Projekt/Scraping_soup.py:25 | `find(tag)` is None exactly when `find_all` is empty, else an element with that tag |
| `Html.Hrefs` | Projekt/hrcak.py:99-100 | at most one href per anchor |
| `Html.PruneRemovesAll` | Projekt/Scraping_soup.py:19-22 | after `decompose`, no element with a removed tag remains |
| `Html.PruneNothingToDrop` | Projekt/Scraping_soup.py:19-22 | a document without such elements is unchanged |
| `Html.PruneIdempotent` | Projekt/Scraping_soup.py:19-22 | pruning twice is pruning once |
| `Html.PruneRemovesOnlyText` | Projekt/Scraping_soup.py:19-22 | pruning adds no text: the strings left are a sub-multiset of the document's strings |
| `Html.PruneCompose` | Projekt/Scraping_soup.py:19-22 | pruning two tag sets in turn is pruning their union |
| `Html.AbsentBelowFound` | Projekt/Scraping_soup.py:25-31 | a tag absent from the document is absent below any found element |
| `Fs.PathJoin` | Projekt/arxiv.py:106 | a relative name joins a folder without trailing `/` as `folder/name` |
| `Fs.PathJoinInjective` | Projekt/pdf_tessar.py:31 | different names give different paths in the same relative folder |
| `Fs.Stem` | Projekt/pdf_tessar.py:31 | the stem is a prefix of the name |
| `Fs.StemOfName` | Projekt/pypdf2.py:15 | `splitext` of `<base><.ext>` gives `<base>` |
| `Fs.TxtPathOfName` | Projekt/pdf_tessar.py:31 | the output file of a plain `<base><ext>` is `<folder>/<base>.txt`, for any folder without a trailing `/`; the three conversion scripts share this rule |
| `Fs.Disk.Create` | Projekt/Pocetak_soup.py:35 | `open(path, 'w')` leaves an empty file |
| `Fs.Disk.Write` | Projekt/Kreiranje_korp.py:43-46 | `write` appends to the file's contents |
| `Fs.Disk.Remove` | Projekt/Kreiranje_korp.py:93 | `os.remove` deletes the file |
| `Fs.WriteFile` | Projekt/pypdf2.py:28-29 | open-write leaves exactly the data |
| `Fs.WriteLines` | Projekt/Pocetak.py:51-53 | open, then a `write` of each line with its ending, leaves the terminated lines |
| `Fs.BatchUntouched` | Projekt/pdf_to_text_pymupdf.py:34-47 | a path no iteration writes keeps its presence and contents |
| `Fs.BatchLastWrite` | Projekt/pdf_tessar.py:28-44 | the last iteration that writes a path decides its contents |
| `Fs.BatchSkip` | Projekt/unstructured_process.py:23-44 | an iteration that writes nothing can be taken out of the listing |
| `PyLines.Words` | Projekt/json_convert.py:29 | `split()` gives non-empty, whitespace-free words |
| `PyLines.WordCountIsRunStarts` | Projekt/json_convert.py:29 | the number of words is the number of runs of non-whitespace |
| `PyLines.SplitLines` | Projekt/json_convert.py:30 | `splitlines()` gives lines without terminators |
| `PyLines.LineCountIsTerminators` | Projekt/json_convert.py:30 | the number of lines is the number of terminators (`\r\n` once) plus one for an unterminated last line |
| `PyNum.IntToString` | Projekt/arxiv.py:76-77 | `str(n)` is an optional minus and digits, with the minus exactly for negative n |
| `PyNum.ParseIntOfIntToString` | Projekt/arxiv.py:55 | `int(str(n)) == n` |
| `PyNum.IntToStringInjective` | Projekt/hrcak.py:89 | different integers print differently |
| `PyStr.JoinSplit` | Projekt/scholar.py:102 | joining the pieces of a split with the separator gives the string back |
| `PyStr.SplitJoin` | Projekt/Unstructured.py:29 | splitting a join gives the pieces back, when no piece holds the separator's first character |
| `PyStr.StripNonEmpty` | Projekt/scholar.py:103 | the comprehension keeps, in order, exactly the stripped pieces that are non-empty |
| `PyChars.Lower` | Projekt/pypdf2.py:13 | `lower()` keeps the length and maps each character on its own |

## Left out

- Network access is not modelled. `requests.get`, `feedparser.parse` and `scholarly.search_pubs` are parameters: a response is a status, headers and a body, or a transport failure.
- HTML parsing internals are not modelled. BeautifulSoup becomes a parser parameter that yields an element tree.
- `Html.Node` has no comment or CDATA kind. In BeautifulSoup, `.string` of an anchor whose only child is a comment is that comment, so `find('a', text='PDF')` in `Projekt/doaj.py` also matches `<a><!--PDF--></a>`. The model treats that case as whatever the parser parameter yields.
- `decompose()` in `Projekt/Scraping_soup.py` is modelled on values: the pruned tree is a new value rather than the same tree changed in place.
- `urllib.parse.quote` and `urljoin` are uninterpreted function parameters.
- PDF libraries and OCR are not modelled. PyPDF2, PyMuPDF, pdf2image, pytesseract and `partition_pdf`/`partition_text` give page texts or elements as inputs, with optional failure points.
- `POPPLER_PATH` is only passed through to the renderer, so it is not modelled.
- Exceptions that pdf2image and pytesseract raise in `Projekt/pdf_tessar.py` are not modelled.
- NLTK's `word_tokenize`, its English stopword set and `WordNetLemmatizer` are parameters.
- Word2Vec training and loading (`Projekt/Kreiranje_korp.py:77-87`, `Projekt/Pocetak_soup.py:63-66`) are floating-point numerics. The model keeps two things: training a new model on sentences without any word raises, and a successful run saves `word2vec.model`, whose contents are a parameter.
- `KreiranjeKorp.RunScript`: updating an existing model (`build_vocab(update=True)` and `train`) is taken to succeed, even on sentences without words.
- The transformer sentiment and NER pipelines (`Projekt/Unstructured.py:62-87`) are left out; the model keeps only the choice of texts they are run on.
- Character classes are modelled only up to U+017F. `str.isalpha`, `isalnum`, `isdigit` and `lower` hold their Python meaning on ASCII and Latin-1/Latin Extended-A; `İ` (U+0130) is left unchanged by `Lower`.
- `int()` does not accept `_` digit separators or non-ASCII digits in this model.
- `Projekt/Scraping_spacy.py` is not part of this model. `Projekt/Kreiranje_korp.py` imports its `scrape_document`, so what it does is an input: it raises, it returns after a failed request without writing, or it writes a text to `document.txt`. A raise is taken to come before the file is opened for writing.
- `Projekt/json_convert.py` is modelled without some fields and paths:
  - the `os.stat` size and the creation and modification times;
  - the latin-1 decoding fallback;
  - `json.dump` formatting, which is a parameter.
- Printing is not modelled, including the output of `display_results` in `Projekt/doaj.py` and tqdm progress. The values printed (ISSNs, DOIs, journal link, PDF link, previews) are modelled.
- `os.makedirs` is not modelled. `os.listdir` is a parameter: the listing, in the order it returns names.
- Request headers are modelled only where they are checked. The User-Agent sent by `Projekt/scholar.py` and the `timeout=10` are not.
- `Scholar.SearchKeyword`: the `scholarly` stream for a keyword is a finite sequence, the same on every call. The model does not capture a stream that changes between page requests, or an infinite one.
- `Scholar.ProcessPub`: `pub['bib']` is taken to be present. The `KeyError` the script would raise without it is not modelled.
- `Hrcak.RunScript`: a failed request raises and ends the run; the model records this as `aborted` instead of modelling the traceback.

=== FILE: arxiv.dfy ===
/**
 * Projekt/arxiv.py: a keyword search of the arXiv API, page by page, and
 * the download of each entry's PDF into arxiv_pdf/.  Parsing the Atom feed
 * of a query URL, percent-encoding the keywords and the PDF requests are
 * inputs of the model.
 */
module Arxiv {
  import opened Base
  import opened PyStr
  import opened PyChars
  import opened PyNum
  import opened Fs
  import opened Http

  // ---------------------------------------------------------------------
  // sanitize_filename

  const Forbidden: set<char> := {'\\', '/', '*', '?', ':', '"', '<', '>', '|'}

  /** `sanitize_filename`: every forbidden character is deleted, then
      surrounding whitespace is stripped.  With `d` the name without its
      forbidden characters (`DeleteIsFilter` says which those are), the result
      is the part of `d` between a leading and a trailing run of whitespace,
      and itself neither starts nor ends with whitespace (`IsStripOfUnique`:
      no other string is). */
  function SanitizeFilename(filename: string): (r: string)
    ensures NoneIn(r, Forbidden)
    ensures |r| <= |filename|
    ensures forall c :: c in r ==> c in filename
    ensures IsStripOf(r, Delete(filename, Forbidden), Whitespace)
  {
    var deleted := Delete(filename, Forbidden);
    StripSetKeepsNoneIn(deleted, Whitespace, Forbidden);
    var r := StripSet(deleted, Whitespace);
    var a := LeadIn(deleted, Whitespace);
    assert forall c :: c in r ==> c in deleted by {
      forall c | c in r ensures c in deleted {
        var k :| 0 <= k < |r| && r[k] == c;
        StripSetIndex(deleted, Whitespace, k);
      }
    }
    r
  }

  /** Sanitizing a sanitized name changes nothing. */
  lemma SanitizeIdempotent(filename: string)
    ensures SanitizeFilename(SanitizeFilename(filename)) == SanitizeFilename(filename)
  {
    var r := SanitizeFilename(filename);
    DeleteAbsent(r, Forbidden);
    StripOfFixed(r, Delete(filename, Forbidden), Whitespace);
  }

  /** A name with no forbidden character and no surrounding whitespace is
      kept as it is; in particular a character that is neither forbidden nor
      whitespace is never lost from the inside of a name. */
  lemma SanitizeKeepsCleanName(name: string)
    requires NoneIn(name, Forbidden)
    requires name == [] || (name[0] !in Whitespace && name[|name| - 1] !in Whitespace)
    ensures SanitizeFilename(name) == name
  {
    DeleteAbsent(name, Forbidden);
    StripSetFixed(name, Whitespace);
  }

  // ---------------------------------------------------------------------
  // The query of each result page

  const ResultsPerPage: int := 10
  const BaseUrl: string := "http://export.arxiv.org/api/query?"
  const ApiPath: string := "http://export.arxiv.org/api/query"

  /** The query URL of page index `page` (0-based), for keywords already
      percent-encoded. */
  function QueryUrl(encoded: string, page: int): string
  {
    BaseUrl + "search_query=all:" + encoded
      + "&start=" + IntToString(page * ResultsPerPage) + "&max_results=" + IntToString(ResultsPerPage)
  }

  /** The API reads the query of page `page` as the search, a start offset
      and a result count of 10, provided the encoded keywords hold no '?' or
      '&' (percent-encoding escapes both). */
  lemma QueryUrlParams(encoded: string, page: int)
    requires NoneIn(encoded, {'?', '&'})
    ensures QueryParams(QueryUrl(encoded, page)) ==
            ["search_query=all:" + encoded, "start=" + IntToString(page * 10), "max_results=" + IntToString(10)]
  {
    var search := "search_query=all:" + encoded;
    var start := "start=" + IntToString(page * 10);
    var max := "max_results=" + IntToString(10);
    NumericParamClean("start=", page * 10);
    NumericParamClean("max_results=", 10);
    NoneInConcat("search_query=all:", encoded, {'?', '&'});
    QueryUrlShape(encoded, page);
    QueryParamsOf(ApiPath, [search, start, max]);
  }

  lemma QueryUrlShape(encoded: string, page: int)
    ensures QueryUrl(encoded, page) ==
            ApiPath + "?" + Join(["search_query=all:" + encoded, "start=" + IntToString(page * 10),
                                  "max_results=" + IntToString(10)], "&")
  {
    var search := "search_query=all:" + encoded;
    var start := "start=" + IntToString(page * 10);
    var max := "max_results=" + IntToString(10);
    QueryUrlPieces(encoded, page);
    JoinThree(search, start, max, "&");
  }

  lemma QueryUrlPieces(encoded: string, page: int)
    ensures QueryUrl(encoded, page) ==
            ApiPath + "?" + ("search_query=all:" + encoded) + "&" +
            (("start=" + IntToString(page * 10)) + "&" + ("max_results=" + IntToString(10)))
  {
    var search := "search_query=all:" + encoded;
    var start := "start=" + IntToString(page * 10);
    var max := "max_results=" + IntToString(10);
    var head := BaseUrl + "search_query=all:" + encoded;
    assert head == ApiPath + "?" + search by {
      assert BaseUrl == ApiPath + "?";
      AppendAssoc(BaseUrl, "search_query=all:", encoded);
    }
    assert head + "&start=" + IntToString(page * 10) == head + "&" + start by {
      assert "&start=" == "&" + "start=";
      AppendAssoc(head, "&", "start=");
      AppendAssoc(head + "&", "start=", IntToString(page * 10));
    }
    var front := head + "&" + start;
    assert front + "&max_results=" + IntToString(10) == front + "&" + max by {
      assert "&max_results=" == "&" + "max_results=";
      AppendAssoc(front, "&", "max_results=");
      AppendAssoc(front + "&", "max_results=", IntToString(10));
    }
    AppendAssoc(head + "&", start, "&");
    AppendAssoc(head + "&", start + "&", max);
  }

  /** ... and `int` reads the start offset `page * 10` and the count 10 back. */
  lemma QueryUrlNumbers(encoded: string, page: int)
    requires NoneIn(encoded, {'?', '&'})
    ensures var q := QueryParams(QueryUrl(encoded, page));
            |q| == 3 && StartsWith(q[1], "start=") && ParseInt(q[1][6..]) == Some(page * 10) &&
            StartsWith(q[2], "max_results=") && ParseInt(q[2][12..]) == Some(10)
  {
    QueryUrlParams(encoded, page);
    NumericParamValue("start=", page * 10);
    NumericParamValue("max_results=", 10);
  }

  /** Different pages are asked for with different URLs. */
  lemma QueryUrlsDistinct(encoded: string, a: int, b: int)
    requires QueryUrl(encoded, a) == QueryUrl(encoded, b)
    ensures a == b
  {
    var head := BaseUrl + "search_query=all:" + encoded + "&start=";
    var tail := "&max_results=" + IntToString(ResultsPerPage);
    var sa := IntToString(a * ResultsPerPage);
    var sb := IntToString(b * ResultsPerPage);
    var u := QueryUrl(encoded, a);
    assert u == head + sa + tail;
    assert u == head + sb + tail;
    assert |sa| == |sb|;
    assert sa == u[|head|..|head| + |sa|];
    assert sb == u[|head|..|head| + |sb|];
    IntToStringInjective(a * ResultsPerPage, b * ResultsPerPage);
  }

  // ---------------------------------------------------------------------
  // Entries and their PDF links

  /** An Atom `link` element: its `type` attribute if present, and its href. */
  datatype Link = Link(kind: Option<string>, href: string)

  /** A feed entry: its title if present, and its links. */
  datatype Entry = Entry(title: Option<string>, links: seq<Link>)

  const PdfType: string := "application/pdf"

  predicate IsPdfLink(l: Link) { l.kind == Some(PdfType) }

  /** The PDF URL of an entry: the href of its first link typed
      "application/pdf"; links after it are not looked at. */
  function PdfUrl(links: seq<Link>): (r: Option<string>)
    ensures r.None? <==> forall k :: 0 <= k < |links| ==> !IsPdfLink(links[k])
    ensures r.Some? ==> exists i :: 0 <= i < |links| && IsPdfLink(links[i]) && links[i].href == r.value &&
                                    forall j :: 0 <= j < i ==> !IsPdfLink(links[j])
  {
    match FirstIndex(links, IsPdfLink)
    case None => None
    case Some(i) => Some(links[i].href)
  }

  /** Changing or adding links after the first PDF link does not change the
      PDF URL. */
  lemma PdfUrlIgnoresLaterLinks(links: seq<Link>, i: nat, later: seq<Link>)
    requires i < |links| && IsPdfLink(links[i])
    requires forall j :: 0 <= j < i ==> !IsPdfLink(links[j])
    ensures PdfUrl(links[..i + 1] + later) == Some(links[i].href)
  {
    var s := links[..i + 1] + later;
    assert s[i] == links[i];
    var f := FirstIndex(s, IsPdfLink).value;
    assert s[f] == links[f] || f > i;
  }

  /** The inner loop of `main` over `entry.links`, which stops at the first
      PDF link. */
  method FindPdfUrl(links: seq<Link>) returns (pdfUrl: Option<string>)
    ensures pdfUrl == PdfUrl(links)
  {
    pdfUrl := None;
    var i := 0;
    while i < |links|
      invariant 0 <= i <= |links|
      invariant pdfUrl.None?
      invariant forall j :: 0 <= j < i ==> !IsPdfLink(links[j])
    {
      if links[i].kind.Some? && links[i].kind.value == PdfType {
        pdfUrl := Some(links[i].href);
        break;
      }
      i := i + 1;
    }
    if pdfUrl.Some? {
      assert links[..i + 1] + links[i + 1..] == links;
      PdfUrlIgnoresLaterLinks(links, i, links[i + 1..]);
    }
  }

  /** The title used for the file name: "untitled" when the entry has none. */
  function EntryTitle(e: Entry): string
  {
    match e.title case Some(t) => t case None => "untitled"
  }

  /** Where an entry's PDF is saved: `os.path.join("arxiv_pdf", ...)` of
      the sanitized title with ".pdf". */
  function EntryPath(e: Entry): string
  {
    PathJoin("arxiv_pdf", SanitizeFilename(EntryTitle(e)) + ".pdf")
  }

  /** The PDF always lands directly inside arxiv_pdf/: the sanitized title
      cannot hold a '/' and so cannot make the name absolute. */
  lemma EntryPathShape(e: Entry)
    ensures EntryPath(e) == "arxiv_pdf/" + SanitizeFilename(EntryTitle(e)) + ".pdf"
    ensures NoneIn(SanitizeFilename(EntryTitle(e)), {'/'})
  {
    var safe := SanitizeFilename(EntryTitle(e));
    assert '/' in Forbidden;
    RelativeName(safe, ".pdf");
  }

  /** A name that holds no '/' and is followed by a suffix starting with
      '.' is joined under arxiv_pdf/. */
  lemma RelativeName(safe: string, suffix: string)
    requires NoneIn(safe, {'/'}) && suffix != [] && suffix[0] == '.'
    ensures PathJoin("arxiv_pdf", safe + suffix) == "arxiv_pdf/" + safe + suffix
  {
    var name := safe + suffix;
    assert name[0] == (if safe != [] then safe[0] else '.');
    assert !StartsWith(name, "/");
  }

  // ---------------------------------------------------------------------
  // main

  /** One entry: downloaded to its path when it has a non-empty PDF URL
      (`if pdf_url:`), skipped otherwise. */
  function EntryStep(files: map<string, seq<byte>>, e: Entry, fetch: string -> Response): map<string, seq<byte>>
  {
    match PdfUrl(e.links)
    case Some(u) => if u != [] then AfterSave(files, EntryPath(e), fetch(u)) else files
    case None => files
  }

  /** The disk after the entries of one page. */
  function AfterEntries(files: map<string, seq<byte>>, entries: seq<Entry>, fetch: string -> Response): map<string, seq<byte>>
    decreases |entries|
  {
    if entries == [] then files
    else
      var n := |entries| - 1;
      EntryStep(AfterEntries(files, entries[..n], fetch), entries[n], fetch)
  }

  /** The disk after the first `pages` result pages; a page whose feed has no
      entries changes nothing and the next page is still searched. */
  function AfterPages(files: map<string, seq<byte>>, encoded: string, pages: nat,
                      feed: string -> Option<seq<Entry>>, fetch: string -> Response): map<string, seq<byte>>
  {
    if pages == 0 then files
    else
      PageStep(AfterPages(files, encoded, pages - 1, feed, fetch), feed(QueryUrl(encoded, pages - 1)), fetch)
  }

  /** The disk after one page whose feed gave `result`. */
  function PageStep(files: map<string, seq<byte>>, result: Option<seq<Entry>>, fetch: string -> Response): map<string, seq<byte>>
  {
    match result
    case None => files
    case Some(entries) => AfterEntries(files, entries, fetch)
  }

  /** An entry without a PDF link is skipped: it changes nothing on disk. */
  lemma EntryWithoutPdfSkipped(files: map<string, seq<byte>>, e: Entry, fetch: string -> Response)
    requires forall k :: 0 <= k < |e.links| ==> !IsPdfLink(e.links[k])
    ensures EntryStep(files, e, fetch) == files
  {
  }

  /** Only entry paths are written: a file at any other path is untouched by
      the entries of a page. */
  lemma {:induction false} AfterEntriesOnlyEntryPaths(files: map<string, seq<byte>>, entries: seq<Entry>,
                                                      fetch: string -> Response, p: string)
    requires forall k :: 0 <= k < |entries| ==> EntryPath(entries[k]) != p
    ensures p in AfterEntries(files, entries, fetch) <==> p in files
    ensures p in files ==> AfterEntries(files, entries, fetch)[p] == files[p]
    decreases |entries|
  {
    if entries != [] {
      var n := |entries| - 1;
      AfterEntriesOnlyEntryPaths(files, entries[..n], fetch, p);
    }
  }

  /** An empty page does not end the search: the pages after it are
      processed just as if it had not been there. */
  lemma EmptyPageContinues(files: map<string, seq<byte>>, encoded: string, k: nat,
                           feed: string -> Option<seq<Entry>>, fetch: string -> Response)
    requires feed(QueryUrl(encoded, k)) == None || feed(QueryUrl(encoded, k)) == Some([])
    ensures AfterPages(files, encoded, k + 1, feed, fetch) == AfterPages(files, encoded, k, feed, fetch)
  {
  }

  /** The loop of `main` over the entries of one page. */
  method DownloadEntries(disk: Disk<byte>, entries: seq<Entry>, fetch: string -> Response)
    modifies disk
    ensures disk.files == AfterEntries(old(disk.files), entries, fetch)
  {
    var j := 0;
    while j < |entries|
      invariant 0 <= j <= |entries|
      invariant disk.files == AfterEntries(old(disk.files), entries[..j], fetch)
    {
      assert entries[..j + 1][..j] == entries[..j];
      ghost var before := disk.files;
      var entry := entries[j];
      var pdfUrl := FindPdfUrl(entry.links);
      if pdfUrl.Some? && pdfUrl.value != [] {
        var title := EntryTitle(entry);
        var safeTitle := SanitizeFilename(title);
        var filePath := PathJoin("arxiv_pdf", safeTitle + ".pdf");
        assert filePath == EntryPath(entry);
        SaveResponse(disk, fetch(pdfUrl.value), filePath);
      }
      assert disk.files == EntryStep(before, entry, fetch);
      j := j + 1;
    }
    assert entries[..j] == entries;
  }

  /** The disk after the feeds of `urls`, requested in order. */
  function AfterUrls(files: map<string, seq<byte>>, urls: seq<string>,
                     feed: string -> Option<seq<Entry>>, fetch: string -> Response): map<string, seq<byte>>
    decreases |urls|
  {
    if urls == [] then files
    else
      var n := |urls| - 1;
      PageStep(AfterUrls(files, urls[..n], feed, fetch), feed(urls[n]), fetch)
  }

  /** Requesting the query URLs of pages 0 to n-1, in order, leaves the disk
      as the first n pages do. */
  lemma {:induction false} AfterUrlsArePages(files: map<string, seq<byte>>, urls: seq<string>, encoded: string,
                                             feed: string -> Option<seq<Entry>>, fetch: string -> Response)
    requires forall k :: 0 <= k < |urls| ==> urls[k] == QueryUrl(encoded, k)
    ensures AfterUrls(files, urls, feed, fetch) == AfterPages(files, encoded, |urls|, feed, fetch)
    decreases |urls|
  {
    if urls != [] {
      var n := |urls| - 1;
      AfterUrlsArePages(files, urls[..n], encoded, feed, fetch);
    }
  }

  /** Requesting the next page keeps the requested URLs those of pages 0,
      1, ... in order. */
  lemma QueryUrlsSnoc(requested: seq<string>, encoded: string, page: nat)
    requires |requested| == page && forall k :: 0 <= k < page ==> requested[k] == QueryUrl(encoded, k)
    ensures var next := requested + [QueryUrl(encoded, page)];
            next[..page] == requested && forall k :: 0 <= k < page + 1 ==> next[k] == QueryUrl(encoded, k)
  {
  }

  /** One iteration of the page loop of `main`: the query URL of page
      `page` is requested and the entries of its feed, if any, downloaded. */
  method SearchPage(disk: Disk<byte>, encoded: string, page: nat,
                    feed: string -> Option<seq<Entry>>, fetch: string -> Response)
    returns (queryUrl: string)
    modifies disk
    ensures queryUrl == QueryUrl(encoded, page)
    ensures disk.files == PageStep(old(disk.files), feed(queryUrl), fetch)
  {
    queryUrl := QueryUrl(encoded, page);
    var entries := feed(queryUrl);
    if entries.None? || entries.value == [] {
      return;
    }
    DownloadEntries(disk, entries.value, fetch);
  }

  /** The page loop of `main`: page indices 0 to `numPages - 1` are each
      searched, in order, whatever the earlier pages held; it returns the
      query URLs it requested. */
  method SearchPages(disk: Disk<byte>, encoded: string, numPages: int,
                     feed: string -> Option<seq<Entry>>, fetch: string -> Response)
    returns (requested: seq<string>)
    modifies disk
    ensures |requested| == (if numPages < 0 then 0 else numPages)
    ensures forall k :: 0 <= k < |requested| ==> requested[k] == QueryUrl(encoded, k)
    ensures disk.files == AfterPages(old(disk.files), encoded, |requested|, feed, fetch)
  {
    requested := [];
    var page := 0;
    while page < numPages
      invariant 0 <= page
      invariant if numPages < 0 then page == 0 else page <= numPages
      invariant |requested| == page
      invariant forall k :: 0 <= k < page ==> requested[k] == QueryUrl(encoded, k)
      invariant disk.files == AfterUrls(old(disk.files), requested, feed, fetch)
    {
      var queryUrl := SearchPage(disk, encoded, page, feed, fetch);
      QueryUrlsSnoc(requested, encoded, page);
      requested := requested + [queryUrl];
      page := page + 1;
    }
    AfterUrlsArePages(old(disk.files), requested, encoded, feed, fetch);
  }

  /** `main`, with the two answers typed at its prompts: a page count that
      `int` rejects ends it before any request. */
  method RunScript(disk: Disk<byte>, keywords: string, pagesAnswer: string, quote: string -> string,
              feed: string -> Option<seq<Entry>>, fetch: string -> Response)
    returns (requested: seq<string>)
    modifies disk
    ensures ParseInt(pagesAnswer).None? ==> requested == [] && disk.files == old(disk.files)
    ensures ParseInt(pagesAnswer).Some? ==>
              |requested| == (if ParseInt(pagesAnswer).value < 0 then 0 else ParseInt(pagesAnswer).value)
    ensures forall k :: 0 <= k < |requested| ==> requested[k] == QueryUrl(quote(keywords), k)
    ensures disk.files == AfterPages(old(disk.files), quote(keywords), |requested|, feed, fetch)
  {
    var numPages := ParseInt(pagesAnswer);
    if numPages.None? {
      return [];
    }
    var encodedKeywords := quote(keywords);
    requested := SearchPages(disk, encodedKeywords, numPages.value, feed, fetch);
  }
}

=== FILE: base.dfy ===
/** Small value types shared by every module of the model. */
module Base {

  /** Python's `None` or a value. */
  datatype Option<T> = None | Some(value: T)

  /** One octet of a downloaded payload. */
  newtype byte = b: int | 0 <= b < 256

  /** Sequence concatenation is associative. */
  lemma AppendAssoc<T>(a: seq<T>, b: seq<T>, c: seq<T>)
    ensures a + (b + c) == a + b + c
  {
  }

  /** A prefix is a shorter prefix followed by the slice between them. */
  lemma PrefixSplit<T>(s: seq<T>, i: nat, j: nat)
    requires i <= j <= |s|
    ensures s[..j] == s[..i] + s[i..j]
  {
  }

  /** Concatenation of a sequence of sequences, in order. */
  function Concat<T>(parts: seq<seq<T>>): (r: seq<T>)
    decreases |parts|
  {
    if parts == [] then [] else Concat(parts[..|parts| - 1]) + parts[|parts| - 1]
  }

  /** The concatenation of a non-empty part list ends with its last part. */
  lemma ConcatLast<T>(parts: seq<seq<T>>)
    requires parts != []
    ensures Concat(parts) == Concat(parts[..|parts| - 1]) + parts[|parts| - 1]
  {
    var n := |parts| - 1;
    assert parts == parts[..n] + [parts[n]];
    ConcatSnoc(parts[..n], parts[n]);
  }

  /** Concatenation distributes over appending one more part. */
  lemma ConcatSnoc<T>(parts: seq<seq<T>>, p: seq<T>)
    ensures Concat(parts + [p]) == Concat(parts) + p
  {
    assert (parts + [p])[..|parts|] == parts;
  }

  /** Concatenation distributes over the concatenation of two part lists. */
  lemma {:induction false} ConcatAppend<T>(a: seq<seq<T>>, b: seq<seq<T>>)
    ensures Concat(a + b) == Concat(a) + Concat(b)
    decreases |b|
  {
    if b == [] {
      assert a + b == a;
    } else {
      var b' := b[..|b| - 1];
      assert a + b == (a + b') + [b[|b| - 1]];
      assert b == b' + [b[|b| - 1]];
      ConcatSnoc(a + b', b[|b| - 1]);
      ConcatAppend(a, b');
      ConcatSnoc(b', b[|b| - 1]);
    }
  }

  /** Concatenation taken from the front: the first part, then the rest. */
  lemma ConcatCons<T>(p: seq<T>, parts: seq<seq<T>>)
    ensures Concat([p] + parts) == p + Concat(parts)
  {
    ConcatAppend([p], parts);
    assert Concat([p]) == Concat([] + [p]);
    ConcatSnoc([], p);
  }

  /** `bool(s)` for a sequence: it is not empty. */
  predicate NonEmpty<T>(s: seq<T>) { s != [] }

  /** The elements of `s` that satisfy `p`, in their original order (a list
      comprehension with an `if`). */
  function Filter<T>(s: seq<T>, p: T -> bool): (r: seq<T>)
    ensures |r| <= |s|
    ensures forall k :: 0 <= k < |r| ==> p(r[k])
    ensures multiset(r) <= multiset(s)
    decreases |s|
  {
    if s == [] then []
    else
      assert s == [s[0]] + s[1..];
      (if p(s[0]) then [s[0]] else []) + Filter(s[1..], p)
  }

  /** Filtering distributes over concatenation. */
  lemma {:induction false} FilterAppend<T>(a: seq<T>, b: seq<T>, p: T -> bool)
    ensures Filter(a + b, p) == Filter(a, p) + Filter(b, p)
    decreases |a|
  {
    if a == [] {
      assert a + b == b;
    } else {
      assert (a + b)[0] == a[0];
      assert (a + b)[1..] == a[1..] + b;
      FilterAppend(a[1..], b, p);
    }
  }

  /** Filtering a sequence extended by one element. */
  lemma FilterSnoc<T>(s: seq<T>, x: T, p: T -> bool)
    ensures p(x) ==> Filter(s + [x], p) == Filter(s, p) + [x]
    ensures !p(x) ==> Filter(s + [x], p) == Filter(s, p)
  {
    FilterAppend(s, [x], p);
    assert Filter([x], p) == (if p(x) then [x] else []) + Filter([], p);
  }

  /** Nothing that satisfies `p` is lost by filtering. */
  lemma {:induction false} FilterKeeps<T>(s: seq<T>, p: T -> bool, x: T)
    requires x in s && p(x)
    ensures x in Filter(s, p)
    decreases |s|
  {
    if s[0] != x {
      FilterKeeps(s[1..], p, x);
    }
  }

  /** A sequence every element of which satisfies `p` is its own filtering. */
  lemma {:induction false} FilterAll<T>(s: seq<T>, p: T -> bool)
    requires forall k :: 0 <= k < |s| ==> p(s[k])
    ensures Filter(s, p) == s
    decreases |s|
  {
    if s != [] {
      FilterAll(s[1..], p);
    }
  }

  /** Index of the first element that satisfies `p`: where a loop that
      breaks at its first match stops. */
  function FirstIndex<T>(s: seq<T>, p: T -> bool): (r: Option<nat>)
    ensures r.Some? ==> r.value < |s| && p(s[r.value])
    ensures r.Some? ==> forall j :: 0 <= j < r.value ==> !p(s[j])
    ensures r.None? <==> forall k :: 0 <= k < |s| ==> !p(s[k])
    decreases |s|
  {
    if s == [] then None
    else if p(s[0]) then Some(0)
    else
      match FirstIndex(s[1..], p)
      case None => None
      case Some(i) => Some(i + 1)
  }

  /** Filtering with two tests that agree on every element gives the same result. */
  lemma {:induction false} FilterAgree<T>(s: seq<T>, p: T -> bool, q: T -> bool)
    requires forall k :: 0 <= k < |s| ==> p(s[k]) == q(s[k])
    ensures Filter(s, p) == Filter(s, q)
    decreases |s|
  {
    if s != [] {
      FilterAgree(s[1..], p, q);
    }
  }

  /** An element is in the filtered sequence exactly when it is in the
      sequence and satisfies the test. */
  lemma FilterMember<T>(s: seq<T>, p: T -> bool, x: T)
    ensures x in Filter(s, p) <==> x in s && p(x)
  {
    if x in s && p(x) {
      FilterKeeps(s, p, x);
    }
    if x in Filter(s, p) {
      assert x in multiset(Filter(s, p));
      var k :| 0 <= k < |Filter(s, p)| && Filter(s, p)[k] == x;
    }
  }
}

=== FILE: corpus.dfy ===
/**
 * What the corpus-building scripts share: the word normalisation of NLTK
 * tokens (lower-case, drop punctuation, lemmatize), the "site" a corpus
 * file is named after, and the one-sentence-per-line corpus text.  The
 * lemmatizer is a parameter.
 */
module Corpus {
  import opened Base
  import opened PyStr
  import opened PyChars

  /** `lemmatize(word.lower().translate(str.maketrans('', '', string.punctuation)))`. */
  function Normalize(word: string, lemmatize: string -> string): string
  {
    lemmatize(Delete(Lower(word), Punctuation))
  }

  /** For an alphabetic word, dropping punctuation after lower-casing removes
      nothing: normalising is lemmatizing the lower-case form. */
  lemma NormalizeAlpha(word: string, lemmatize: string -> string)
    requires IsAlpha(word)
    ensures Normalize(word, lemmatize) == lemmatize(Lower(word))
  {
    var low := Lower(word);
    forall k | 0 <= k < |low| ensures low[k] !in Punctuation {
      LetterIsNotPunctuation(low[k]);
    }
    DeleteAbsent(low, Punctuation);
  }

  /** `url.split("//")[-1].split("/")[0]`: the text after the last "//" up to
      the first '/' after it. */
  function SiteName(url: string): (r: string)
    ensures NoneIn(r, {'/'})
  {
    var afterScheme := Split(url, "//");
    var pieces := Split(afterScheme[|afterScheme| - 1], "/");
    NotContainsNoneIn(pieces[0], '/');
    pieces[0]
  }

  /** For a URL `scheme://host/path`, the site is the host, provided the path
      holds no further "//". */
  lemma SiteNameOfUrl(scheme: string, host: string, path: string)
    requires NoneIn(scheme, {'/'}) && NoneIn(host, {'/'})
    requires path == [] || (path[0] == '/' && !Contains(path, "//"))
    ensures SiteName(scheme + "//" + host + path) == host
  {
    var rest := host + path;
    var url := scheme + "//" + rest;
    assert url == scheme + "//" + host + path;
    assert OccursAt(url, "//", |scheme|) by {
      assert url[|scheme|..|scheme| + 2] == "//";
    }
    forall j | 0 <= j < |scheme| ensures !OccursAt(url, "//", j) {
      assert url[j..j + 2][0] == scheme[j];
    }
    assert Find(url, "//") == Some(|scheme|);
    assert url[|scheme| + 2..] == rest;
    RestHasNoDoubleSlash(host, path);
    SplitAbsent(rest, "//");
    assert Split(url, "//") == [url[..|scheme|]] + [rest];
    if path == [] {
      assert rest == host;
      NoneInNotContains(host, '/');
      SplitAbsent(host, "/");
    } else {
      assert rest == host + ['/'] + path[1..];
      FindAfterClean(host, '/', path[1..]);
      assert rest[..|host|] == host;
    }
  }

  lemma RestHasNoDoubleSlash(host: string, path: string)
    requires NoneIn(host, {'/'})
    requires path == [] || (path[0] == '/' && !Contains(path, "//"))
    ensures !Contains(host + path, "//")
  {
    var rest := host + path;
    assert forall j :: !OccursAt(path, "//", j);
    forall j | 0 <= j && j + 2 <= |rest| ensures !OccursAt(rest, "//", j) {
      if j < |host| {
        assert rest[j..j + 2][0] == host[j];
      } else {
        assert rest[j..j + 2] == path[j - |host|..j - |host| + 2];
        assert !OccursAt(path, "//", j - |host|);
      }
    }
    ContainsIff(rest, "//");
  }

  /** The file the Word2Vec model is saved to, in the working directory. */
  const ModelFile: string := "word2vec.model"

  /** Sentences that hold no word at all: a new Word2Vec model (`min_count=1`)
      built on them has an empty vocabulary, and its training raises before
      anything is saved. */
  predicate NoVocabulary(sentences: seq<seq<string>>)
  {
    forall k :: 0 <= k < |sentences| ==> sentences[k] == []
  }

  /** The lines of a corpus file: each sentence's words joined by single spaces. */
  function SentenceLines(corpus: seq<seq<string>>): (r: seq<string>)
    ensures |r| == |corpus|
  {
    seq(|corpus|, k requires 0 <= k < |corpus| => Join(corpus[k], " "))
  }

  /** What `save_corpus` writes: one line per sentence, each ending in "\n". */
  function CorpusText(corpus: seq<seq<string>>): string
  {
    Terminated(SentenceLines(corpus), "\n")
  }

  /** Writing two corpora one after the other writes the corpus of both. */
  lemma CorpusTextAppend(a: seq<seq<string>>, b: seq<seq<string>>)
    ensures CorpusText(a + b) == CorpusText(a) + CorpusText(b)
  {
    assert SentenceLines(a + b) == SentenceLines(a) + SentenceLines(b);
    TerminatedAppend(SentenceLines(a), SentenceLines(b), "\n");
  }

  /** A word free of spaces and line breaks. */
  predicate PlainWord(w: string) { NoneIn(w, {' ', '\n'}) }

  /** Reading a corpus file back: splitting on "\n" gives one line per
      sentence and an empty piece after the last, and splitting a line on ' '
      gives the sentence's words, when the sentences are non-empty and their
      words plain. */
  lemma ReadBackCorpus(corpus: seq<seq<string>>)
    requires forall k :: 0 <= k < |corpus| ==> |corpus[k]| >= 1
    requires forall k, j :: 0 <= k < |corpus| && 0 <= j < |corpus[k]| ==> PlainWord(corpus[k][j])
    ensures var lines := Split(CorpusText(corpus), "\n");
            |lines| == |corpus| + 1 && lines[|corpus|] == "" &&
            forall k :: 0 <= k < |corpus| ==> Split(lines[k], " ") == corpus[k]
  {
    var lines := SentenceLines(corpus);
    forall k | 0 <= k < |corpus|
      ensures NoneIn(lines[k], {'\n'}) && Split(lines[k], " ") == corpus[k]
    {
      forall j | 0 <= j < |corpus[k]| ensures NoneIn(corpus[k][j], {'\n'}) && NoneIn(corpus[k][j], {' '}) {
        assert PlainWord(corpus[k][j]);
      }
      JoinNoneIn(corpus[k], " ", {'\n'});
      SplitJoin(corpus[k], [' ']);
    }
    SplitTerminated(lines, '\n');
  }

  /** One more sentence adds its line at the end. */
  lemma CorpusTextSnoc(corpus: seq<seq<string>>, sentence: seq<string>)
    ensures CorpusText(corpus + [sentence]) == CorpusText(corpus) + Join(sentence, " ") + "\n"
  {
    assert SentenceLines(corpus + [sentence]) == SentenceLines(corpus) + [Join(sentence, " ")];
    TerminatedSnoc(SentenceLines(corpus), Join(sentence, " "), "\n");
  }

  /** The corpus text of the first i + 1 sentences: that of the first i, then
      sentence i on its own line. */
  lemma CorpusTextPrefix(corpus: seq<seq<string>>, i: nat)
    requires i < |corpus|
    ensures CorpusText(corpus[..i + 1]) == CorpusText(corpus[..i]) + (Join(corpus[i], " ") + "\n")
  {
    assert corpus[..i + 1] == corpus[..i] + [corpus[i]];
    CorpusTextSnoc(corpus[..i], corpus[i]);
    AppendAssoc(CorpusText(corpus[..i]), Join(corpus[i], " "), "\n");
  }
}

=== FILE: doaj.dfy ===
/**
 * Projekt/doaj.py: a search of the Directory of Open Access Journals API,
 * the journal and article fields shown for each result, and the download
 * of each article's PDF into pdfs/.  The API's JSON answers, the article
 * landing pages and the PDF downloads are inputs; JSON decoding and HTML
 * parsing are not part of this model.
 */
module Doaj {
  import opened Base
  import opened PyStr
  import opened PyChars
  import opened PyNum
  import opened Fs
  import opened Http
  import opened Html

  const ApiBase: string := "https://doaj.org/api/search/"

  // ---------------------------------------------------------------------
  // search_doaj: URL and headers

  /** The URL `search_doaj` requests. */
  function SearchUrl(searchType: string, term: string, page: int, pageSize: int): string
  {
    ApiBase + searchType + "/" + term + "?page=" + IntToString(page) + "&pageSize=" + IntToString(pageSize)
  }

  /** When neither the search type nor the term holds a '?', the server
      reads back exactly the page and page size that were asked for. */
  lemma SearchUrlQuery(searchType: string, term: string, page: int, pageSize: int)
    requires NoneIn(searchType, {'?'}) && NoneIn(term, {'?'})
    ensures QueryParams(SearchUrl(searchType, term, page, pageSize)) ==
            ["page=" + IntToString(page), "pageSize=" + IntToString(pageSize)]
  {
    var prefix := ApiBase + searchType + "/" + term;
    var first := "page=" + IntToString(page);
    var second := "pageSize=" + IntToString(pageSize);
    NumericParamClean("page=", page);
    NumericParamClean("pageSize=", pageSize);
    SearchPathClean(searchType, term);
    SearchUrlShape(searchType, term, page, pageSize);
    QueryParamsOfTwo(prefix, first, second);
  }

  /** ... and `int` reads the page and page size back from those parameters. */
  lemma SearchUrlNumbers(searchType: string, term: string, page: int, pageSize: int)
    requires NoneIn(searchType, {'?'}) && NoneIn(term, {'?'})
    ensures var q := QueryParams(SearchUrl(searchType, term, page, pageSize));
            |q| == 2 && StartsWith(q[0], "page=") && ParseInt(q[0][5..]) == Some(page) &&
            StartsWith(q[1], "pageSize=") && ParseInt(q[1][9..]) == Some(pageSize)
  {
    SearchUrlQuery(searchType, term, page, pageSize);
    NumericParamValue("page=", page);
    NumericParamValue("pageSize=", pageSize);
  }

  lemma SearchUrlShape(searchType: string, term: string, page: int, pageSize: int)
    ensures SearchUrl(searchType, term, page, pageSize) ==
            (ApiBase + searchType + "/" + term) + "?" + ("page=" + IntToString(page)) + "&" + ("pageSize=" + IntToString(pageSize))
  {
    var path := ApiBase + searchType + "/" + term;
    var p := IntToString(page);
    var q := IntToString(pageSize);
    assert "?page=" == "?" + "page=";
    assert "&pageSize=" == "&" + "pageSize=";
    AppendAssoc(path, "?", "page=");
    AppendAssoc(path + "?", "page=", p);
    var head := path + "?" + ("page=" + p);
    AppendAssoc(head, "&", "pageSize=");
    AppendAssoc(head + "&", "pageSize=", q);
  }

  /** The path of a search URL has no '?' when its two parts have none. */
  lemma SearchPathClean(searchType: string, term: string)
    requires NoneIn(searchType, {'?'}) && NoneIn(term, {'?'})
    ensures NoneIn(ApiBase + searchType + "/" + term, {'?'})
  {
  }

  /** The request headers: JSON is always asked for, and a bearer token is
      sent exactly when a non-empty key is given. */
  function Headers(apiKey: Option<string>): (h: map<string, string>)
    ensures "Accept" in h && h["Accept"] == "application/json"
    ensures "Authorization" in h <==> apiKey.Some? && apiKey.value != []
    ensures "Authorization" in h ==> h["Authorization"] == "Bearer " + apiKey.value
    ensures h.Keys <= {"Accept", "Authorization"}
  {
    var h := map["Accept" := "application/json"];
    if apiKey.Some? && apiKey.value != [] then h["Authorization" := "Bearer " + apiKey.value] else h
  }

  // ---------------------------------------------------------------------
  // get_article_pdf_link

  /** The first node satisfying `p`, as `soup.find` returns it. */
  function FirstMatching(nodes: seq<Node>, p: Node -> bool): (r: Option<Node>)
    ensures r.None? <==> forall k :: 0 <= k < |nodes| ==> !p(nodes[k])
    ensures r.Some? ==> exists i :: 0 <= i < |nodes| && nodes[i] == r.value && p(nodes[i]) &&
                                     forall j :: 0 <= j < i ==> !p(nodes[j])
  {
    match FirstIndex(nodes, p)
    case None => None
    case Some(i) => Some(nodes[i])
  }

  /** `find('a', class_='pdf-link')`. */
  predicate HasPdfClass(n: Node) { "pdf-link" in Classes(n) }

  /** `find('a', text='PDF')`. */
  predicate HasPdfText(n: Node) { StringOf(n) == Some("PDF") }

  /** The `href` of a found anchor, when it has a non-empty one. */
  function UsableHref(n: Option<Node>): (r: Option<string>)
    ensures r.Some? ==> n.Some? && Attr(n.value, "href") == r && r.value != []
  {
    match n
    case None => None
    case Some(a) =>
      match Attr(a, "href")
      case Some(h) => if h != [] then Some(h) else None
      case None => None
  }

  /** `get_article_pdf_link`: the first anchor with class "pdf-link" if it
      has an href, else the first anchor whose text is "PDF" if it has one;
      a failed request gives None. */
  function GetArticlePdfLink(resp: Response, parse: seq<byte> -> seq<Node>): (r: Option<string>)
    ensures !Succeeds(resp) ==> r.None?
    ensures r.Some? ==> r.value != []
    ensures r.Some? ==> exists a :: a in FindAll(parse(resp.body), "a") && (HasPdfClass(a) || HasPdfText(a)) &&
                                    Attr(a, "href") == r
    ensures Succeeds(resp) && UsableHref(FirstMatching(FindAll(parse(resp.body), "a"), HasPdfClass)).Some? ==>
              r == UsableHref(FirstMatching(FindAll(parse(resp.body), "a"), HasPdfClass))
    ensures Succeeds(resp) && UsableHref(FirstMatching(FindAll(parse(resp.body), "a"), HasPdfClass)).None? ==>
              r == UsableHref(FirstMatching(FindAll(parse(resp.body), "a"), HasPdfText))
  {
    if !Succeeds(resp) then None
    else
      var anchors := FindAll(parse(resp.body), "a");
      var byClass := UsableHref(FirstMatching(anchors, HasPdfClass));
      if byClass.Some? then byClass
      else UsableHref(FirstMatching(anchors, HasPdfText))
  }

  /** A page without any "pdf-link" or "PDF" anchor gives no link. */
  lemma NoCandidateNoLink(resp: Response, parse: seq<byte> -> seq<Node>)
    requires resp.Reply?
    requires forall a :: a in FindAll(parse(resp.body), "a") ==> !HasPdfClass(a) && !HasPdfText(a)
    ensures GetArticlePdfLink(resp, parse).None?
  {
  }

  // ---------------------------------------------------------------------
  // display_results

  /** An entry of `bibjson.identifier`. */
  datatype Identifier = Identifier(kind: Option<string>, value: Option<string>, id: Option<string>)

  /** An entry of `bibjson.link`. */
  datatype Link = Link(kind: Option<string>, url: Option<string>)

  /** The fields of `bibjson` the script reads; a missing list is empty. */
  datatype Bib = Bib(title: Option<string>, identifiers: seq<Identifier>, links: seq<Link>)

  function OrElse(o: Option<string>, d: string): string
  {
    match o case Some(v) => v case None => d
  }

  predicate IsIssn(i: Identifier) { i.kind == Some("pissn") || i.kind == Some("eissn") }

  predicate IsDoi(i: Identifier) { i.kind == Some("doi") }

  /** The ISSNs shown for a journal: the value of each print or electronic
      ISSN identifier, in order, "N/A" standing in for a missing value. */
  function Issns(ids: seq<Identifier>): (r: seq<string>)
    ensures |r| == |Filter(ids, IsIssn)|
    ensures forall i :: i in ids && IsIssn(i) && i.value.Some? ==> i.value.value in r
  {
    var kept := Filter(ids, IsIssn);
    var r := seq(|kept|, k requires 0 <= k < |kept| => OrElse(kept[k].value, "N/A"));
    forall i | i in ids && IsIssn(i) && i.value.Some? ensures i.value.value in r {
      FilterKeeps(ids, IsIssn, i);
      var k :| 0 <= k < |kept| && kept[k] == i;
      assert r[k] == i.value.value;
    }
    r
  }

  /** One identifier more adds its ISSN entry at the end exactly when it is a
      print or electronic ISSN: the entries follow the identifiers' order,
      one each, with "N/A" for a missing value. */
  lemma IssnsSnoc(ids: seq<Identifier>, i: Identifier)
    ensures Issns([]) == []
    ensures Issns(ids + [i]) == Issns(ids) + (if IsIssn(i) then [OrElse(i.value, "N/A")] else [])
  {
    FilterSnoc(ids, i, IsIssn);
    var kept := Filter(ids, IsIssn);
    if IsIssn(i) {
      var longer := Filter(ids + [i], IsIssn);
      assert longer == kept + [i];
      assert forall k :: 0 <= k < |kept| ==> longer[k] == kept[k];
    }
  }

  /** The DOIs shown for an article: the id of each DOI identifier, in order. */
  function Dois(ids: seq<Identifier>): (r: seq<string>)
    ensures |r| == |Filter(ids, IsDoi)|
    ensures forall i :: i in ids && IsDoi(i) && i.id.Some? ==> i.id.value in r
  {
    var kept := Filter(ids, IsDoi);
    var r := seq(|kept|, k requires 0 <= k < |kept| => OrElse(kept[k].id, "N/A"));
    forall i | i in ids && IsDoi(i) && i.id.Some? ensures i.id.value in r {
      FilterKeeps(ids, IsDoi, i);
      var k :| 0 <= k < |kept| && kept[k] == i;
      assert r[k] == i.id.value;
    }
    r
  }

  /** One identifier more adds its id at the end exactly when it is a DOI:
      the entries follow the identifiers' order, one each, with "N/A" for a
      missing id. */
  lemma DoisSnoc(ids: seq<Identifier>, i: Identifier)
    ensures Dois([]) == []
    ensures Dois(ids + [i]) == Dois(ids) + (if IsDoi(i) then [OrElse(i.id, "N/A")] else [])
  {
    FilterSnoc(ids, i, IsDoi);
    var kept := Filter(ids, IsDoi);
    if IsDoi(i) {
      var longer := Filter(ids + [i], IsDoi);
      assert longer == kept + [i];
      assert forall k :: 0 <= k < |kept| ==> longer[k] == kept[k];
    }
  }

  /** No link before position `i` has the given type. */
  predicate FirstOfKind(links: seq<Link>, i: nat, kind: string)
  {
    forall j :: 0 <= j < i && j < |links| ==> links[j].kind != Some(kind)
  }

  /** The first link of the given type. */
  function FirstLink(links: seq<Link>, kind: string): (r: Option<Link>)
    ensures r.Some? ==> r.value in links && r.value.kind == Some(kind)
    ensures r.None? <==> forall k :: 0 <= k < |links| ==> links[k].kind != Some(kind)
    ensures r.Some? ==> exists i :: 0 <= i < |links| && links[i] == r.value && FirstOfKind(links, i, kind)
  {
    match FirstIndex(links, (l: Link) => l.kind == Some(kind))
    case None => None
    case Some(i) => Some(links[i])
  }

  /** The journal link shown: the URL of the first homepage link (printed as
      "None" when that link has no URL), or "Not available". */
  function JournalLink(links: seq<Link>): (r: string)
    ensures (forall k :: 0 <= k < |links| ==> links[k].kind != Some("homepage")) ==> r == "Not available"
    ensures r != "Not available" && r != "None" ==> exists l :: l in links && l.kind == Some("homepage") && l.url == Some(r)
    ensures forall i :: 0 <= i < |links| && links[i].kind == Some("homepage") && FirstOfKind(links, i, "homepage") ==>
              r == OrElse(links[i].url, "None")
  {
    var f := FirstLink(links, "homepage");
    forall i | 0 <= i < |links| && links[i].kind == Some("homepage") && FirstOfKind(links, i, "homepage")
      ensures f == Some(links[i])
    {
      var idx :| 0 <= idx < |links| && links[idx] == f.value && FirstOfKind(links, idx, "homepage");
      assert !(idx < i) && !(i < idx);
    }
    match f
    case None => "Not available"
    case Some(l) => OrElse(l.url, "None")
  }

  // ---------------------------------------------------------------------
  // sanitize_filename

  const Forbidden: set<char> := {'\\', '/', '*', '?', ':', '"', '<', '>', '|'}

  /** '_', which stands in for forbidden characters, is not one of them. */
  lemma UnderscoreAllowed()
    ensures '_' !in Forbidden
  {
  }

  /** `sanitize_filename`: every forbidden character becomes '_', then
      surrounding whitespace is stripped: the result is the substituted title
      without its leading and trailing runs of whitespace (`IsStripOfUnique`:
      no other string is). */
  function SanitizeFilename(title: string): (r: string)
    ensures NoneIn(r, Forbidden)
    ensures |r| <= |title|
    ensures IsStripOf(r, Substitute(title, Forbidden, '_'), Whitespace)
  {
    UnderscoreAllowed();
    var replaced := Substitute(title, Forbidden, '_');
    StripSetKeepsNoneIn(replaced, Whitespace, Forbidden);
    StripSet(replaced, Whitespace)
  }

  /** Read against the title itself: the title is a run of whitespace, then
      the result with '_' in place of each forbidden character, then another
      run of whitespace; the result itself ends in no whitespace. */
  lemma SanitizeOneForOne(title: string)
    ensures var r := SanitizeFilename(title);
            var a := LeadIn(title, Whitespace);
            ReplacedFrom(r, title, a, Forbidden, '_') && AllIn(title[..a], Whitespace) &&
            AllIn(title[a + |r|..], Whitespace) && (r == [] || r[|r| - 1] !in Whitespace)
  {
    UnderscoreAllowed();
    ForbiddenNotWhitespace();
    SubstituteStripOneForOne(title, Forbidden, '_', Whitespace);
  }

  /** No forbidden character, and not '_', is whitespace. */
  lemma ForbiddenNotWhitespace()
    ensures Forbidden !! Whitespace && '_' !in Whitespace
  {
  }

  /** Sanitizing a sanitized title changes nothing. */
  lemma SanitizeIdempotent(title: string)
    ensures SanitizeFilename(SanitizeFilename(title)) == SanitizeFilename(title)
  {
    var r := SanitizeFilename(title);
    UnderscoreAllowed();
    assert Substitute(r, Forbidden, '_') == r;
    StripOfFixed(r, Substitute(title, Forbidden, '_'), Whitespace);
  }

  // ---------------------------------------------------------------------
  // download_pdf and download_articles

  /** The PDF URL found for a search result: only its first fulltext link is
      followed; a fulltext link without a URL makes the request fail. */
  function PdfUrlOf(bib: Bib, page: string -> Response, parse: seq<byte> -> seq<Node>): (r: Option<string>)
    ensures FirstLink(bib.links, "fulltext").None? ==> r.None?
    ensures r.Some? ==> var l := FirstLink(bib.links, "fulltext").value;
                        l.url.Some? && r == GetArticlePdfLink(page(l.url.value), parse)
  {
    match FirstLink(bib.links, "fulltext")
    case None => None
    case Some(l) =>
      match l.url
      case None => None
      case Some(u) => GetArticlePdfLink(page(u), parse)
  }

  /** Where result number `i` (1-based) is saved: its sanitized title, or
      `article_<i>` when it has none, with ".pdf", in the download directory. */
  function ArticlePath(dir: string, bib: Bib, i: int): string
  {
    PathJoin(dir, SanitizeFilename(OrElse(bib.title, "article_" + IntToString(i))) + ".pdf")
  }

  /** One result of `download_articles`. */
  function ArticleStep(files: map<string, seq<byte>>, dir: string, bib: Bib, i: int,
                       page: string -> Response, parse: seq<byte> -> seq<Node>,
                       fetch: string -> Response): map<string, seq<byte>>
  {
    match PdfUrlOf(bib, page, parse)
    case None => files
    case Some(u) => AfterSave(files, ArticlePath(dir, bib, i), fetch(u))
  }

  /** The disk after the first `|items|` results. */
  function AfterArticles(files: map<string, seq<byte>>, dir: string, items: seq<Bib>,
                         page: string -> Response, parse: seq<byte> -> seq<Node>,
                         fetch: string -> Response): map<string, seq<byte>>
    decreases |items|
  {
    if items == [] then files
    else
      var n := |items| - 1;
      ArticleStep(AfterArticles(files, dir, items[..n], page, parse, fetch), dir, items[n], n + 1, page, parse, fetch)
  }

  /** The paths results may be saved under. */
  function ArticlePaths(dir: string, items: seq<Bib>): set<string>
  {
    set k | 0 <= k < |items| :: ArticlePath(dir, items[k], k + 1)
  }

  /** Downloading the results never removes a file, and changes or adds
      only files at the results' own paths. */
  lemma {:induction false} AfterArticlesTouchesOnlyTheirPaths(files: map<string, seq<byte>>, dir: string, items: seq<Bib>,
                                                              page: string -> Response, parse: seq<byte> -> seq<Node>,
                                                              fetch: string -> Response)
    ensures files.Keys <= AfterArticles(files, dir, items, page, parse, fetch).Keys
    ensures forall p :: p !in ArticlePaths(dir, items) ==>
              (p in AfterArticles(files, dir, items, page, parse, fetch) <==> p in files)
    ensures forall p :: p !in ArticlePaths(dir, items) && p in files ==>
              AfterArticles(files, dir, items, page, parse, fetch)[p] == files[p]
    decreases |items|
  {
    if items != [] {
      var n := |items| - 1;
      AfterArticlesTouchesOnlyTheirPaths(files, dir, items[..n], page, parse, fetch);
      ArticlePathsGrow(dir, items);
    }
  }

  /** The paths of a prefix of the results, and the last result's path,
      are among the paths of all results. */
  lemma ArticlePathsGrow(dir: string, items: seq<Bib>)
    requires items != []
    ensures ArticlePaths(dir, items[..|items| - 1]) <= ArticlePaths(dir, items)
    ensures ArticlePath(dir, items[|items| - 1], |items|) in ArticlePaths(dir, items)
  {
    var n := |items| - 1;
    forall p | p in ArticlePaths(dir, items[..n]) ensures p in ArticlePaths(dir, items) {
      var k :| 0 <= k < n && p == ArticlePath(dir, items[..n][k], k + 1);
      assert items[..n][k] == items[k];
    }
  }

  /** `download_articles(search_results, download_dir)`. */
  method DownloadArticles(disk: Disk<byte>, dir: string, items: seq<Bib>,
                          page: string -> Response, parse: seq<byte> -> seq<Node>, fetch: string -> Response)
    modifies disk
    ensures disk.files == AfterArticles(old(disk.files), dir, items, page, parse, fetch)
  {
    var i := 0;
    while i < |items|
      invariant 0 <= i <= |items|
      invariant disk.files == AfterArticles(old(disk.files), dir, items[..i], page, parse, fetch)
    {
      assert items[..i + 1][..i] == items[..i];
      ghost var before := disk.files;
      var bib := items[i];
      var link := FirstLink(bib.links, "fulltext");
      if link.Some? && link.value.url.Some? {
        var pdfLink := GetArticlePdfLink(page(link.value.url.value), parse);
        if pdfLink.Some? {
          var title := OrElse(bib.title, "article_" + IntToString(i + 1));
          var savePath := PathJoin(dir, SanitizeFilename(title) + ".pdf");
          assert savePath == ArticlePath(dir, bib, i + 1);
          SaveResponse(disk, fetch(pdfLink.value), savePath);
        }
      }
      assert disk.files == ArticleStep(before, dir, bib, i + 1, page, parse, fetch);
      i := i + 1;
    }
    assert items[..i] == items;
  }

  // ---------------------------------------------------------------------
  // main: validating the prompts

  datatype Query = Query(searchType: string, term: string, apiKey: Option<string>)

  /** The three answers of `main`, or None where it stops: the search type
      must be "journals" or "articles" once stripped and lowercased, and the
      stripped term must be non-empty; a blank key means no key. */
  function ReadQuery(typeAnswer: string, termAnswer: string, keyAnswer: string): (r: Option<Query>)
    ensures r.Some? ==> r.value.searchType in {"journals", "articles"} && r.value.term != []
    ensures r.Some? ==> (r.value.apiKey.Some? <==> StripSet(keyAnswer, Whitespace) != [])
    ensures r.Some? && r.value.apiKey.Some? ==> r.value.apiKey.value != []
    ensures r.None? <==> Lower(StripSet(typeAnswer, Whitespace)) !in {"journals", "articles"} ||
                         StripSet(termAnswer, Whitespace) == []
  {
    var searchType := Lower(StripSet(typeAnswer, Whitespace));
    var term := StripSet(termAnswer, Whitespace);
    var key := StripSet(keyAnswer, Whitespace);
    if searchType !in {"journals", "articles"} then None
    else if term == [] then None
    else Some(Query(searchType, term, if key != [] then Some(key) else None))
  }

  /** The search made for an accepted query carries a bearer token exactly
      when a non-blank key was typed. */
  lemma QueryAuthorization(typeAnswer: string, termAnswer: string, keyAnswer: string)
    requires ReadQuery(typeAnswer, termAnswer, keyAnswer).Some?
    ensures "Authorization" in Headers(ReadQuery(typeAnswer, termAnswer, keyAnswer).value.apiKey) <==>
            StripSet(keyAnswer, Whitespace) != []
  {
  }

  // ---------------------------------------------------------------------
  // main

  const DownloadDir: string := "pdfs"

  /** `main`: the answers are validated; the search asks for page 1 of 10
      results with the headers of the key; an article search then downloads
      every result's PDF into "pdfs".  The search is a function of the URL
      and the headers, None standing for a failed request, a body that is not
      JSON, or one without "results".  It returns the request it made. */
  method RunScript(disk: Disk<byte>, typeAnswer: string, termAnswer: string, keyAnswer: string,
                   search: (string, map<string, string>) -> Option<seq<Bib>>,
                   page: string -> Response, parse: seq<byte> -> seq<Node>, fetch: string -> Response)
    returns (request: Option<(string, map<string, string>)>)
    modifies disk
    ensures request.None? <==> ReadQuery(typeAnswer, termAnswer, keyAnswer).None?
    ensures request.Some? ==>
              var q := ReadQuery(typeAnswer, termAnswer, keyAnswer).value;
              request.value == (SearchUrl(q.searchType, q.term, 1, 10), Headers(q.apiKey))
    ensures disk.files ==
              if request.Some? && ReadQuery(typeAnswer, termAnswer, keyAnswer).value.searchType == "articles" &&
                 search(request.value.0, request.value.1).Some?
              then AfterArticles(old(disk.files), DownloadDir, search(request.value.0, request.value.1).value,
                                 page, parse, fetch)
              else old(disk.files)
  {
    var query := ReadQuery(typeAnswer, termAnswer, keyAnswer);
    if query.None? {
      return None;
    }
    var searchType, searchTerm, apiKey := query.value.searchType, query.value.term, query.value.apiKey;
    var url := SearchUrl(searchType, searchTerm, 1, 10);
    var headers := Headers(apiKey);
    request := Some((url, headers));
    var searchResults := search(url, headers);
    if searchResults.None? {
      return;
    }
    if searchType == "articles" {
      DownloadArticles(disk, DownloadDir, searchResults.value, page, parse, fetch);
    }
  }
}

=== FILE: fs.dfy ===
/**
 * The part of the file system the scripts touch: POSIX path joining, the
 * stem of `os.path.splitext`, and a disk holding each file's contents.
 */
module Fs {
  import opened Base
  import opened PyStr

  /** `os.path.join(a, b)` on POSIX. */
  function PathJoin(a: string, b: string): (r: string)
    ensures !StartsWith(b, "/") && a != [] && !EndsWith(a, "/") ==> r == a + "/" + b
  {
    if StartsWith(b, "/") then b
    else if a == [] || EndsWith(a, "/") then a + b
    else a + "/" + b
  }

  /** A joined path ends with the name joined on. */
  lemma PathJoinEndsWith(a: string, b: string)
    ensures EndsWith(PathJoin(a, b), b)
  {
    var r := PathJoin(a, b);
    assert r[|r| - |b|..] == b;
  }

  /** Joining onto a relative folder keeps different names apart. */
  lemma PathJoinInjective(a: string, x: string, y: string)
    requires a != [] && a[0] != '/' && !EndsWith(a, "/")
    requires x != y
    ensures PathJoin(a, x) != PathJoin(a, y)
  {
    var p := a + "/";
    if StartsWith(x, "/") && !StartsWith(y, "/") {
      assert PathJoin(a, x)[0] == x[..1][0] == '/';
      assert PathJoin(a, y)[0] == a[0];
    } else if !StartsWith(x, "/") && StartsWith(y, "/") {
      assert PathJoin(a, y)[0] == y[..1][0] == '/';
      assert PathJoin(a, x)[0] == a[0];
    } else if !StartsWith(x, "/") {
      assert PathJoin(a, x)[|p|..] == x;
      assert PathJoin(a, y)[|p|..] == y;
    }
  }

  /** Index of the last occurrence of `c`. */
  function RFind(s: string, c: char): (r: Option<nat>)
    ensures r.Some? ==> r.value < |s| && s[r.value] == c
    ensures r.Some? ==> forall k :: r.value < k < |s| ==> s[k] != c
    ensures r.None? ==> forall k :: 0 <= k < |s| ==> s[k] != c
    decreases |s|
  {
    if s == [] then None
    else if s[|s| - 1] == c then Some(|s| - 1)
    else RFind(s[..|s| - 1], c)
  }

  predicate AllDots(s: string) { forall k :: 0 <= k < |s| ==> s[k] == '.' }

  /** `os.path.splitext(p)[0]` on POSIX: everything before the last dot of the
      final path component, unless that dot is preceded in the component only
      by dots (a name such as ".pdf" has no extension). */
  function Stem(p: string): (r: string)
    ensures |r| <= |p| && r == p[..|r|]
  {
    var start := match RFind(p, '/') case Some(i) => i + 1 case None => 0;
    match RFind(p, '.')
    case Some(d) =>
      if d >= start && !AllDots(p[start..d]) then p[..d] else p
    case None => p
  }

  /** For a name without '/', made of a base that has some character other
      than '.' and an extension that is '.' followed by no further dot, the
      stem is the base. */
  lemma StemOfName(base: string, ext: string)
    requires |ext| >= 1 && ext[0] == '.'
    requires forall k :: 1 <= k < |ext| ==> ext[k] != '.'
    requires forall k :: 0 <= k < |base| ==> base[k] != '/'
    requires forall k :: 0 <= k < |ext| ==> ext[k] != '/'
    requires !AllDots(base)
    ensures Stem(base + ext) == base
  {
    var p := base + ext;
    assert RFind(p, '/').None?;
    var d := RFind(p, '.');
    assert p[|base|] == '.';
    assert d.Some? && d.value == |base|;
    assert p[0..|base|] == base;
  }

  /** The text file a conversion script writes for a listed file: the
      file's stem with ".txt", joined onto the script's output folder. */
  function TxtPath(folder: string, name: string): string
  {
    PathJoin(folder, Stem(name) + ".txt")
  }

  /** For a plain name `<base><ext>`, the text file is `<folder>/<base>.txt`. */
  lemma TxtPathOfName(folder: string, base: string, ext: string)
    requires folder != [] && !EndsWith(folder, "/")
    requires |ext| >= 1 && ext[0] == '.'
    requires forall k :: 1 <= k < |ext| ==> ext[k] != '.'
    requires forall k :: 0 <= k < |base| ==> base[k] != '/'
    requires forall k :: 0 <= k < |ext| ==> ext[k] != '/'
    requires !AllDots(base)
    ensures TxtPath(folder, base + ext) == folder + "/" + base + ".txt"
  {
    StemOfName(base, ext);
    var name := base + ".txt";
    assert !StartsWith(name, "/") by {
      assert |base| > 0;
      assert name[0] == base[0];
    }
  }

  /** A scratch file written, another file updated, and the scratch file
      removed: only the update remains. */
  lemma ScratchRemoved<T>(m: map<string, seq<T>>, scratch: string, a: seq<T>, path: string, b: seq<T>)
    requires scratch != path
    ensures m[scratch := a][path := b] - {scratch} == m[path := b] - {scratch}
  {
  }

  /** Removing a path undoes any earlier write to it. */
  lemma UpdateThenRemove<T>(m: map<string, seq<T>>, path: string, data: seq<T>)
    ensures m[path := data] - {path} == m - {path}
  {
  }

  /** A disk: the contents of every file, by path. */
  class Disk<T> {
    var files: map<string, seq<T>>

    /** What reading the file gives; a missing file reads as empty. */
    function Read(path: string): seq<T>
      reads this
    {
      if path in files then files[path] else []
    }

    /** `open(path, 'w')`: the file exists and is empty. */
    method Create(path: string)
      modifies this
      ensures files == old(files)[path := []]
    {
      files := files[path := []];
    }

    /** `f.write(data)` on a file opened for writing or appending: the data is
        added at the end (a file opened with 'a' is created when missing). */
    method Write(path: string, data: seq<T>)
      modifies this
      ensures files == old(files)[path := old(Read(path)) + data]
    {
      files := files[path := Read(path) + data];
    }

    /** `os.remove(path)`. */
    method Remove(path: string)
      modifies this
      ensures files == old(files) - {path}
    {
      files := files - {path};
    }
  }

  /** `open(path, 'w')` followed by one `write(data)`: the file holds exactly `data`. */
  method WriteFile<T>(disk: Disk<T>, path: string, data: seq<T>)
    modifies disk
    ensures disk.files == old(disk.files)[path := data]
  {
    disk.Create(path);
    disk.Write(path, data);
    assert [] + data == data;
  }

  /** `open(path, 'w')` followed by `write(line + end)` for each line in
      turn: the file holds every line, each followed by `end`. */
  method WriteLines(disk: Disk<char>, path: string, lines: seq<string>, end: string)
    modifies disk
    ensures disk.files == old(disk.files)[path := Terminated(lines, end)]
  {
    WriteFile(disk, path, "");
    var i := 0;
    while i < |lines|
      invariant 0 <= i <= |lines|
      invariant disk.files == old(disk.files)[path := Terminated(lines[..i], end)]
    {
      ghost var done := Terminated(lines[..i], end);
      assert disk.Read(path) == done;
      disk.Write(path, lines[i] + end);
      assert disk.files == old(disk.files)[path := done + (lines[i] + end)];
      assert lines[..i + 1] == lines[..i] + [lines[i]];
      TerminatedSnoc(lines[..i], lines[i], end);
      AppendAssoc(done, lines[i], end);
      i := i + 1;
    }
    assert lines[..i] == lines;
  }

  /** The files after a loop over a directory listing that, for each name in
      turn, writes `data` to `path` when `job(name)` is `Some((path, data))`,
      and writes nothing for that name otherwise. */
  function Batch<T>(files: map<string, seq<T>>, names: seq<string>, job: string -> Option<(string, seq<T>)>):
    map<string, seq<T>>
    decreases |names|
  {
    if names == [] then files
    else
      var n := |names| - 1;
      var before := Batch(files, names[..n], job);
      match job(names[n])
      case None => before
      case Some(w) => before[w.0 := w.1]
  }

  /** One more name of the listing: its job's write, if any, comes last. */
  lemma BatchSnoc<T>(files: map<string, seq<T>>, names: seq<string>, i: nat,
                     job: string -> Option<(string, seq<T>)>)
    requires i < |names|
    ensures job(names[i]).None? ==> Batch(files, names[..i + 1], job) == Batch(files, names[..i], job)
    ensures job(names[i]).Some? ==>
              Batch(files, names[..i + 1], job) == Batch(files, names[..i], job)[job(names[i]).value.0 := job(names[i]).value.1]
  {
    assert names[..i + 1][..i] == names[..i];
  }

  /** A path that no job writes keeps its contents, or stays absent. */
  lemma {:induction false} BatchUntouched<T>(files: map<string, seq<T>>, names: seq<string>,
                                             job: string -> Option<(string, seq<T>)>, p: string)
    requires forall k :: 0 <= k < |names| && job(names[k]).Some? ==> job(names[k]).value.0 != p
    ensures (p in Batch(files, names, job)) == (p in files)
    ensures p in files ==> Batch(files, names, job)[p] == files[p]
    decreases |names|
  {
    if names != [] {
      var n := |names| - 1;
      BatchUntouched(files, names[..n], job, p);
    }
  }

  /** The last job that writes a path decides what the path holds. */
  lemma {:induction false} BatchLastWrite<T>(files: map<string, seq<T>>, names: seq<string>,
                                             job: string -> Option<(string, seq<T>)>, k: nat)
    requires k < |names| && job(names[k]).Some?
    requires forall j :: k < j < |names| && job(names[j]).Some? ==> job(names[j]).value.0 != job(names[k]).value.0
    ensures job(names[k]).value.0 in Batch(files, names, job)
    ensures Batch(files, names, job)[job(names[k]).value.0] == job(names[k]).value.1
    decreases |names|
  {
    var n := |names| - 1;
    var front := names[..n];
    if k < n {
      assert forall j :: 0 <= j < n ==> front[j] == names[j];
      BatchLastWrite(files, front, job, k);
    }
  }

  /** A name whose job writes nothing can be taken out of the listing. */
  lemma {:induction false} BatchSkip<T>(files: map<string, seq<T>>, before: seq<string>, name: string,
                                        after: seq<string>, job: string -> Option<(string, seq<T>)>)
    requires job(name).None?
    ensures Batch(files, before + [name] + after, job) == Batch(files, before + after, job)
    decreases |after|
  {
    if after == [] {
      assert (before + [name] + after)[..|before|] == before;
      assert before + after == before;
    } else {
      var n := |after| - 1;
      var long := before + [name] + after;
      var short := before + after;
      BatchSkip(files, before, name, after[..n], job);
      assert long[..|long| - 1] == before + [name] + after[..n];
      assert short[..|short| - 1] == before + after[..n];
      assert long[|long| - 1] == after[n] && short[|short| - 1] == after[n];
    }
  }
}

=== FILE: hrcak.dfy ===
/**
 * Projekt/hrcak.py: a keyword search of the Hrčak portal, page by page;
 * every link whose href contains "/file/" is downloaded into a folder and
 * its text extracted for a preview.  The HTTP requests, the HTML parser,
 * `urljoin` and the PDF reader are inputs of the model.  An exception that
 * the script does not catch (a failed request) ends the run: the model
 * records it as `aborted`.
 */
module Hrcak {
  import opened Base
  import opened PyStr
  import opened PyNum
  import opened Fs
  import opened Http
  import opened Html

  const BaseUrl: string := "https://hrcak.srce.hr"
  const DefaultFolder: string := "pdfs"
  const PreviewLength: nat := 200

  // ---------------------------------------------------------------------
  // download_pdf

  /** `url.split('/')[-1]`: the last '/'-separated segment of the URL. */
  function FileId(url: string): (r: string)
    ensures NoneIn(r, {'/'})
  {
    var pieces := Split(url, "/");
    NotContainsNoneIn(pieces[|pieces| - 1], '/');
    pieces[|pieces| - 1]
  }

  /** The segment is what the URL ends with, right after its last '/' if
      it has one. */
  lemma FileIdIsLastSegment(url: string)
    ensures EndsWith(url, FileId(url))
    ensures |FileId(url)| < |url| ==> url[|url| - |FileId(url)| - 1] == '/'
  {
    var pieces := Split(url, "/");
    var last := pieces[|pieces| - 1];
    assert FileId(url) == last;
    JoinSplit(url, "/");
    JoinEndsWithLast(pieces, "/");
    if |pieces| > 1 {
      JoinLastAfterSep(pieces);
    } else {
      assert Join(pieces, "/") == last;
    }
  }

  /** In a '/'-join of two or more pieces, a '/' comes right before the last piece. */
  lemma {:induction false} JoinLastAfterSep(pieces: seq<string>)
    requires |pieces| > 1
    ensures var j := Join(pieces, "/"); var last := pieces[|pieces| - 1];
            |last| < |j| && j[|j| - |last| - 1] == '/'
    decreases |pieces|
  {
    var j := Join(pieces, "/");
    var last := pieces[|pieces| - 1];
    var rest := Join(pieces[1..], "/");
    assert pieces[1..][|pieces[1..]| - 1] == last;
    assert j == pieces[0] + "/" + rest;
    if |pieces| == 2 {
      assert rest == last;
    } else {
      JoinLastAfterSep(pieces[1..]);
    }
  }

  /** Where `download_pdf(url, folder)` saves: the URL's last segment with
      ".pdf", in the folder. */
  function PdfName(url: string, folder: string): string
  {
    PathJoin(folder, FileId(url) + ".pdf")
  }

  /** For a plain folder name the file lands directly inside it. */
  lemma PdfNameInFolder(url: string, folder: string)
    requires folder != [] && !EndsWith(folder, "/")
    ensures PdfName(url, folder) == folder + "/" + FileId(url) + ".pdf"
  {
    var name := FileId(url) + ".pdf";
    if FileId(url) != [] {
      assert name[0] == FileId(url)[0];
    }
    assert name[..1] == [name[0]];
  }

  /** `download_pdf(url, folder_name)` given the response to `requests.get(url)`:
      a transport failure raises; status 200 writes the body and returns
      the path; any other status writes nothing and returns None. */
  method DownloadPdf(disk: Disk<byte>, url: string, folder: string, resp: Response)
    returns (raised: bool, path: Option<string>)
    modifies disk
    ensures raised <==> resp.TransportError?
    ensures path.Some? <==> resp.Reply? && resp.status == 200
    ensures path.Some? ==> path.value == PdfName(url, folder) &&
                           disk.files == old(disk.files)[path.value := resp.body]
    ensures path.None? ==> disk.files == old(disk.files)
  {
    if resp.TransportError? {
      return true, None;
    }
    raised := false;
    if resp.status == 200 {
      var fileId := FileId(url);
      var pdfName := PathJoin(folder, fileId + ".pdf");
      disk.Create(pdfName);
      disk.Write(pdfName, resp.body);
      assert [] + resp.body == resp.body;
      path := Some(pdfName);
    } else {
      path := None;
    }
  }

  // ---------------------------------------------------------------------
  // extract_text_from_pdf

  /** What the PDF reader makes of a file: None when it cannot open it,
      otherwise its pages, each the text extracted or None where extraction
      raises. */
  type Document = Option<seq<Option<string>>>

  /** The text of the pages, all or nothing: the concatenation in page order
      when every page yields text, None as soon as one raises. */
  function PagesText(pages: seq<Option<string>>): (r: Option<string>)
    ensures r.Some? <==> forall k :: 0 <= k < |pages| ==> pages[k].Some?
    decreases |pages|
  {
    if pages == [] then Some("")
    else
      var n := |pages| - 1;
      match PagesText(pages[..n])
      case None => None
      case Some(t) =>
        match pages[n]
        case None => None
        case Some(p) =>
          assert forall k :: 0 <= k < n ==> pages[..n][k] == pages[k];
          Some(t + p)
  }

  /** When every page yields text, the result is exactly those texts one
      after another, with nothing in between. */
  lemma {:induction false} PagesTextOfTexts(texts: seq<string>)
    ensures PagesText(seq(|texts|, k requires 0 <= k < |texts| => Some(texts[k]))) == Some(Concat(texts))
    decreases |texts|
  {
    var pages := seq(|texts|, k requires 0 <= k < |texts| => Some(texts[k]));
    if texts != [] {
      var n := |texts| - 1;
      PagesTextOfTexts(texts[..n]);
      assert pages[..n] == seq(|texts[..n]|, k requires 0 <= k < |texts[..n]| => Some(texts[..n][k]));
    }
  }

  /** `extract_text_from_pdf(path)`: text accumulated page by page; None when
      the reader or any page raises. */
  function ExtractText(doc: Document): (r: Option<string>)
    ensures doc.None? ==> r.None?
    ensures doc.Some? ==> r == PagesText(doc.value)
  {
    match doc
    case None => None
    case Some(pages) => PagesText(pages)
  }

  /** The loop of `extract_text_from_pdf`: `text += page.extract_text()`. */
  method ExtractTextFromPdf(doc: Document) returns (text: Option<string>)
    ensures text == ExtractText(doc)
  {
    if doc.None? {
      return None;
    }
    var pages := doc.value;
    var acc := "";
    var i := 0;
    while i < |pages|
      invariant 0 <= i <= |pages|
      invariant PagesText(pages[..i]) == Some(acc)
    {
      assert pages[..i + 1][..i] == pages[..i];
      if pages[i].None? {
        assert forall k :: 0 <= k < |pages[..i + 1]| ==> pages[..i + 1][k] == pages[k];
        assert !(forall k :: 0 <= k < |pages| ==> pages[k].Some?);
        return None;
      }
      acc := acc + pages[i].value;
      i := i + 1;
    }
    assert pages[..i] == pages;
    return Some(acc);
  }

  /** `text[:200]`: at most 200 characters, a prefix of the text. */
  function Preview(text: string): (r: string)
    ensures |r| == (if |text| < PreviewLength then |text| else PreviewLength)
    ensures r == text[..|r|]
  {
    if |text| <= PreviewLength then text else text[..PreviewLength]
  }

  // ---------------------------------------------------------------------
  // scrape_pdfs_from_website

  /** The search URL of page index `k` (0-based). */
  function SearchUrl(base: string, keyword: string, k: int): string
  {
    base + "/pretraga?q=" + keyword + "&start=" + IntToString(k * 10)
  }

  /** The portal reads the keyword and the start offset `k * 10` from the
      search URL, provided the base has no '?' and the keyword (sent as
      typed) has no '?' or '&'. */
  lemma SearchUrlParams(base: string, keyword: string, k: int)
    requires NoneIn(base, {'?'}) && NoneIn(keyword, {'?', '&'})
    ensures QueryParams(SearchUrl(base, keyword, k)) == ["q=" + keyword, "start=" + IntToString(k * 10)]
  {
    var path := base + "/pretraga";
    NoneInConcat(base, "/pretraga", {'?'});
    NoneInConcat("q=", keyword, {'?', '&'});
    NumericParamClean("start=", k * 10);
    assert SearchUrl(base, keyword, k) == path + "?" + ("q=" + keyword) + "&" + ("start=" + IntToString(k * 10));
    QueryParamsOfTwo(path, "q=" + keyword, "start=" + IntToString(k * 10));
  }

  /** ... and `int` reads the offset back. */
  lemma SearchUrlStart(base: string, keyword: string, k: int)
    requires NoneIn(base, {'?'}) && NoneIn(keyword, {'?', '&'})
    ensures var q := QueryParams(SearchUrl(base, keyword, k));
            |q| == 2 && StartsWith(q[1], "start=") && ParseInt(q[1][6..]) == Some(k * 10)
  {
    SearchUrlParams(base, keyword, k);
    NumericParamValue("start=", k * 10);
  }

  /** Different pages are asked for with different URLs. */
  lemma SearchUrlsDistinct(base: string, keyword: string, a: int, b: int)
    requires SearchUrl(base, keyword, a) == SearchUrl(base, keyword, b)
    ensures a == b
  {
    var head := base + "/pretraga?q=" + keyword + "&start=";
    var u := SearchUrl(base, keyword, a);
    assert u == head + IntToString(a * 10);
    assert u == head + IntToString(b * 10);
    assert IntToString(a * 10) == u[|head|..];
    assert IntToString(b * 10) == u[|head|..];
    IntToStringInjective(a * 10, b * 10);
  }

  /** Hrefs taken for PDFs. */
  predicate IsFileHref(href: string) { Contains(href, "/file/") }

  /** The PDF URLs of a result page: each "/file/" href, resolved against
      the base URL, in document order. */
  function FileUrls(hrefs: seq<string>, base: string, urljoin: (string, string) -> string): (r: seq<string>)
    ensures |r| == |Filter(hrefs, IsFileHref)|
  {
    var kept := Filter(hrefs, IsFileHref);
    seq(|kept|, k requires 0 <= k < |kept| => urljoin(base, kept[k]))
  }

  /** A URL is among the PDF URLs exactly when it resolves a "/file/" href. */
  lemma FileUrlsExactly(hrefs: seq<string>, base: string, urljoin: (string, string) -> string)
    ensures forall h :: h in hrefs && IsFileHref(h) ==> urljoin(base, h) in FileUrls(hrefs, base, urljoin)
    ensures forall u :: u in FileUrls(hrefs, base, urljoin) ==>
              exists h :: h in hrefs && IsFileHref(h) && u == urljoin(base, h)
  {
    var kept := Filter(hrefs, IsFileHref);
    var urls := FileUrls(hrefs, base, urljoin);
    forall h | h in hrefs && IsFileHref(h) ensures urljoin(base, h) in urls {
      FilterKeeps(hrefs, IsFileHref, h);
      var k :| 0 <= k < |kept| && kept[k] == h;
      assert urls[k] == urljoin(base, h);
    }
    forall u | u in urls ensures exists h :: h in hrefs && IsFileHref(h) && u == urljoin(base, h) {
      var k :| 0 <= k < |urls| && urls[k] == u;
      assert kept[k] in multiset(kept);
      assert kept[k] in hrefs;
    }
  }

  /** What a run has done so far: the files on disk, the (path, preview)
      pairs shown for extracted texts, and whether an exception ended it. */
  datatype Run = Run(files: map<string, seq<byte>>, previews: seq<(string, string)>, aborted: bool)

  /** One PDF URL: downloaded, and on success its text extracted from the
      saved bytes; a non-empty text adds its preview. */
  function FetchStep(r: Run, url: string, folder: string,
                     get: string -> Response, read: seq<byte> -> Document): Run
  {
    if r.aborted then r
    else
      match get(url)
      case TransportError => r.(aborted := true)
      case Reply(status, _, body) =>
        if status != 200 then r
        else
          var path := PdfName(url, folder);
          var files := r.files[path := body];
          match ExtractText(read(body))
          case Some(text) =>
            if text != [] then Run(files, r.previews + [(path, Preview(text))], false)
            else Run(files, r.previews, false)
          case None => Run(files, r.previews, false)
  }

  /** One href of a result page: followed only when it contains "/file/". */
  function HrefStep(r: Run, href: string, base: string, folder: string, urljoin: (string, string) -> string,
                    get: string -> Response, read: seq<byte> -> Document): Run
  {
    if IsFileHref(href) then FetchStep(r, urljoin(base, href), folder, get, read) else r
  }

  /** The run after the hrefs of one page, in order. */
  function AfterHrefs(r: Run, hrefs: seq<string>, base: string, folder: string, urljoin: (string, string) -> string,
                      get: string -> Response, read: seq<byte> -> Document): Run
    decreases |hrefs|
  {
    if hrefs == [] then r
    else
      var n := |hrefs| - 1;
      HrefStep(AfterHrefs(r, hrefs[..n], base, folder, urljoin, get, read), hrefs[n], base, folder, urljoin, get, read)
  }

  /** The run after fetching the given URLs, in order. */
  function AfterFetches(r: Run, urls: seq<string>, folder: string,
                        get: string -> Response, read: seq<byte> -> Document): Run
    decreases |urls|
  {
    if urls == [] then r
    else
      var n := |urls| - 1;
      FetchStep(AfterFetches(r, urls[..n], folder, get, read), urls[n], folder, get, read)
  }

  /** Walking a page's hrefs fetches exactly its PDF URLs, in order: hrefs
      without "/file/" are never requested. */
  lemma {:induction false} HrefsFetchFileUrls(r: Run, hrefs: seq<string>, base: string, folder: string,
                                              urljoin: (string, string) -> string,
                                              get: string -> Response, read: seq<byte> -> Document)
    ensures AfterHrefs(r, hrefs, base, folder, urljoin, get, read) ==
            AfterFetches(r, FileUrls(hrefs, base, urljoin), folder, get, read)
    decreases |hrefs|
  {
    if hrefs != [] {
      var n := |hrefs| - 1;
      var h := hrefs[n];
      HrefsFetchFileUrls(r, hrefs[..n], base, folder, urljoin, get, read);
      FileUrlsSnoc(hrefs[..n], h, base, urljoin);
      assert hrefs[..n] + [h] == hrefs;
      var front := FileUrls(hrefs[..n], base, urljoin);
      if IsFileHref(h) {
        assert (front + [urljoin(base, h)])[..|front|] == front;
      } else {
        assert FileUrls(hrefs, base, urljoin) == front;
      }
    }
  }

  /** One more href adds its resolved URL exactly when it contains "/file/". */
  lemma FileUrlsSnoc(hrefs: seq<string>, h: string, base: string, urljoin: (string, string) -> string)
    ensures FileUrls(hrefs + [h], base, urljoin) ==
            FileUrls(hrefs, base, urljoin) + (if IsFileHref(h) then [urljoin(base, h)] else [])
  {
    var kept := Filter(hrefs, IsFileHref);
    var last := Filter([h], IsFileHref);
    FilterAppend(hrefs, [h], IsFileHref);
    assert last == (if IsFileHref(h) then [h] else []) + Filter([], IsFileHref);
    var whole := FileUrls(hrefs + [h], base, urljoin);
    var front := FileUrls(hrefs, base, urljoin);
    var extra := if IsFileHref(h) then [urljoin(base, h)] else [];
    assert |whole| == |front| + |extra|;
    forall k | 0 <= k < |whole| ensures whole[k] == (front + extra)[k] {
      if k < |front| {
        assert whole[k] == urljoin(base, (kept + last)[k]);
      }
    }
  }

  /** `pv` is the preview shown for the download of `url`: the request was
      answered with status 200, the body was saved under `pv.0`, and the
      text read from that body is non-empty and gives `pv.1`. */
  predicate PreviewOf(pv: (string, string), url: string, folder: string,
                      get: string -> Response, read: seq<byte> -> Document)
  {
    var resp := get(url);
    resp.Reply? && resp.status == 200 && pv.0 == PdfName(url, folder) &&
    var text := ExtractText(read(resp.body));
    text.Some? && text.value != [] && pv.1 == Preview(text.value)
  }

  /** What one fetch does to the previews: it keeps those shown so far and
      adds at most one, at the end, which is the preview of this URL's
      download; the step that adds it has just saved the body it was read
      from. */
  lemma FetchStepPreview(r: Run, url: string, folder: string,
                         get: string -> Response, read: seq<byte> -> Document)
    ensures var next := FetchStep(r, url, folder, get, read);
            var n := |r.previews|;
            n <= |next.previews| <= n + 1 && next.previews[..n] == r.previews &&
            (|next.previews| == n + 1 ==>
               !r.aborted && PreviewOf(next.previews[n], url, folder, get, read) &&
               next.files == r.files[PdfName(url, folder) := get(url).body])
  {
    var next := FetchStep(r, url, folder, get, read);
    if |next.previews| == |r.previews| + 1 {
      assert (r.previews + [next.previews[|r.previews|]])[..|r.previews|] == r.previews;
    }
  }

  /** `pv` is the preview of a successful download of one of `urls`. */
  predicate DownloadedFrom(pv: (string, string), urls: seq<string>, folder: string,
                           get: string -> Response, read: seq<byte> -> Document)
  {
    exists u :: u in urls && PreviewOf(pv, u, folder, get, read)
  }

  /** Every preview from position `from` on is that of a successful download
      of one of `urls`. */
  predicate PreviewsOfDownloads(previews: seq<(string, string)>, from: nat, urls: seq<string>, folder: string,
                                get: string -> Response, read: seq<byte> -> Document)
  {
    from <= |previews| &&
    forall k :: from <= k < |previews| ==> DownloadedFrom(previews[k], urls, folder, get, read)
  }

  /** Over any sequence of fetches, the previews shown before are kept, and
      every preview added is that of one of those URLs, answered with 200:
      text is extracted only from a file the run itself downloaded. */
  lemma {:induction false} PreviewsAreOfDownloads(r: Run, urls: seq<string>, folder: string,
                                                  get: string -> Response, read: seq<byte> -> Document)
    ensures var out := AfterFetches(r, urls, folder, get, read);
            PreviewsOfDownloads(out.previews, |r.previews|, urls, folder, get, read) &&
            out.previews[..|r.previews|] == r.previews
    decreases |urls|
  {
    if urls != [] {
      var n := |urls| - 1;
      var before := AfterFetches(r, urls[..n], folder, get, read);
      var out := AfterFetches(r, urls, folder, get, read);
      PreviewsAreOfDownloads(r, urls[..n], folder, get, read);
      FetchStepPreview(before, urls[n], folder, get, read);
      var m := |r.previews|;
      assert out.previews[..|before.previews|] == before.previews;
      assert out.previews[..m] == before.previews[..m];
      forall k | m <= k < |out.previews|
        ensures DownloadedFrom(out.previews[k], urls, folder, get, read)
      {
        if k < |before.previews| {
          assert out.previews[k] == before.previews[k];
          var u :| u in urls[..n] && PreviewOf(before.previews[k], u, folder, get, read);
          assert u in urls;
        } else {
          assert PreviewOf(out.previews[k], urls[n], folder, get, read);
        }
      }
      assert m <= |out.previews|;
      assert PreviewsOfDownloads(out.previews, m, urls, folder, get, read);
    }
  }

  /** `pv` is the preview of a successful download of some URL. */
  ghost predicate Downloaded(pv: (string, string), folder: string,
                             get: string -> Response, read: seq<byte> -> Document)
  {
    exists u :: PreviewOf(pv, u, folder, get, read)
  }

  /** Every preview from position `from` on is that of a successful download
      of some URL. */
  ghost predicate PreviewsDownloaded(previews: seq<(string, string)>, from: nat, folder: string,
                                     get: string -> Response, read: seq<byte> -> Document)
  {
    from <= |previews| &&
    forall k :: from <= k < |previews| ==> Downloaded(previews[k], folder, get, read)
  }

  /** `next` keeps the previews of `r` and adds only previews of successful
      downloads. */
  ghost predicate Grows(r: Run, next: Run, folder: string, get: string -> Response, read: seq<byte> -> Document)
  {
    PreviewsDownloaded(next.previews, |r.previews|, folder, get, read) &&
    next.previews[..|r.previews|] == r.previews
  }

  lemma GrowsTrans(a: Run, b: Run, c: Run, folder: string, get: string -> Response, read: seq<byte> -> Document)
    requires Grows(a, b, folder, get, read) && Grows(b, c, folder, get, read)
    ensures Grows(a, c, folder, get, read)
  {
    forall j | |a.previews| <= j < |c.previews|
      ensures Downloaded(c.previews[j], folder, get, read)
    {
      if j < |b.previews| {
        assert c.previews[j] == b.previews[j];
      }
    }
    assert c.previews[..|a.previews|] == c.previews[..|b.previews|][..|a.previews|];
  }

  /** One result page keeps the previews shown before and adds only those of
      its own successful downloads. */
  lemma PageStepPreviews(r: Run, k: int, base: string, keyword: string, folder: string,
                         get: string -> Response, parse: seq<byte> -> seq<Node>,
                         urljoin: (string, string) -> string, read: seq<byte> -> Document)
    ensures Grows(r, PageStep(r, k, base, keyword, folder, get, parse, urljoin, read), folder, get, read)
  {
    var resp := get(SearchUrl(base, keyword, k));
    var out := PageStep(r, k, base, keyword, folder, get, parse, urljoin, read);
    if !r.aborted && resp.Reply? {
      var hrefs := Hrefs(FindAll(parse(resp.body), "a"));
      var urls := FileUrls(hrefs, base, urljoin);
      HrefsFetchFileUrls(r, hrefs, base, folder, urljoin, get, read);
      PreviewsAreOfDownloads(r, urls, folder, get, read);
      var fetched := AfterFetches(r, urls, folder, get, read);
      assert out == fetched;
      assert PreviewsOfDownloads(fetched.previews, |r.previews|, urls, folder, get, read);
      forall j | |r.previews| <= j < |out.previews|
        ensures Downloaded(out.previews[j], folder, get, read)
      {
        assert DownloadedFrom(fetched.previews[j], urls, folder, get, read);
        var u :| u in urls && PreviewOf(fetched.previews[j], u, folder, get, read);
      }
    }
  }

  /** A whole run, page after page: every preview shown is that of a file
      the run downloaded with status 200, its text read from the saved body,
      and the previews shown before the run are kept. */
  lemma {:induction false} RunPreviewsDownloaded(r: Run, pages: nat, base: string, keyword: string, folder: string,
                                                get: string -> Response, parse: seq<byte> -> seq<Node>,
                                                urljoin: (string, string) -> string, read: seq<byte> -> Document)
    ensures Grows(r, AfterPages(r, pages, base, keyword, folder, get, parse, urljoin, read), folder, get, read)
    decreases pages
  {
    if pages == 0 {
      assert r.previews[..|r.previews|] == r.previews;
    } else {
      var before := AfterPages(r, pages - 1, base, keyword, folder, get, parse, urljoin, read);
      RunPreviewsDownloaded(r, pages - 1, base, keyword, folder, get, parse, urljoin, read);
      PageStepPreviews(before, pages - 1, base, keyword, folder, get, parse, urljoin, read);
      GrowsTrans(r, before, PageStep(before, pages - 1, base, keyword, folder, get, parse, urljoin, read), folder, get, read);
    }
  }

  /** Once aborted, a run does nothing more. */
  lemma {:induction false} AbortedStaysPut(r: Run, urls: seq<string>, folder: string,
                                          get: string -> Response, read: seq<byte> -> Document)
    requires r.aborted
    ensures AfterFetches(r, urls, folder, get, read) == r
    decreases |urls|
  {
    if urls != [] {
      AbortedStaysPut(r, urls[..|urls| - 1], folder, get, read);
    }
  }

  /** One result page: its search request, then its hrefs. */
  function PageStep(r: Run, k: int, base: string, keyword: string, folder: string,
                    get: string -> Response, parse: seq<byte> -> seq<Node>,
                    urljoin: (string, string) -> string, read: seq<byte> -> Document): Run
  {
    if r.aborted then r
    else
      match get(SearchUrl(base, keyword, k))
      case TransportError => r.(aborted := true)
      case Reply(_, _, body) => AfterHrefs(r, Hrefs(FindAll(parse(body), "a")), base, folder, urljoin, get, read)
  }

  /** The run after the first `pages` result pages. */
  function AfterPages(r: Run, pages: nat, base: string, keyword: string, folder: string,
                      get: string -> Response, parse: seq<byte> -> seq<Node>,
                      urljoin: (string, string) -> string, read: seq<byte> -> Document): Run
  {
    if pages == 0 then r
    else PageStep(AfterPages(r, pages - 1, base, keyword, folder, get, parse, urljoin, read),
                  pages - 1, base, keyword, folder, get, parse, urljoin, read)
  }

  /** The loop over the links of one result page. */
  method ScrapeLinks(disk: Disk<byte>, hrefs: seq<string>, base: string, folder: string,
                     urljoin: (string, string) -> string, get: string -> Response, read: seq<byte> -> Document)
    returns (previews: seq<(string, string)>, aborted: bool)
    modifies disk
    ensures Run(disk.files, previews, aborted) ==
            AfterHrefs(Run(old(disk.files), [], false), hrefs, base, folder, urljoin, get, read)
  {
    previews := [];
    aborted := false;
    var i := 0;
    while i < |hrefs|
      invariant 0 <= i <= |hrefs|
      invariant !aborted
      invariant Run(disk.files, previews, false) ==
                AfterHrefs(Run(old(disk.files), [], false), hrefs[..i], base, folder, urljoin, get, read)
    {
      assert hrefs[..i + 1][..i] == hrefs[..i];
      var href := hrefs[i];
      if Contains(href, "/file/") {
        var pdfUrl := urljoin(base, href);
        var raised, pdfPath := DownloadPdf(disk, pdfUrl, folder, get(pdfUrl));
        if raised {
          AbortedAfterHrefs(Run(old(disk.files), [], false), hrefs, i + 1, base, folder, urljoin, get, read);
          assert hrefs[..|hrefs|] == hrefs;
          return previews, true;
        }
        if pdfPath.Some? {
          var text := ExtractTextFromPdf(read(get(pdfUrl).body));
          if text.Some? && text.value != [] {
            previews := previews + [(pdfPath.value, Preview(text.value))];
          }
        }
      }
      i := i + 1;
    }
    assert hrefs[..i] == hrefs;
  }

  /** Once a page's walk has aborted, the remaining hrefs change nothing. */
  lemma {:induction false} AbortedAfterHrefs(r: Run, hrefs: seq<string>, i: nat, base: string, folder: string,
                                            urljoin: (string, string) -> string,
                                            get: string -> Response, read: seq<byte> -> Document)
    requires i <= |hrefs|
    requires AfterHrefs(r, hrefs[..i], base, folder, urljoin, get, read).aborted
    ensures AfterHrefs(r, hrefs, base, folder, urljoin, get, read) ==
            AfterHrefs(r, hrefs[..i], base, folder, urljoin, get, read)
    decreases |hrefs| - i
  {
    if i < |hrefs| {
      assert hrefs[..i + 1][..i] == hrefs[..i];
      AbortedAfterHrefs(r, hrefs, i + 1, base, folder, urljoin, get, read);
    } else {
      assert hrefs[..i] == hrefs;
    }
  }

  /** One result page: the search request, then the walk over its links,
      continuing the previews gathered so far. */
  method ScrapePage(disk: Disk<byte>, previews: seq<(string, string)>, k: int, base: string, keyword: string,
                    folder: string, get: string -> Response, parse: seq<byte> -> seq<Node>,
                    urljoin: (string, string) -> string, read: seq<byte> -> Document)
    returns (previews': seq<(string, string)>, aborted: bool)
    modifies disk
    ensures Run(disk.files, previews', aborted) ==
            PageStep(Run(old(disk.files), previews, false), k, base, keyword, folder, get, parse, urljoin, read)
  {
    var searchUrl := SearchUrl(base, keyword, k);
    var response := get(searchUrl);
    if response.TransportError? {
      return previews, true;
    }
    var hrefs := Hrefs(FindAll(parse(response.body), "a"));
    ghost var before := Run(disk.files, previews, false);
    var more;
    more, aborted := ScrapeLinks(disk, hrefs, base, folder, urljoin, get, read);
    AfterHrefsFrom(before, hrefs, base, folder, urljoin, get, read);
    previews' := previews + more;
  }

  /** `scrape_pdfs_from_website(base_url, keyword, num_pages, folder_name)`:
      page indices 0 to `numPages - 1` in order, until an exception. */
  method ScrapePdfsFromWebsite(disk: Disk<byte>, base: string, keyword: string, numPages: int, folder: string,
                               get: string -> Response, parse: seq<byte> -> seq<Node>,
                               urljoin: (string, string) -> string, read: seq<byte> -> Document)
    returns (previews: seq<(string, string)>, aborted: bool)
    modifies disk
    ensures Run(disk.files, previews, aborted) ==
            AfterPages(Run(old(disk.files), [], false), if numPages < 0 then 0 else numPages,
                       base, keyword, folder, get, parse, urljoin, read)
  {
    ghost var start := Run(disk.files, [], false);
    ghost var total: nat := if numPages < 0 then 0 else numPages;
    previews := [];
    aborted := false;
    var pageNum := 0;
    while pageNum < numPages
      invariant 0 <= pageNum <= total
      invariant Run(disk.files, previews, false) ==
                AfterPages(start, pageNum, base, keyword, folder, get, parse, urljoin, read)
    {
      ghost var before := Run(disk.files, previews, false);
      previews, aborted := ScrapePage(disk, previews, pageNum, base, keyword, folder, get, parse, urljoin, read);
      assert Run(disk.files, previews, aborted) ==
             AfterPages(start, pageNum + 1, base, keyword, folder, get, parse, urljoin, read);
      if aborted {
        AbortedAfterPages(start, pageNum + 1, total, base, keyword, folder, get, parse, urljoin, read);
        return;
      }
      pageNum := pageNum + 1;
    }
  }

  /** The walk of a page does not depend on the previews gathered before
      it: they stay in front. */
  lemma {:induction false} AfterHrefsFrom(r: Run, hrefs: seq<string>, base: string, folder: string,
                                         urljoin: (string, string) -> string,
                                         get: string -> Response, read: seq<byte> -> Document)
    requires !r.aborted
    ensures var walk := AfterHrefs(Run(r.files, [], false), hrefs, base, folder, urljoin, get, read);
            AfterHrefs(r, hrefs, base, folder, urljoin, get, read) == walk.(previews := r.previews + walk.previews)
    decreases |hrefs|
  {
    if hrefs != [] {
      AfterHrefsFrom(r, hrefs[..|hrefs| - 1], base, folder, urljoin, get, read);
    }
  }

  /** Once the run has aborted, the remaining pages change nothing. */
  lemma {:induction false} AbortedAfterPages(r: Run, i: nat, numPages: int, base: string, keyword: string, folder: string,
                                            get: string -> Response, parse: seq<byte> -> seq<Node>,
                                            urljoin: (string, string) -> string, read: seq<byte> -> Document)
    requires i <= numPages
    requires AfterPages(r, i, base, keyword, folder, get, parse, urljoin, read).aborted
    ensures AfterPages(r, numPages, base, keyword, folder, get, parse, urljoin, read) ==
            AfterPages(r, i, base, keyword, folder, get, parse, urljoin, read)
    decreases numPages - i
  {
    if i < numPages {
      AbortedAfterPages(r, i + 1, numPages, base, keyword, folder, get, parse, urljoin, read);
    }
  }

  /** The script: the page count typed must be an integer, else `int`
      raises before anything is requested; the PDFs go to "pdfs". */
  method RunScript(disk: Disk<byte>, keyword: string, pagesAnswer: string,
              get: string -> Response, parse: seq<byte> -> seq<Node>,
              urljoin: (string, string) -> string, read: seq<byte> -> Document)
    returns (previews: seq<(string, string)>, aborted: bool)
    modifies disk
    ensures ParseInt(pagesAnswer).None? ==> aborted && previews == [] && disk.files == old(disk.files)
    ensures ParseInt(pagesAnswer).Some? ==>
              var n := ParseInt(pagesAnswer).value;
              Run(disk.files, previews, aborted) ==
              AfterPages(Run(old(disk.files), [], false), if n < 0 then 0 else n,
                         BaseUrl, keyword, DefaultFolder, get, parse, urljoin, read)
  {
    var numPages := ParseInt(pagesAnswer);
    if numPages.None? {
      return [], true;
    }
    previews, aborted := ScrapePdfsFromWebsite(disk, BaseUrl, keyword, numPages.value, DefaultFolder,
                                               get, parse, urljoin, read);
  }
}

=== FILE: html.dfy ===
/**
 * A parsed HTML document as BeautifulSoup presents it: a forest of text
 * nodes and elements with attributes and children, searched in document
 * order.  Parsing itself is not part of this model.
 */
module Html {
  import opened Base
  import opened PyLines

  datatype Node =
    | Text(text: string)
    | Element(tag: string, attrs: map<string, string>, children: seq<Node>)

  /** `find_all(tag)`: every element with that tag, in document order (an
      element comes before its descendants). */
  function FindAll(nodes: seq<Node>, tag: string): (r: seq<Node>)
    ensures forall k :: 0 <= k < |r| ==> r[k].Element? && r[k].tag == tag
    decreases nodes
  {
    if nodes == [] then []
    else
      (match nodes[0]
       case Text(_) => []
       case Element(t, _, ch) => (if t == tag then [nodes[0]] else []) + FindAll(ch, tag))
      + FindAll(nodes[1..], tag)
  }

  /** `find(tag)`: the first element `find_all` would return. */
  function FindFirst(nodes: seq<Node>, tag: string): (r: Option<Node>)
    ensures r.Some? ==> r.value.Element? && r.value.tag == tag
    ensures r.None? <==> FindAll(nodes, tag) == []
  {
    var all := FindAll(nodes, tag);
    if all == [] then None else Some(all[0])
  }

  /** The text nodes below `nodes`, in document order (`.strings`). */
  function Strings(nodes: seq<Node>): seq<string>
    decreases nodes
  {
    if nodes == [] then []
    else
      (match nodes[0]
       case Text(t) => [t]
       case Element(_, _, ch) => Strings(ch))
      + Strings(nodes[1..])
  }

  /** `get_text()`: the text nodes concatenated with no separator. */
  function GetText(n: Node): string
  {
    Concat(Strings([n]))
  }

  /** `.string`: the text of a node whose content is a single string,
      looking through elements that have exactly one child. */
  function StringOf(n: Node): Option<string>
    decreases n
  {
    match n
    case Text(t) => Some(t)
    case Element(_, _, ch) => if |ch| == 1 then StringOf(ch[0]) else None
  }

  /** The value of an attribute, when the element has it. */
  function Attr(n: Node, name: string): Option<string>
  {
    if n.Element? && name in n.attrs then Some(n.attrs[name]) else None
  }

  /** BeautifulSoup's multi-valued `class` attribute: its whitespace-separated words. */
  function Classes(n: Node): seq<string>
  {
    match Attr(n, "class")
    case Some(v) => Words(v)
    case None => []
  }

  /** The `href` of every `a` element that has one, in document order
      (`find_all('a', href=True)`). */
  function Hrefs(anchors: seq<Node>): (r: seq<string>)
    ensures |r| <= |anchors|
  {
    if anchors == [] then []
    else
      (match Attr(anchors[0], "href") case Some(h) => [h] case None => [])
      + Hrefs(anchors[1..])
  }

  /** `decompose()` applied to every element whose tag is in `drop`: each is
      removed together with everything below it. */
  function Prune(nodes: seq<Node>, drop: set<string>): seq<Node>
    decreases nodes
  {
    if nodes == [] then []
    else
      (match nodes[0]
       case Text(_) => [nodes[0]]
       case Element(t, a, ch) => if t in drop then [] else [Element(t, a, Prune(ch, drop))])
      + Prune(nodes[1..], drop)
  }

  lemma {:induction false} FindAllAppend(a: seq<Node>, b: seq<Node>, tag: string)
    ensures FindAll(a + b, tag) == FindAll(a, tag) + FindAll(b, tag)
    decreases a
  {
    if a != [] {
      assert (a + b)[0] == a[0];
      assert (a + b)[1..] == a[1..] + b;
      FindAllAppend(a[1..], b, tag);
    } else {
      assert a + b == b;
    }
  }

  lemma {:induction false} StringsAppend(a: seq<Node>, b: seq<Node>)
    ensures Strings(a + b) == Strings(a) + Strings(b)
    decreases a
  {
    if a != [] {
      assert (a + b)[0] == a[0];
      assert (a + b)[1..] == a[1..] + b;
      StringsAppend(a[1..], b);
    } else {
      assert a + b == b;
    }
  }

  /** After pruning, no element with a dropped tag is left anywhere. */
  lemma {:induction false} PruneRemovesAll(nodes: seq<Node>, drop: set<string>, tag: string)
    requires tag in drop
    ensures FindAll(Prune(nodes, drop), tag) == []
    decreases nodes
  {
    if nodes != [] {
      PruneRemovesAll(nodes[1..], drop, tag);
      var head := match nodes[0]
        case Text(_) => [nodes[0]]
        case Element(t, a, ch) => if t in drop then [] else [Element(t, a, Prune(ch, drop))];
      FindAllAppend(head, Prune(nodes[1..], drop), tag);
      match nodes[0]
      case Text(_) =>
      case Element(t, a, ch) =>
        if t !in drop {
          PruneRemovesAll(ch, drop, tag);
          assert head[1..] == [];
        }
    }
  }

  /** Pruning a document that has no element with a dropped tag changes nothing. */
  lemma {:induction false} PruneNothingToDrop(nodes: seq<Node>, drop: set<string>)
    requires forall t :: t in drop ==> FindAll(nodes, t) == []
    ensures Prune(nodes, drop) == nodes
    decreases nodes
  {
    if nodes != [] {
      var head := nodes[..1];
      assert nodes == head + nodes[1..];
      forall t | t in drop ensures FindAll(nodes[1..], t) == [] && FindAll(head, t) == [] {
        FindAllAppend(head, nodes[1..], t);
      }
      PruneNothingToDrop(nodes[1..], drop);
      match nodes[0]
      case Text(_) =>
      case Element(tg, a, ch) =>
        assert head == [Element(tg, a, ch)];
        forall t | t in drop ensures FindAll(ch, t) == [] && tg != t {
          assert FindAll(head, t) == (if tg == t then head else []) + FindAll(ch, t) + FindAll([], t);
        }
        PruneNothingToDrop(ch, drop);
    }
  }

  /** Pruning twice is pruning once. */
  lemma PruneIdempotent(nodes: seq<Node>, drop: set<string>)
    ensures Prune(Prune(nodes, drop), drop) == Prune(nodes, drop)
  {
    forall t | t in drop ensures FindAll(Prune(nodes, drop), t) == [] {
      PruneRemovesAll(nodes, drop, t);
    }
    PruneNothingToDrop(Prune(nodes, drop), drop);
  }

  /** Pruning only removes text: every string of the pruned document is a
      string of the original one, as often or less often. */
  lemma {:induction false} PruneRemovesOnlyText(nodes: seq<Node>, drop: set<string>)
    ensures multiset(Strings(Prune(nodes, drop))) <= multiset(Strings(nodes))
    decreases nodes
  {
    if nodes != [] {
      PruneRemovesOnlyText(nodes[1..], drop);
      var head := match nodes[0]
        case Text(_) => [nodes[0]]
        case Element(t, a, ch) => if t in drop then [] else [Element(t, a, Prune(ch, drop))];
      StringsAppend(head, Prune(nodes[1..], drop));
      match nodes[0]
      case Text(_) =>
      case Element(t, a, ch) =>
        if t !in drop {
          PruneRemovesOnlyText(ch, drop);
          assert Strings(head) == Strings(Prune(ch, drop)) + Strings([]);
        }
    }
  }

  /** Decomposing the elements of one set of tags and then those of another
      is decomposing the elements of both at once. */
  lemma {:induction false} PruneCompose(nodes: seq<Node>, a: set<string>, b: set<string>)
    ensures Prune(Prune(nodes, a), b) == Prune(nodes, a + b)
    decreases nodes
  {
    if nodes != [] {
      PruneCompose(nodes[1..], a, b);
      var once := Prune(nodes, a);
      match nodes[0]
      case Text(_) =>
        assert once == [nodes[0]] + Prune(nodes[1..], a);
        assert once[0] == nodes[0] && once[1..] == Prune(nodes[1..], a);
      case Element(t, at, ch) =>
        if t in a {
          assert once == Prune(nodes[1..], a);
        } else {
          PruneCompose(ch, a, b);
          assert once == [Element(t, at, Prune(ch, a))] + Prune(nodes[1..], a);
          assert once[0] == Element(t, at, Prune(ch, a)) && once[1..] == Prune(nodes[1..], a);
        }
    }
  }

  /** An element that `find_all` returns lies in the searched forest, so a
      tag absent from the forest is absent below that element too. */
  lemma {:induction false} AbsentBelowFound(nodes: seq<Node>, t: string, u: string, n: Node)
    requires n in FindAll(nodes, t) && FindAll(nodes, u) == []
    ensures FindAll([n], u) == []
    decreases nodes
  {
    var head := nodes[0];
    match head
    case Text(_) =>
      assert FindAll(nodes, t) == FindAll(nodes[1..], t);
      assert FindAll(nodes, u) == FindAll(nodes[1..], u);
      AbsentBelowFound(nodes[1..], t, u, n);
    case Element(tg, at, ch) =>
      var here := (if tg == t then [head] else []) + FindAll(ch, t);
      assert FindAll(nodes, t) == here + FindAll(nodes[1..], t);
      assert FindAll(nodes, u) == (if tg == u then [head] else []) + FindAll(ch, u) + FindAll(nodes[1..], u);
      assert tg != u && FindAll(ch, u) == [] && FindAll(nodes[1..], u) == [];
      if n in FindAll(nodes[1..], t) {
        AbsentBelowFound(nodes[1..], t, u, n);
      } else if n in FindAll(ch, t) {
        AbsentBelowFound(ch, t, u, n);
      } else {
        assert n == head;
        assert FindAll([n], u) == FindAll(ch, u) + FindAll([], u);
      }
  }
}

=== FILE: http.dfy ===
/**
 * HTTP responses as the scripts see them through `requests`.  The request
 * itself is made by the network, which is not part of this model: each
 * response is an input.
 */
module Http {
  import opened Base
  import opened PyStr
  import opened PyNum
  import opened Fs

  /** The outcome of one `requests.get`: a transport failure (connection
      error, timeout, invalid URL), or a status, the Content-Type header if
      present, and the body. */
  datatype Response =
    | TransportError
    | Reply(status: int, contentType: Option<string>, body: seq<byte>)

  /** `raise_for_status()` raises for client and server errors, 400 to 599. */
  predicate IsHttpError(status: int) { 400 <= status < 600 }

  /** `requests.get(...)` followed by `raise_for_status()` completes. */
  predicate Succeeds(r: Response) { r.Reply? && !IsHttpError(r.status) }

  /** The disk after `requests.get(url)`, `raise_for_status()` and writing
      the body to `path` with mode 'wb', any exception being caught: a
      successful response's body replaces the file; a failure leaves the
      disk as it was. */
  function AfterSave(files: map<string, seq<byte>>, path: string, resp: Response): (r: map<string, seq<byte>>)
    ensures Succeeds(resp) ==> path in r && r[path] == resp.body
    ensures !Succeeds(resp) ==> r == files
    ensures forall p :: p != path ==> (p in r <==> p in files)
    ensures forall p :: p != path && p in files ==> r[p] == files[p]
  {
    if Succeeds(resp) then files[path := resp.body] else files
  }

  /** The download-and-save step shared by the connectors that call
      `raise_for_status()` before writing. */
  method SaveResponse(disk: Disk<byte>, resp: Response, path: string)
    modifies disk
    ensures disk.files == AfterSave(old(disk.files), path, resp)
  {
    if !Succeeds(resp) {
      return;
    }
    disk.Create(path);
    assert disk.Read(path) == [];
    disk.Write(path, resp.body);
    assert [] + resp.body == resp.body;
  }

  /** The query parameters a server reads from a URL: what follows the first
      '?' up to any second one, split on '&'. */
  function QueryParams(url: string): seq<string>
  {
    var parts := Split(url, "?");
    if |parts| < 2 then [] else Split(parts[1], "&")
  }

  /** A server reads back exactly the parameters a URL was built from,
      provided the path has no '?' and no parameter has a '?' or '&'. */
  lemma QueryParamsOf(path: string, params: seq<string>)
    requires |params| >= 1
    requires NoneIn(path, {'?'})
    requires forall k :: 0 <= k < |params| ==> NoneIn(params[k], {'?', '&'})
    ensures QueryParams(path + "?" + Join(params, "&")) == params
  {
    var query := Join(params, "&");
    forall k | 0 <= k < |params| ensures NoneIn(params[k], {'?'}) && NoneIn(params[k], {'&'}) {
      assert NoneIn(params[k], {'?', '&'});
    }
    JoinNoneIn(params, "&", {'?'});
    SplitQuery(path, query);
    SplitJoin(params, ['&']);
  }

  /** The query of `path?first&second` is `first` and `second`. */
  lemma QueryParamsOfTwo(path: string, first: string, second: string)
    requires NoneIn(path, {'?'}) && NoneIn(first, {'?', '&'}) && NoneIn(second, {'?', '&'})
    ensures QueryParams(path + "?" + first + "&" + second) == [first, second]
  {
    assert Join([first, second], "&") == first + "&" + second;
    assert path + "?" + first + "&" + second == path + "?" + Join([first, second], "&");
    QueryParamsOf(path, [first, second]);
  }

  /** Splitting `path?query` on '?' when neither part has one. */
  lemma SplitQuery(path: string, query: string)
    requires NoneIn(path, {'?'}) && NoneIn(query, {'?'})
    ensures Split(path + "?" + query, "?") == [path, query]
  {
    assert path + "?" + query == Join([path, query], "?");
    SplitJoin([path, query], ['?']);
  }

  /** A parameter `name=<n>` made with `str(n)`, for a name without '?' or
      '&', holds neither. */
  lemma NumericParamClean(name: string, n: int)
    requires NoneIn(name, {'?', '&'})
    ensures NoneIn(name + IntToString(n), {'?', '&'})
  {
    NoneInConcat(name, IntToString(n), {'?', '&'});
  }

  /** `int` reads `n` back from what follows the name in `name=<n>`. */
  lemma NumericParamValue(name: string, n: int)
    ensures ParseInt((name + IntToString(n))[|name|..]) == Some(n)
  {
    assert (name + IntToString(n))[|name|..] == IntToString(n);
    ParseIntOfIntToString(n);
  }
}

=== FILE: json_convert.dfy ===
/**
 * Projekt/json_convert.py: `txt_to_json(directory)` turns every listed name
 * ending in ".txt" into a JSON record (file name, content as read in text
 * mode, word and line counts) written next to it, under the name with
 * ".txt" replaced by ".json".  The JSON encoder is a parameter; the size and time fields taken
 * from `os.stat` are not modelled.
 */
module JsonConvert {
  import opened Base
  import opened PyStr
  import opened PyChars
  import opened PyLines
  import opened Fs

  datatype Metadata = Metadata(wordCount: nat, lineCount: nat)

  /** The fields of `json_data` that the text determines. */
  datatype Record = Record(filename: string, content: string, metadata: Metadata)

  /** The record of one text file: its name and content verbatim, the number
      of maximal runs of non-whitespace characters, and the number of lines,
      where a final line break does not start a further line. */
  function MakeRecord(filename: string, content: string): (r: Record)
    ensures r.filename == filename && r.content == content
    ensures r.metadata.wordCount == RunStarts(content, true)
    ensures r.metadata.lineCount ==
              Terminators(content) + (if content != [] && content[|content| - 1] !in LineBreaks then 1 else 0)
  {
    WordCountIsRunStarts(content);
    LineCountIsTerminators(content);
    Record(filename, content, Metadata(|Words(content)|, |SplitLines(content)|))
  }

  /** Text of blanks only has no words, and empty text has no lines. */
  lemma BlankCounts(filename: string, content: string)
    requires forall k :: 0 <= k < |content| ==> content[k] in Whitespace
    ensures MakeRecord(filename, content).metadata.wordCount == 0
    ensures content == [] ==> MakeRecord(filename, content).metadata.lineCount == 0
  {
    BlankRunStarts(content, true);
  }

  lemma {:induction false} BlankRunStarts(s: string, afterSpace: bool)
    requires forall k :: 0 <= k < |s| ==> s[k] in Whitespace
    ensures RunStarts(s, afterSpace) == 0
    decreases |s|
  {
    if s != [] {
      BlankRunStarts(s[1..], true);
    }
  }

  /** What `open(path, 'r').read()` returns for stored text: universal
      newlines mode turns every "\r\n" and every other "\r" into "\n". */
  function TextMode(s: string): (r: string)
    ensures |r| <= |s|
    ensures forall k :: 0 <= k < |r| ==> r[k] != '\r'
    decreases |s|
  {
    if s == [] then []
    else if s[0] == '\r' then "\n" + TextMode(if |s| > 1 && s[1] == '\n' then s[2..] else s[1..])
    else [s[0]] + TextMode(s[1..])
  }

  /** Text without carriage returns is read back unchanged. */
  lemma {:induction false} TextModeKeepsPlainText(s: string)
    requires forall k :: 0 <= k < |s| ==> s[k] != '\r'
    ensures TextMode(s) == s
    decreases |s|
  {
    if s != [] {
      TextModeKeepsPlainText(s[1..]);
    }
  }

  /** Reading text written from what was read changes nothing more. */
  lemma TextModeIdempotent(s: string)
    ensures TextMode(TextMode(s)) == TextMode(s)
  {
    TextModeKeepsPlainText(TextMode(s));
  }

  /** `filename.replace(".txt", ".json")`. */
  function JsonName(filename: string): string
  {
    Replace(filename, ".txt", ".json")
  }

  /** A name whose only ".txt" is its ending gets ".json" instead. */
  lemma JsonNameOfTxt(base: string)
    requires !Contains(base + ".tx", ".txt")
    ensures JsonName(base + ".txt") == base + ".json"
  {
    assert ".txt"[..3] == ".tx";
    ReplaceOnlySuffix(base, ".txt", ".json");
  }

  /** The listed text files exist. */
  predicate Listed(files: map<string, string>, directory: string, names: seq<string>)
  {
    forall k :: 0 <= k < |names| && EndsWith(names[k], ".txt") ==> PathJoin(directory, names[k]) in files
  }

  /** The files after the loop of `txt_to_json(directory)` over the listing,
      each text file read, in text mode, as it is when its turn comes. */
  function Converted(files: map<string, string>, directory: string, names: seq<string>,
                     dump: Record -> string): (r: map<string, string>)
    requires Listed(files, directory, names)
    ensures forall p :: p in files ==> p in r
    decreases |names|
  {
    if names == [] then files
    else
      var n := |names| - 1;
      assert Listed(files, directory, names[..n]);
      ConvertStep(Converted(files, directory, names[..n], dump), directory, names[n], dump)
  }

  /** The body of the loop for one listed name, given the files so far. */
  function ConvertStep(files: map<string, string>, directory: string, filename: string,
                       dump: Record -> string): map<string, string>
    requires EndsWith(filename, ".txt") ==> PathJoin(directory, filename) in files
  {
    if EndsWith(filename, ".txt") then
      var content := TextMode(files[PathJoin(directory, filename)]);
      files[PathJoin(directory, JsonName(filename)) := dump(MakeRecord(filename, content))]
    else files
  }

  /** No proper suffix of ".txt" is also a prefix of it. */
  lemma TxtUnbordered()
    ensures Unbordered(".txt")
  {
    var t := ".txt";
    assert t[1..][0] == 't' != '.' == t[..3][0];
    assert t[2..][0] == 'x' != '.' == t[..2][0];
    assert t[3..][0] == 't' != '.' == t[..1][0];
  }

  /** The JSON name of a text file ends in ".json". */
  lemma JsonNameEnds(n: string)
    requires EndsWith(n, ".txt")
    ensures EndsWith(JsonName(n), ".json")
  {
    TxtUnbordered();
    ReplaceEndsWith(n, ".txt", ".json");
  }

  /** The JSON name of a text file ends in ".json", so it is never the path
      of a text file. */
  lemma JsonPathNotTxt(directory: string, n: string, m: string)
    requires EndsWith(n, ".txt") && EndsWith(m, ".txt")
    ensures PathJoin(directory, JsonName(n)) != PathJoin(directory, m)
  {
    var json := JsonName(n);
    JsonNameEnds(n);
    var a := PathJoin(directory, json);
    var b := PathJoin(directory, m);
    PathJoinEndsWith(directory, json);
    PathJoinEndsWith(directory, m);
    assert a[|a| - 1] == a[|a| - 5..][4] == ".json"[4] == 'n';
    assert b[|b| - 1] == b[|b| - 4..][3] == ".txt"[3] == 't';
  }

  /** The run only adds JSON files: every text file keeps its content, and a
      missing one stays missing. */
  lemma {:induction false} TextsKept(files: map<string, string>, directory: string, names: seq<string>,
                                     dump: Record -> string, m: string)
    requires Listed(files, directory, names) && EndsWith(m, ".txt")
    ensures var out := Converted(files, directory, names, dump);
            var p := PathJoin(directory, m);
            (p in out <==> p in files) && (p in files ==> out[p] == files[p])
    decreases |names|
  {
    if names != [] {
      var n := |names| - 1;
      assert Listed(files, directory, names[..n]);
      TextsKept(files, directory, names[..n], dump, m);
      if EndsWith(names[n], ".txt") {
        JsonPathNotTxt(directory, names[n], m);
      }
    }
  }

  /** The run touches nothing but the JSON paths of the listed text files:
      every other path keeps its presence and its content. */
  lemma {:induction false} OthersKept(files: map<string, string>, directory: string, names: seq<string>,
                                      dump: Record -> string, p: string)
    requires Listed(files, directory, names)
    requires forall k :: 0 <= k < |names| && EndsWith(names[k], ".txt") ==>
               PathJoin(directory, JsonName(names[k])) != p
    ensures var out := Converted(files, directory, names, dump);
            (p in out <==> p in files) && (p in files ==> out[p] == files[p])
    decreases |names|
  {
    if names != [] {
      var n := |names| - 1;
      assert Listed(files, directory, names[..n]);
      OthersKept(files, directory, names[..n], dump, p);
    }
  }

  /** Every text file's JSON holds the record of its content as it was
      before the run (read in text mode), unless a later text file's JSON has the same path. */
  lemma {:induction false} RecordOfOriginal(files: map<string, string>, directory: string, names: seq<string>,
                                            dump: Record -> string, k: nat)
    requires Listed(files, directory, names)
    requires k < |names| && EndsWith(names[k], ".txt")
    requires forall j :: k < j < |names| && EndsWith(names[j], ".txt") ==>
               PathJoin(directory, JsonName(names[j])) != PathJoin(directory, JsonName(names[k]))
    ensures var out := Converted(files, directory, names, dump);
            var p := PathJoin(directory, JsonName(names[k]));
            p in out && out[p] == dump(MakeRecord(names[k], TextMode(files[PathJoin(directory, names[k])])))
    decreases |names|
  {
    var n := |names| - 1;
    var front := names[..n];
    assert Listed(files, directory, front);
    if k == n {
      TextsKept(files, directory, front, dump, names[n]);
    } else {
      assert front[k] == names[k];
      RecordOfOriginal(files, directory, front, dump, k);
    }
  }

  /** `txt_to_json(directory)` over the listing `names`. */
  method TxtToJson(disk: Disk<char>, directory: string, names: seq<string>, dump: Record -> string)
    requires Listed(disk.files, directory, names)
    modifies disk
    ensures disk.files == Converted(old(disk.files), directory, names, dump)
  {
    var i := 0;
    while i < |names|
      invariant 0 <= i <= |names|
      invariant Listed(old(disk.files), directory, names[..i])
      invariant disk.files == Converted(old(disk.files), directory, names[..i], dump)
    {
      assert names[..i + 1][..i] == names[..i];
      assert Listed(old(disk.files), directory, names[..i + 1]);
      var filename := names[i];
      assert Converted(old(disk.files), directory, names[..i + 1], dump) ==
             ConvertStep(disk.files, directory, filename, dump);
      if EndsWith(filename, ".txt") {
        var txtFilePath := PathJoin(directory, filename);
        var content := TextMode(disk.Read(txtFilePath));
        var wordCount := |Words(content)|;
        var lineCount := |SplitLines(content)|;
        var jsonData := Record(filename, content, Metadata(wordCount, lineCount));
        var jsonFilePath := PathJoin(directory, Replace(filename, ".txt", ".json"));
        WriteFile(disk, jsonFilePath, dump(jsonData));
      }
      i := i + 1;
    }
    assert names[..i] == names;
  }
}

=== FILE: kreiranje_korp.dfy ===
/**
 * Projekt/Kreiranje_korp.py: the scraped document's lines become sentences
 * of normalised words (alphabetic, non-stopword, non-emoji, non-numeric
 * tokens, lower-cased, without punctuation, lemmatized); sentences left
 * empty are dropped, and the corpus is appended to
 * `Corpus/<site>_corpus.txt`.  Tokenizer, stopword list and lemmatizer are
 * parameters; of the Word2Vec training only its failure on an empty
 * vocabulary and the saved model file are modelled, the file's contents
 * being a parameter.
 */
module KreiranjeKorp {
  import opened Base
  import opened PyStr
  import opened PyChars
  import opened PyLines
  import opened Fs
  import opened Corpus

  /** The code-point ranges of the emoji character class. */
  predicate IsEmojiChar(c: char)
  {
    ('\U{1F600}' <= c <= '\U{1F64F}') || ('\U{1F300}' <= c <= '\U{1F5FF}') ||
    ('\U{1F680}' <= c <= '\U{1F6FF}') || ('\U{1F700}' <= c <= '\U{1F77F}') ||
    ('\U{1F900}' <= c <= '\U{1F9FF}') || ('\U{2700}' <= c <= '\U{27BF}')
  }

  /** `is_emoji(s)`: `re.search` finds a character of the class somewhere in `s`. */
  function IsEmoji(s: string): (r: bool)
    ensures r <==> exists k :: 0 <= k < |s| && IsEmojiChar(s[k])
    decreases |s|
  {
    if s == [] then false
    else
      assert forall k :: 1 <= k < |s| ==> s[1..][k - 1] == s[k];
      IsEmojiChar(s[0]) || IsEmoji(s[1..])
  }

  /** The test of the comprehension in `preprocess_text`. */
  predicate Keep(word: string, stopWords: set<string>)
  {
    IsAlpha(word) && Lower(word) !in stopWords && !IsEmoji(word) && !IsDigit(word)
  }

  /** An alphabetic word has no emoji and is not a number: the last two tests
      never reject a word the first one accepts. */
  lemma KeepIsAlphaNotStopword(word: string, stopWords: set<string>)
    ensures Keep(word, stopWords) <==> IsAlpha(word) && Lower(word) !in stopWords
  {
    if IsAlpha(word) {
      assert !IsDigitChar(word[0]);
      assert forall k :: 0 <= k < |word| ==> !IsEmojiChar(word[k]);
    }
  }

  /** The sentence one line yields: its kept tokens normalised, in order.
      The other corpus script repeats this comprehension with its own `Keep`. */
  function LineSentence(text: string, tokenize: string -> seq<string>, stopWords: set<string>,
                        lemmatize: string -> string): (r: seq<string>)
    ensures |r| <= |tokenize(text)|
  {
    var kept := Filter(tokenize(text), w => Keep(w, stopWords));
    seq(|kept|, k requires 0 <= k < |kept| => Normalize(kept[k], lemmatize))
  }

  /** The sentence of a line is the lemma of the lower-case form of each
      alphabetic non-stopword token, in order: removing punctuation from
      such a token changes nothing. */
  lemma LineSentenceOfAlphaTokens(text: string, tokenize: string -> seq<string>, stopWords: set<string>,
                                  lemmatize: string -> string)
    ensures var kept := Filter(tokenize(text), w => IsAlpha(w) && Lower(w) !in stopWords);
            LineSentence(text, tokenize, stopWords, lemmatize) ==
            seq(|kept|, k requires 0 <= k < |kept| => lemmatize(Lower(kept[k])))
  {
    var tokens := tokenize(text);
    forall k | 0 <= k < |tokens|
      ensures Keep(tokens[k], stopWords) == (IsAlpha(tokens[k]) && Lower(tokens[k]) !in stopWords)
    {
      KeepIsAlphaNotStopword(tokens[k], stopWords);
    }
    FilterAgree(tokens, w => Keep(w, stopWords), w => IsAlpha(w) && Lower(w) !in stopWords);
    var kept := Filter(tokens, w => IsAlpha(w) && Lower(w) !in stopWords);
    forall k | 0 <= k < |kept| ensures Normalize(kept[k], lemmatize) == lemmatize(Lower(kept[k])) {
      NormalizeAlpha(kept[k], lemmatize);
    }
  }

  /** `preprocess_text(texts)`: the sentences of the lines, in order, each
      line's only when it is non-empty. */
  function Preprocess(texts: seq<string>, tokenize: string -> seq<string>, stopWords: set<string>,
                      lemmatize: string -> string): (r: seq<seq<string>>)
    ensures |r| <= |texts|
    ensures forall k :: 0 <= k < |r| ==> r[k] != []
    decreases |texts|
  {
    if texts == [] then []
    else
      var n := |texts| - 1;
      var sentence := LineSentence(texts[n], tokenize, stopWords, lemmatize);
      Preprocess(texts[..n], tokenize, stopWords, lemmatize) + (if sentence == [] then [] else [sentence])
  }

  /** The sentences of all lines, one per line. */
  function AllSentences(texts: seq<string>, tokenize: string -> seq<string>, stopWords: set<string>,
                        lemmatize: string -> string): (r: seq<seq<string>>)
    ensures |r| == |texts|
  {
    seq(|texts|, k requires 0 <= k < |texts| => LineSentence(texts[k], tokenize, stopWords, lemmatize))
  }


  /** Preprocessing is the per-line sentences with the empty ones removed:
      nothing else is dropped and the order is kept. */
  lemma {:induction false} PreprocessDropsOnlyEmpty(texts: seq<string>, tokenize: string -> seq<string>,
                                                    stopWords: set<string>, lemmatize: string -> string)
    ensures Preprocess(texts, tokenize, stopWords, lemmatize) ==
            Filter(AllSentences(texts, tokenize, stopWords, lemmatize), NonEmpty)
    decreases |texts|
  {
    if texts != [] {
      var n := |texts| - 1;
      var front := AllSentences(texts[..n], tokenize, stopWords, lemmatize);
      var last := LineSentence(texts[n], tokenize, stopWords, lemmatize);
      PreprocessDropsOnlyEmpty(texts[..n], tokenize, stopWords, lemmatize);
      AllSentencesSnoc(texts, tokenize, stopWords, lemmatize);
      FilterAppend(front, [last], NonEmpty);
      assert Filter([last], NonEmpty) == (if NonEmpty(last) then [last] else []) + Filter([], NonEmpty);
    }
  }

  lemma AllSentencesSnoc(texts: seq<string>, tokenize: string -> seq<string>, stopWords: set<string>,
                         lemmatize: string -> string)
    requires texts != []
    ensures var n := |texts| - 1;
            AllSentences(texts, tokenize, stopWords, lemmatize) ==
            AllSentences(texts[..n], tokenize, stopWords, lemmatize) + [LineSentence(texts[n], tokenize, stopWords, lemmatize)]
  {
  }

  /** The loop of `preprocess_text`. */
  method PreprocessText(texts: seq<string>, tokenize: string -> seq<string>, stopWords: set<string>,
                        lemmatize: string -> string)
    returns (allNormalizedWords: seq<seq<string>>)
    ensures allNormalizedWords == Preprocess(texts, tokenize, stopWords, lemmatize)
  {
    allNormalizedWords := [];
    var i := 0;
    while i < |texts|
      invariant 0 <= i <= |texts|
      invariant allNormalizedWords == Preprocess(texts[..i], tokenize, stopWords, lemmatize)
    {
      assert texts[..i + 1][..i] == texts[..i];
      var normalizedWords := LineSentence(texts[i], tokenize, stopWords, lemmatize);
      if normalizedWords != [] {
        allNormalizedWords := allNormalizedWords + [normalizedWords];
      }
      i := i + 1;
    }
    assert texts[..i] == texts;
  }

  /** `save_corpus(corpus, filename)`: the file, opened for appending (and
      created when missing), gets one line per sentence after what it held. */
  method SaveCorpus(disk: Disk<char>, corpus: seq<seq<string>>, filename: string)
    modifies disk
    ensures disk.files == old(disk.files)[filename := old(disk.Read(filename)) + CorpusText(corpus)]
  {
    ghost var start := disk.Read(filename);
    disk.Write(filename, "");
    assert start + "" == start;
    var i := 0;
    while i < |corpus|
      invariant 0 <= i <= |corpus|
      invariant disk.files == old(disk.files)[filename := start + CorpusText(corpus[..i])]
    {
      var line := Join(corpus[i], " ");
      ghost var done := CorpusText(corpus[..i]);
      assert disk.Read(filename) == start + done;
      disk.Write(filename, line + "\n");
      assert disk.files == old(disk.files)[filename := start + done + (line + "\n")];
      CorpusTextPrefix(corpus, i);
      AppendAssoc(start, done, line + "\n");
      i := i + 1;
    }
    assert corpus[..i] == corpus;
  }

  /** Saving two corpora one after the other leaves the file as saving both
      at once would: the file only grows. */
  lemma AppendTwice(old_: string, a: seq<seq<string>>, b: seq<seq<string>>)
    ensures old_ + CorpusText(a) + CorpusText(b) == old_ + CorpusText(a + b)
  {
    CorpusTextAppend(a, b);
  }

  /** The corpus file of a scraped URL. */
  function CorpusPath(url: string): (r: string)
    ensures StartsWith(r, "Corpus/") && EndsWith(r, "_corpus.txt")
  {
    "Corpus/" + SiteName(url) + "_corpus.txt"
  }

  /** The scraper's output file. */
  const DocumentFile: string := "document.txt"

  /** What `scrape_document(url, "document.txt")` (Projekt/Scraping_spacy.py)
      did: raised, before writing, an exception that `main` catches; caught a
      failed request itself and returned without writing; or wrote the text
      of the page's sentences to the file. */
  datatype ScrapeOutcome = Raised | NoWrite | Wrote(text: string)

  /** The files after the scraper has run. */
  function AfterScrape(files: map<string, seq<char>>, scrape: ScrapeOutcome): map<string, seq<char>>
  {
    if scrape.Wrote? then files[DocumentFile := scrape.text] else files
  }

  /** How `main` ends. */
  datatype Ending =
    | ScrapeFailed     // the scraper raised: `main` returns
    | DocumentMissing  // "document.txt" cannot be opened: the script dies
    | EmptyVocabulary  // a new Word2Vec model gets no word: the script dies
    | Saved            // model saved, corpus appended, "document.txt" removed

  /** No sentence is left exactly when no line keeps a token. */
  lemma PreprocessEmpty(texts: seq<string>, tokenize: string -> seq<string>,
                        stopWords: set<string>, lemmatize: string -> string)
    ensures Preprocess(texts, tokenize, stopWords, lemmatize) == [] <==>
            forall k :: 0 <= k < |texts| ==> LineSentence(texts[k], tokenize, stopWords, lemmatize) == []
  {
    var r := Preprocess(texts, tokenize, stopWords, lemmatize);
    var all := AllSentences(texts, tokenize, stopWords, lemmatize);
    PreprocessDropsOnlyEmpty(texts, tokenize, stopWords, lemmatize);
    if r == [] {
      forall k | 0 <= k < |texts| ensures LineSentence(texts[k], tokenize, stopWords, lemmatize) == [] {
        FilterMember(all, NonEmpty, all[k]);
      }
    } else {
      FilterMember(all, NonEmpty, r[0]);
      var k :| 0 <= k < |all| && all[k] == r[0];
      assert LineSentence(texts[k], tokenize, stopWords, lemmatize) != [];
    }
  }

  /** The sentences hold no word exactly when there are none: every sentence
      kept is non-empty. */
  lemma PreprocessNoVocabulary(texts: seq<string>, tokenize: string -> seq<string>,
                               stopWords: set<string>, lemmatize: string -> string)
    ensures NoVocabulary(Preprocess(texts, tokenize, stopWords, lemmatize)) <==>
            forall k :: 0 <= k < |texts| ==> LineSentence(texts[k], tokenize, stopWords, lemmatize) == []
  {
    var r := Preprocess(texts, tokenize, stopWords, lemmatize);
    PreprocessEmpty(texts, tokenize, stopWords, lemmatize);
    if r != [] {
      assert r[0] != [];
    }
  }

  /** `main()`, given what the scraper does and the bytes `model.save` writes.
      A raising scraper ends `main` with no change; a missing "document.txt"
      (the scraper wrote nothing, and no earlier run left one) makes `open`
      raise; a file left by an earlier run is read when the scraper writes
      nothing.  The lines are preprocessed; a new model on sentences without
      words raises before anything is saved.  Otherwise the model is saved,
      the sentences are appended to the site's corpus file, and
      "document.txt" is removed. */
  method RunScript(disk: Disk<char>, url: string, scrape: ScrapeOutcome, model: string,
                   tokenize: string -> seq<string>, stopWords: set<string>, lemmatize: string -> string)
    returns (sentences: seq<seq<string>>, ending: Ending)
    modifies disk
    ensures var scraped := AfterScrape(old(disk.files), scrape);
            (ending == ScrapeFailed <==> scrape.Raised?) &&
            (ending == DocumentMissing <==> !scrape.Raised? && DocumentFile !in scraped) &&
            (!scrape.Raised? && DocumentFile in scraped ==>
               sentences == Preprocess(SplitLines(scraped[DocumentFile]), tokenize, stopWords, lemmatize)) &&
            (ending == EmptyVocabulary <==>
               !scrape.Raised? && DocumentFile in scraped && ModelFile !in scraped && NoVocabulary(sentences)) &&
            (!ending.Saved? ==> disk.files == scraped) &&
            (ending == Saved ==>
               disk.files == scraped[ModelFile := model]
                                    [CorpusPath(url) := old(disk.Read(CorpusPath(url))) + CorpusText(sentences)]
                             - {DocumentFile})
  {
    if scrape.Raised? {
      return [], ScrapeFailed;
    }
    if scrape.Wrote? {
      WriteFile(disk, DocumentFile, scrape.text);
    }
    if DocumentFile !in disk.files {
      return [], DocumentMissing;
    }
    var texts := SplitLines(disk.Read(DocumentFile));
    sentences := PreprocessText(texts, tokenize, stopWords, lemmatize);
    if ModelFile !in disk.files && NoVocabulary(sentences) {
      return sentences, EmptyVocabulary;
    }
    ending := Saved;
    var corpusFile := CorpusPath(url);
    assert corpusFile != DocumentFile && corpusFile != ModelFile by {
      assert corpusFile[0] == 'C';
    }
    WriteFile(disk, ModelFile, model);
    ghost var previous := disk.Read(corpusFile);
    assert previous == old(disk.Read(corpusFile));
    SaveCorpus(disk, sentences, corpusFile);
    disk.Remove(DocumentFile);
  }
}

=== FILE: pdf_tessar.dfy ===
/**
 * Projekt/pdf_tessar.py: the Tesseract command is chosen from the
 * environment or a default install path; every name in "pdfs" that ends in
 * ".pdf" is rendered to page images and read by OCR, and the page texts,
 * each under a 1-based page marker, are written to `txts/<stem>.txt`.  The
 * rendering and the OCR are one parameter giving the text of each page.
 */
module PdfTessar {
  import opened Base
  import opened PyStr
  import opened PyNum
  import opened Fs

  const DefaultTesseractPath: string := "C:\\Program Files\\Tesseract-OCR\\tesseract.exe"
  const InputFolder: string := "pdfs"
  const OutputFolder: string := "txts"

  /** The command Tesseract runs with: TESSERACT_CMD when it is set to a
      non-empty value, else the default install path when that exists, else
      whatever the command already was. */
  function TesseractCmd(env: Option<string>, pathExists: string -> bool, current: string): string
  {
    if env.Some? && env.value != "" then env.value
    else if pathExists(DefaultTesseractPath) then DefaultTesseractPath
    else current
  }

  /** A non-empty TESSERACT_CMD wins whatever is installed; an empty one counts
      as unset; without either the default path is used exactly when it exists. */
  lemma TesseractCmdChoice(env: Option<string>, pathExists: string -> bool, current: string)
    ensures env.Some? && env.value != "" ==>
              forall other: string -> bool :: TesseractCmd(env, other, current) == env.value
    ensures TesseractCmd(Some(""), pathExists, current) == TesseractCmd(None, pathExists, current)
    ensures (TesseractCmd(None, pathExists, current) == DefaultTesseractPath) <==>
              pathExists(DefaultTesseractPath) || current == DefaultTesseractPath
  {
  }

  /** The conditional assignment at the top of `main`. */
  method SelectTesseractCmd(env: Option<string>, pathExists: string -> bool, current: string)
    returns (tesseractCmd: string)
    ensures tesseractCmd == TesseractCmd(env, pathExists, current)
  {
    tesseractCmd := current;
    if env.Some? && env.value != "" {
      tesseractCmd := env.value;
    } else {
      if pathExists(DefaultTesseractPath) {
        tesseractCmd := DefaultTesseractPath;
      }
    }
  }

  /** The marker above page `i` (1-based). */
  function Marker(i: nat): (r: string)
    ensures StartsWith(r, "--- Page ") && EndsWith(r, " ---\n")
  {
    var r := "--- Page " + IntToString(i) + " ---\n";
    assert r[..9] == "--- Page ";
    assert r[|r| - 5..] == " ---\n";
    r
  }

  /** Different pages get different markers. */
  lemma MarkersDistinct(i: nat, j: nat)
    requires i != j
    ensures Marker(i) != Marker(j)
  {
    var a := IntToString(i);
    var b := IntToString(j);
    assert Marker(i)[9..|Marker(i)| - 5] == a;
    assert Marker(j)[9..|Marker(j)| - 5] == b;
    assert a != b by {
      if a == b {
        IntToStringInjective(i, j);
      }
    }
  }

  /** The block of page `k` (0-based). */
  function Block(texts: seq<string>, k: nat): string
    requires k < |texts|
  {
    Marker(k + 1) + texts[k] + "\n"
  }

  /** The text `+=` accumulates: each page under its marker, followed by a
      line break. */
  function PagesText(texts: seq<string>): string
    decreases |texts|
  {
    if texts == [] then ""
    else
      var n := |texts| - 1;
      PagesText(texts[..n]) + Block(texts, n)
  }

  /** The text is the blocks of pages 1 to n, in page order: one marker per
      page, numbered consecutively from 1. */
  lemma {:induction false} PagesTextBlocks(texts: seq<string>)
    ensures PagesText(texts) == Concat(seq(|texts|, k requires 0 <= k < |texts| => Block(texts, k)))
    decreases |texts|
  {
    if texts != [] {
      var n := |texts| - 1;
      var blocks := seq(|texts|, k requires 0 <= k < |texts| => Block(texts, k));
      var front := texts[..n];
      PagesTextBlocks(front);
      assert forall k :: 0 <= k < n ==> Block(front, k) == Block(texts, k);
      assert blocks[..n] == seq(n, k requires 0 <= k < n => Block(front, k));
      ConcatLast(blocks);
    }
  }

  /** The loop over the page images. */
  method ExtractText(texts: seq<string>) returns (extractedText: string)
    ensures extractedText == PagesText(texts)
  {
    extractedText := "";
    var i := 0;
    while i < |texts|
      invariant 0 <= i <= |texts|
      invariant extractedText == PagesText(texts[..i])
    {
      assert texts[..i + 1][..i] == texts[..i];
      var text := texts[i];
      extractedText := extractedText + ("--- Page " + IntToString(i + 1) + " ---\n" + text + "\n");
      assert "--- Page " + IntToString(i + 1) + " ---\n" + text + "\n" == Marker(i + 1) + text + "\n";
      i := i + 1;
    }
    assert texts[..i] == texts;
  }

  /** Where the text of a listed PDF is written. */
  function OutputPath(name: string): string
  {
    TxtPath(OutputFolder, name)
  }

  /** For a plain name `<base>.pdf`, the output is `txts/<base>.txt`. */
  lemma OutputPathOfPdf(base: string)
    requires forall k :: 0 <= k < |base| ==> base[k] != '/'
    requires !AllDots(base)
    ensures OutputPath(base + ".pdf") == "txts/" + base + ".txt"
  {
    TxtPathOfName(OutputFolder, base, ".pdf");
  }

  /** What the loop body does for one listed name, given the page texts of
      every PDF by path: a name ending in ".pdf" gets its text file. */
  function Job(ocrPages: string -> seq<string>): string -> Option<(string, string)>
  {
    name =>
      if EndsWith(name, ".pdf") then Some((OutputPath(name), PagesText(ocrPages(PathJoin(InputFolder, name)))))
      else None
  }

  /** Names not ending in ".pdf" are skipped, and two PDFs with different
      stems never write the same file; so every processed PDF's text file
      holds its text after the run. */
  lemma EveryPdfWritten(files: map<string, string>, names: seq<string>, ocrPages: string -> seq<string>, k: nat)
    requires k < |names| && EndsWith(names[k], ".pdf")
    requires forall j :: k < j < |names| && EndsWith(names[j], ".pdf") ==> Stem(names[j]) != Stem(names[k])
    ensures var out := Batch(files, names, Job(ocrPages));
            OutputPath(names[k]) in out &&
            out[OutputPath(names[k])] == PagesText(ocrPages(PathJoin(InputFolder, names[k])))
  {
    forall j | k < j < |names| && Job(ocrPages)(names[j]).Some?
      ensures Job(ocrPages)(names[j]).value.0 != Job(ocrPages)(names[k]).value.0
    {
      OutputPathInjective(names[j], names[k]);
    }
    BatchLastWrite(files, names, Job(ocrPages), k);
  }

  lemma OutputPathInjective(a: string, b: string)
    requires Stem(a) != Stem(b)
    ensures OutputPath(a) != OutputPath(b)
  {
    var x := Stem(a) + ".txt";
    var y := Stem(b) + ".txt";
    assert x[..|x| - 4] == Stem(a);
    assert y[..|y| - 4] == Stem(b);
    PathJoinInjective(OutputFolder, x, y);
  }

  /** `main()`: the Tesseract command is chosen, then every listed name is
      handled in listing order. */
  method RunScript(disk: Disk<char>, env: Option<string>, pathExists: string -> bool, current: string,
                   names: seq<string>, ocrPages: string -> seq<string>)
    returns (tesseractCmd: string)
    modifies disk
    ensures tesseractCmd == TesseractCmd(env, pathExists, current)
    ensures disk.files == Batch(old(disk.files), names, Job(ocrPages))
  {
    tesseractCmd := SelectTesseractCmd(env, pathExists, current);
    var i := 0;
    while i < |names|
      invariant 0 <= i <= |names|
      invariant disk.files == Batch(old(disk.files), names[..i], Job(ocrPages))
    {
      BatchSnoc(old(disk.files), names, i, Job(ocrPages));
      var pdfFile := names[i];
      if EndsWith(pdfFile, ".pdf") {
        var pdfPath := PathJoin(InputFolder, pdfFile);
        var textOutputPath := PathJoin(OutputFolder, Stem(pdfFile) + ".txt");
        var extractedText := ExtractText(ocrPages(pdfPath));
        assert Job(ocrPages)(pdfFile) == Some((textOutputPath, extractedText));
        WriteFile(disk, textOutputPath, extractedText);
      }
      i := i + 1;
    }
    assert names[..i] == names;
  }
}

=== FILE: pdf_to_text_pymupdf.dfy ===
/**
 * Projekt/pdf_to_text_pymupdf.py: `extract_text_from_pdf` concatenates the
 * page texts of a PDF, and an exception (opening the file or loading a
 * page) ends the loop with the text gathered so far; every name in "pdfs"
 * that ends in ".pdf" gets `txts/<name with ".pdf" replaced by ".txt">`.
 * The PDF library is a parameter.
 */
module PdfToTextPymupdf {
  import opened Base
  import opened PyStr
  import opened Fs

  const InputFolder: string := "pdfs"
  const OutputFolder: string := "txts"

  /** A document as the library gives it: None when opening raises, else each
      page's text, None where loading the page or its text raises. */
  type Document = Option<seq<Option<string>>>

  /** How many pages, from the first, load without an exception. */
  function Readable(pages: seq<Option<string>>): (n: nat)
    ensures n <= |pages|
    ensures forall k :: 0 <= k < n ==> pages[k].Some?
    ensures n < |pages| ==> pages[n].None?
  {
    match FirstIndex(pages, (p: Option<string>) => p.None?)
    case None => |pages|
    case Some(i) => i
  }

  /** The text of the first `n` pages. */
  function PrefixText(pages: seq<Option<string>>, n: nat): string
    requires n <= |pages| && forall k :: 0 <= k < n ==> pages[k].Some?
    decreases n
  {
    if n == 0 then "" else PrefixText(pages, n - 1) + pages[n - 1].value
  }

  /** `extract_text_from_pdf(pdf_path)`: the text of the pages before the
      first one that raises (all of them when none does); "" when opening
      raises. */
  function PartialText(doc: Document): string
  {
    match doc
    case None => ""
    case Some(pages) => PrefixText(pages, Readable(pages))
  }

  /** The text of a prefix is the concatenation of the page texts. */
  lemma {:induction false} PrefixTextIsConcat(pages: seq<Option<string>>, n: nat)
    requires n <= |pages| && forall k :: 0 <= k < n ==> pages[k].Some?
    ensures PrefixText(pages, n) == Concat(seq(n, k requires 0 <= k < n => pages[k].value))
    decreases n
  {
    if n > 0 {
      var texts := seq(n, k requires 0 <= k < n => pages[k].value);
      PrefixTextIsConcat(pages, n - 1);
      assert texts[..n - 1] == seq(n - 1, k requires 0 <= k < n - 1 => pages[k].value);
      ConcatLast(texts);
    }
  }

  /** Pages after the first failing one do not matter: if page `k` raises and
      the ones before it do not, the text is that of pages 0 to k-1, whatever
      follows. */
  lemma PartialTextStopsAtFailure(pages: seq<Option<string>>, k: nat, rest: seq<Option<string>>)
    requires k < |pages| && pages[k].None? && forall j :: 0 <= j < k ==> pages[j].Some?
    ensures PartialText(Some(pages)) == Concat(seq(k, j requires 0 <= j < k => pages[j].value))
    ensures PartialText(Some(pages[..k + 1] + rest)) == PartialText(Some(pages))
  {
    var cut := pages[..k + 1] + rest;
    assert Readable(pages) == k;
    assert cut[k] == pages[k];
    assert Readable(cut) == k;
    PrefixTextIsConcat(pages, k);
    PrefixTextAgree(pages, cut, k);
  }

  lemma {:induction false} PrefixTextAgree(a: seq<Option<string>>, b: seq<Option<string>>, n: nat)
    requires n <= |a| && n <= |b| && forall k :: 0 <= k < n ==> a[k].Some? && a[k] == b[k]
    ensures PrefixText(a, n) == PrefixText(b, n)
    decreases n
  {
    if n > 0 {
      PrefixTextAgree(a, b, n - 1);
    }
  }

  /** A document whose every page loads gives all the page texts. */
  lemma PartialTextComplete(pages: seq<Option<string>>)
    requires forall k :: 0 <= k < |pages| ==> pages[k].Some?
    ensures PartialText(Some(pages)) == Concat(seq(|pages|, k requires 0 <= k < |pages| => pages[k].value))
  {
    PrefixTextIsConcat(pages, |pages|);
  }

  /** `extract_text_from_pdf`: `text +=` over the page indices; the
      `except` ends the loop and the text so far is returned. */
  method ExtractTextFromPdf(doc: Document) returns (text: string)
    ensures text == PartialText(doc)
  {
    text := "";
    if doc.None? {
      return;
    }
    var pages := doc.value;
    var pageNum := 0;
    while pageNum < |pages|
      invariant 0 <= pageNum <= Readable(pages)
      invariant text == PrefixText(pages, pageNum)
    {
      var page := pages[pageNum];
      if page.None? {
        return;
      }
      text := text + page.value;
      pageNum := pageNum + 1;
    }
  }

  /** `filename.replace('.pdf', '.txt')`. */
  function OutputName(filename: string): string
  {
    Replace(filename, ".pdf", ".txt")
  }

  /** A name whose only ".pdf" is its ending gets that ending swapped for
      ".txt" and nothing else changed. */
  lemma OutputNameOfPdf(base: string)
    requires !Contains(base + ".pd", ".pdf")
    ensures OutputName(base + ".pdf") == base + ".txt"
  {
    assert ".pdf"[..3] == ".pd";
    ReplaceOnlySuffix(base, ".pdf", ".txt");
  }

  /** What the loop body does for one listed name, given each document by
      path: a name ending in ".pdf" always gets its (possibly partial) text. */
  function Job(open: string -> Document): string -> Option<(string, string)>
  {
    name =>
      if EndsWith(name, ".pdf") then Some((PathJoin(OutputFolder, OutputName(name)), PartialText(open(PathJoin(InputFolder, name)))))
      else None
  }

  /** The module-level loop over the listing of "pdfs", in listing order. */
  method RunScript(disk: Disk<char>, names: seq<string>, open: string -> Document)
    modifies disk
    ensures disk.files == Batch(old(disk.files), names, Job(open))
  {
    var i := 0;
    while i < |names|
      invariant 0 <= i <= |names|
      invariant disk.files == Batch(old(disk.files), names[..i], Job(open))
    {
      BatchSnoc(old(disk.files), names, i, Job(open));
      var filename := names[i];
      if EndsWith(filename, ".pdf") {
        var pdfPath := PathJoin(InputFolder, filename);
        var extractedText := ExtractTextFromPdf(open(pdfPath));
        var outputFilename := Replace(filename, ".pdf", ".txt");
        var outputPath := PathJoin(OutputFolder, outputFilename);
        assert Job(open)(filename) == Some((outputPath, extractedText));
        WriteFile(disk, outputPath, extractedText);
      }
      i := i + 1;
    }
    assert names[..i] == names;
  }
}

=== FILE: pocetak.dfy ===
/**
 * Projekt/Pocetak.py: a fixed page is scraped with
 * `Scraping_soup.scrape_document` into "document.txt"; each token of each
 * line is lower-cased and stripped of punctuation, kept when it is then
 * neither a stopword nor blank, and lemmatized; all kept words, across all
 * lines, are written one per line to "final_corpus.txt".  Tokenizer,
 * stopword list and lemmatizer are parameters.
 */
module Pocetak {
  import opened Base
  import opened PyStr
  import opened PyChars
  import opened PyLines
  import opened Fs
  import opened Http
  import opened Html
  import ScrapingSoup

  const Url: string := "https://books.toscrape.com/catalogue/a-light-in-the-attic_1000/index.html"
  const OutputFile: string := "document.txt"
  const FinalCorpusFile: string := "final_corpus.txt"

  /** A token lower-cased, then stripped of punctuation. */
  function Cleaned(word: string): (r: string)
    ensures NoneIn(r, Punctuation) && |r| <= |word|
  {
    Delete(Lower(word), Punctuation)
  }

  /** The test, applied to the cleaned token. */
  predicate Keep(cleaned: string, stopWords: set<string>)
  {
    cleaned !in stopWords && StripSet(cleaned, Whitespace) != []
  }

  /** The words the inner loop appends for the given tokens, in order. */
  function NormalizedWords(words: seq<string>, stopWords: set<string>, lemmatize: string -> string): seq<string>
    decreases |words|
  {
    if words == [] then []
    else
      var n := |words| - 1;
      var word := Cleaned(words[n]);
      NormalizedWords(words[..n], stopWords, lemmatize) + (if Keep(word, stopWords) then [lemmatize(word)] else [])
  }

  /** Every token cleaned. */
  function CleanedTokens(words: seq<string>): (r: seq<string>)
    ensures |r| == |words| && forall k :: 0 <= k < |words| ==> r[k] == Cleaned(words[k])
  {
    seq(|words|, k requires 0 <= k < |words| => Cleaned(words[k]))
  }

  /** Every word lemmatized. */
  function Lemmas(words: seq<string>, lemmatize: string -> string): (r: seq<string>)
    ensures |r| == |words| && forall k :: 0 <= k < |words| ==> r[k] == lemmatize(words[k])
  {
    seq(|words|, k requires 0 <= k < |words| => lemmatize(words[k]))
  }

  /** The words of a line are the lemmas of exactly those cleaned tokens that
      pass the test, in token order. */
  lemma {:induction false} NormalizedWordsAreKeptLemmas(words: seq<string>, stopWords: set<string>,
                                                        lemmatize: string -> string)
    ensures NormalizedWords(words, stopWords, lemmatize) ==
            Lemmas(Filter(CleanedTokens(words), w => Keep(w, stopWords)), lemmatize)
    decreases |words|
  {
    if words != [] {
      var n := |words| - 1;
      var keep := w => Keep(w, stopWords);
      NormalizedWordsAreKeptLemmas(words[..n], stopWords, lemmatize);
      CleanedTokensSnoc(words);
      KeptLemmasSnoc(CleanedTokens(words[..n]), Cleaned(words[n]), keep, lemmatize);
    }
  }

  /** One more token adds its lemma exactly when it is kept. */
  lemma KeptLemmasSnoc(tokens: seq<string>, last: string, keep: string -> bool, lemmatize: string -> string)
    ensures Lemmas(Filter(tokens + [last], keep), lemmatize) ==
            Lemmas(Filter(tokens, keep), lemmatize) + (if keep(last) then [lemmatize(last)] else [])
  {
    var front := Filter(tokens, keep);
    FilterSnoc(tokens, last, keep);
    if keep(last) {
      assert Filter(tokens + [last], keep) == front + [last];
      LemmasAppend(front, [last], lemmatize);
      assert Lemmas([last], lemmatize) == [lemmatize(last)];
    } else {
      assert Filter(tokens + [last], keep) == front;
    }
  }

  lemma CleanedTokensSnoc(words: seq<string>)
    requires words != []
    ensures CleanedTokens(words) == CleanedTokens(words[..|words| - 1]) + [Cleaned(words[|words| - 1])]
  {
  }

  lemma LemmasAppend(a: seq<string>, b: seq<string>, lemmatize: string -> string)
    ensures Lemmas(a + b, lemmatize) == Lemmas(a, lemmatize) + Lemmas(b, lemmatize)
  {
  }

  /** A token made of punctuation only is cleaned to the empty word and
      dropped. */
  lemma PunctuationTokenDropped(word: string, stopWords: set<string>)
    requires forall k :: 0 <= k < |word| ==> word[k] in Punctuation
    ensures !Keep(Cleaned(word), stopWords)
  {
    var low := Lower(word);
    forall k | 0 <= k < |word| ensures low[k] in Punctuation {
      PunctuationIsNotLetterOrSpace(word[k]);
      LowerCharOnlyLetters(word[k]);
    }
    DeleteAll(low, Punctuation);
    assert StripSet([], Whitespace) == [];
  }

  /** The inner loop: `word` is rebound to its lower-case form, then to that
      without punctuation, and appended lemmatized if it passes the test. */
  method NormalizeLine(words: seq<string>, stopWords: set<string>, lemmatize: string -> string)
    returns (normalizedWords: seq<string>)
    ensures normalizedWords == NormalizedWords(words, stopWords, lemmatize)
  {
    normalizedWords := [];
    var i := 0;
    while i < |words|
      invariant 0 <= i <= |words|
      invariant normalizedWords == NormalizedWords(words[..i], stopWords, lemmatize)
    {
      assert words[..i + 1][..i] == words[..i];
      var word := words[i];
      word := Lower(word);
      word := Delete(word, Punctuation);
      if word !in stopWords && StripSet(word, Whitespace) != [] {
        word := lemmatize(word);
        normalizedWords := normalizedWords + [word];
      }
      i := i + 1;
    }
    assert words[..i] == words;
  }

  /** The words of all lines, line after line: the flat list `extend` builds. */
  function AllWords(texts: seq<string>, tokenize: string -> seq<string>, stopWords: set<string>,
                    lemmatize: string -> string): seq<string>
    decreases |texts|
  {
    if texts == [] then []
    else
      var n := |texts| - 1;
      AllWords(texts[..n], tokenize, stopWords, lemmatize) + NormalizedWords(tokenize(texts[n]), stopWords, lemmatize)
  }

  /** The flat list is the concatenation of the per-line lists in line order:
      nothing marks where a line ended. */
  lemma {:induction false} AllWordsFlattens(texts: seq<string>, tokenize: string -> seq<string>,
                                            stopWords: set<string>, lemmatize: string -> string)
    ensures AllWords(texts, tokenize, stopWords, lemmatize) ==
            Concat(seq(|texts|, k requires 0 <= k < |texts| => NormalizedWords(tokenize(texts[k]), stopWords, lemmatize)))
    decreases |texts|
  {
    if texts != [] {
      var n := |texts| - 1;
      var lines := seq(|texts|, k requires 0 <= k < |texts| => NormalizedWords(tokenize(texts[k]), stopWords, lemmatize));
      AllWordsFlattens(texts[..n], tokenize, stopWords, lemmatize);
      assert lines[..n] == seq(n, k requires 0 <= k < n => NormalizedWords(tokenize(texts[..n][k]), stopWords, lemmatize));
    }
  }

  /** The outer loop over the lines. */
  method NormalizeLines(texts: seq<string>, tokenize: string -> seq<string>, stopWords: set<string>,
                        lemmatize: string -> string)
    returns (allNormalizedWords: seq<string>)
    ensures allNormalizedWords == AllWords(texts, tokenize, stopWords, lemmatize)
  {
    allNormalizedWords := [];
    var i := 0;
    while i < |texts|
      invariant 0 <= i <= |texts|
      invariant allNormalizedWords == AllWords(texts[..i], tokenize, stopWords, lemmatize)
    {
      assert texts[..i + 1][..i] == texts[..i];
      var words := tokenize(texts[i]);
      var normalizedWords := NormalizeLine(words, stopWords, lemmatize);
      allNormalizedWords := allNormalizedWords + normalizedWords;
      i := i + 1;
    }
    assert texts[..i] == texts;
  }

  /** Reading the corpus file back line by line gives the words, one per
      line, when no word holds a line break. */
  lemma WordsReadBack(words: seq<string>)
    requires forall k :: 0 <= k < |words| ==> NoneIn(words[k], {'\n'})
    ensures Split(Terminated(words, "\n"), "\n") == words + [""]
  {
    SplitTerminated(words, '\n');
  }

  /** The script: scrape, then read "document.txt" (an exception ends the
      script when it does not exist), normalise its lines and write the
      words.  The scraped file is left in place. */
  method RunScript(disk: Disk<char>, get: (string, map<string, string>) -> Response, parse: seq<byte> -> seq<Node>,
                   tokenize: string -> seq<string>, stopWords: set<string>, lemmatize: string -> string)
    returns (aborted: bool)
    modifies disk
    ensures var scraped := ScrapingSoup.AfterScrape(old(disk.files), get(Url, ScrapingSoup.Headers), parse, OutputFile);
            (aborted <==> OutputFile !in scraped) &&
            (aborted ==> disk.files == scraped) &&
            (!aborted ==>
               disk.files == scraped[FinalCorpusFile :=
                 Terminated(AllWords(SplitLines(scraped[OutputFile]), tokenize, stopWords, lemmatize), "\n")])
  {
    ScrapingSoup.ScrapeDocument(disk, Url, get, parse, OutputFile);
    if OutputFile !in disk.files {
      return true;
    }
    aborted := false;
    var texts := SplitLines(disk.Read(OutputFile));
    var allNormalizedWords := NormalizeLines(texts, tokenize, stopWords, lemmatize);
    WriteLines(disk, FinalCorpusFile, allNormalizedWords, "\n");
  }
}

=== FILE: pocetak_soup.dfy ===
/**
 * Projekt/Pocetak_soup.py: the page scraped by `Scraping_soup.scrape_document`
 * is read back as lines; each line becomes one sentence (possibly empty) of
 * normalised tokens, the filter running before punctuation is removed; the
 * sentences overwrite `<site>_corpus.txt`.  Tokenizer, stopword list and
 * lemmatizer are parameters; of the Word2Vec training only its failure on an
 * empty vocabulary and the saved model file are modelled, the file's
 * contents being a parameter.
 */
module PocetakSoup {
  import opened Base
  import opened PyStr
  import opened PyChars
  import opened PyLines
  import opened Fs
  import opened Http
  import opened Html
  import opened Corpus
  import ScrapingSoup

  /** The test of the comprehension: not a stopword once lower-cased, and not blank. */
  predicate Keep(word: string, stopWords: set<string>)
  {
    Lower(word) !in stopWords && StripSet(word, Whitespace) != []
  }

  /** The sentence of one line: its kept tokens normalised, in order.
      The other corpus script repeats this comprehension with its own `Keep`. */
  function LineSentence(text: string, tokenize: string -> seq<string>, stopWords: set<string>,
                        lemmatize: string -> string): (r: seq<string>)
    ensures |r| <= |tokenize(text)|
  {
    var kept := Filter(tokenize(text), w => Keep(w, stopWords));
    seq(|kept|, k requires 0 <= k < |kept| => Normalize(kept[k], lemmatize))
  }

  /** The filter looks at the token before its punctuation is removed: a
      non-empty token made of punctuation only that is not a stopword
      passes, and what is emitted for it is the lemma of the empty word. */
  lemma PunctuationTokenKept(word: string, stopWords: set<string>, lemmatize: string -> string)
    requires word != [] && AllIn(word, Punctuation) && Lower(word) !in stopWords
    ensures Keep(word, stopWords) && Normalize(word, lemmatize) == lemmatize("")
  {
    PunctuationIsNotLetterOrSpace(word[0]);
    StripSetNonEmpty(word, Whitespace, 0);
    var low := Lower(word);
    forall k | 0 <= k < |word| ensures low[k] in Punctuation {
      PunctuationIsNotLetterOrSpace(word[k]);
      LowerCharOnlyLetters(word[k]);
    }
    DeleteAll(low, Punctuation);
  }

  /** A line whose only token is such a punctuation token becomes the
      one-word sentence of the lemma of the empty word. */
  lemma PunctuationTokenEmitted(text: string, tokenize: string -> seq<string>, stopWords: set<string>,
                                lemmatize: string -> string, word: string)
    requires word != [] && AllIn(word, Punctuation) && Lower(word) !in stopWords
    requires tokenize(text) == [word]
    ensures LineSentence(text, tokenize, stopWords, lemmatize) == [lemmatize("")]
  {
    PunctuationTokenKept(word, stopWords, lemmatize);
    assert Filter([word], w => Keep(w, stopWords)) == [word] + Filter([], w => Keep(w, stopWords));
  }

  /** `preprocess_text(texts)`: the loop appending one sentence per line. */
  function Preprocess(texts: seq<string>, tokenize: string -> seq<string>, stopWords: set<string>,
                      lemmatize: string -> string): seq<seq<string>>
    decreases |texts|
  {
    if texts == [] then []
    else
      var n := |texts| - 1;
      Preprocess(texts[..n], tokenize, stopWords, lemmatize) + [LineSentence(texts[n], tokenize, stopWords, lemmatize)]
  }

  /** Exactly one sentence per line, empty or not, in line order. */
  lemma {:induction false} PreprocessOnePerLine(texts: seq<string>, tokenize: string -> seq<string>,
                                                stopWords: set<string>, lemmatize: string -> string)
    ensures var r := Preprocess(texts, tokenize, stopWords, lemmatize);
            |r| == |texts| &&
            forall k :: 0 <= k < |texts| ==> r[k] == LineSentence(texts[k], tokenize, stopWords, lemmatize)
    decreases |texts|
  {
    if texts == [] {
      assert Preprocess(texts, tokenize, stopWords, lemmatize) == [];
    } else {
      var n := |texts| - 1;
      PreprocessOnePerLine(texts[..n], tokenize, stopWords, lemmatize);
      var r := Preprocess(texts, tokenize, stopWords, lemmatize);
      var front := Preprocess(texts[..n], tokenize, stopWords, lemmatize);
      assert r == front + [LineSentence(texts[n], tokenize, stopWords, lemmatize)];
      forall k | 0 <= k < |texts| ensures r[k] == LineSentence(texts[k], tokenize, stopWords, lemmatize) {
        if k < n {
          assert texts[..n][k] == texts[k];
          assert front[k] == LineSentence(texts[..n][k], tokenize, stopWords, lemmatize);
          assert r[k] == front[k];
        } else {
          assert r[k] == LineSentence(texts[n], tokenize, stopWords, lemmatize);
        }
      }
    }
  }

  /** The loop of `preprocess_text`. */
  method PreprocessText(texts: seq<string>, tokenize: string -> seq<string>, stopWords: set<string>,
                        lemmatize: string -> string)
    returns (allNormalizedWords: seq<seq<string>>)
    ensures allNormalizedWords == Preprocess(texts, tokenize, stopWords, lemmatize)
  {
    allNormalizedWords := [];
    var i := 0;
    while i < |texts|
      invariant 0 <= i <= |texts|
      invariant allNormalizedWords == Preprocess(texts[..i], tokenize, stopWords, lemmatize)
    {
      assert texts[..i + 1][..i] == texts[..i];
      var normalizedWords := LineSentence(texts[i], tokenize, stopWords, lemmatize);
      allNormalizedWords := allNormalizedWords + [normalizedWords];
      i := i + 1;
    }
    assert texts[..i] == texts;
  }

  /** `save_corpus(corpus, filename)`: the file, opened with 'w', holds one
      line per sentence and nothing of what it held before. */
  method SaveCorpus(disk: Disk<char>, corpus: seq<seq<string>>, filename: string)
    modifies disk
    ensures disk.files == old(disk.files)[filename := CorpusText(corpus)]
  {
    WriteFile(disk, filename, "");
    var i := 0;
    while i < |corpus|
      invariant 0 <= i <= |corpus|
      invariant disk.files == old(disk.files)[filename := CorpusText(corpus[..i])]
    {
      ghost var done := CorpusText(corpus[..i]);
      assert disk.Read(filename) == done;
      disk.Write(filename, Join(corpus[i], " ") + "\n");
      assert disk.files == old(disk.files)[filename := done + (Join(corpus[i], " ") + "\n")];
      CorpusTextPrefix(corpus, i);
      i := i + 1;
    }
    assert corpus[..i] == corpus;
  }

  /** Saving twice keeps only the second corpus. */
  lemma SaveOverwrites(files: map<string, seq<char>>, filename: string, a: seq<seq<string>>, b: seq<seq<string>>)
    ensures files[filename := CorpusText(a)][filename := CorpusText(b)] == files[filename := CorpusText(b)]
  {
  }

  /** The corpus file of a scraped URL, in the working directory. */
  function CorpusFile(url: string): (r: string)
    ensures EndsWith(r, "_corpus.txt") && r != DocumentFile && r != ModelFile
  {
    var r := SiteName(url) + "_corpus.txt";
    assert r[|r| - 11..] == "_corpus.txt";
    assert DocumentFile[|DocumentFile| - 11..] != "_corpus.txt";
    assert ModelFile[|ModelFile| - 11..] != "_corpus.txt";
    r
  }

  /** The file the scraper writes and this script reads. */
  const DocumentFile: string := "document.txt"

  /** How `main` ends. */
  datatype Ending =
    | DocumentMissing  // "document.txt" cannot be opened: the script dies
    | EmptyVocabulary  // the Word2Vec model gets no word: the script dies
    | Saved            // model saved, corpus written, "document.txt" removed

  /** The sentences hold no word exactly when no line keeps a token. */
  lemma PreprocessNoVocabulary(texts: seq<string>, tokenize: string -> seq<string>,
                               stopWords: set<string>, lemmatize: string -> string)
    ensures NoVocabulary(Preprocess(texts, tokenize, stopWords, lemmatize)) <==>
            forall k :: 0 <= k < |texts| ==> LineSentence(texts[k], tokenize, stopWords, lemmatize) == []
  {
    PreprocessOnePerLine(texts, tokenize, stopWords, lemmatize);
  }

  /** `main()`, given the bytes `model.save` writes: scrape into
      "document.txt"; if that file cannot be opened the script dies; a file
      left by an earlier run is read when the scraper writes nothing.  Its
      lines are preprocessed; a model on sentences without words raises
      before anything is saved.  Otherwise the model is saved, the sentences
      overwrite the site's corpus file, and "document.txt" is removed. */
  method RunScript(disk: Disk<char>, url: string, get: (string, map<string, string>) -> Response,
                   parse: seq<byte> -> seq<Node>, model: string,
                   tokenize: string -> seq<string>, stopWords: set<string>, lemmatize: string -> string)
    returns (sentences: seq<seq<string>>, ending: Ending)
    modifies disk
    ensures var scraped := ScrapingSoup.AfterScrape(old(disk.files), get(url, ScrapingSoup.Headers), parse, DocumentFile);
            (ending == DocumentMissing <==> DocumentFile !in scraped) &&
            (DocumentFile in scraped ==>
               sentences == Preprocess(SplitLines(scraped[DocumentFile]), tokenize, stopWords, lemmatize)) &&
            (ending == EmptyVocabulary <==> DocumentFile in scraped && NoVocabulary(sentences)) &&
            (!ending.Saved? ==> disk.files == scraped) &&
            (ending == Saved ==>
               disk.files == scraped[ModelFile := model][CorpusFile(url) := CorpusText(sentences)] - {DocumentFile})
  {
    ScrapingSoup.ScrapeDocument(disk, url, get, parse, DocumentFile);
    if DocumentFile !in disk.files {
      return [], DocumentMissing;
    }
    var texts := SplitLines(disk.Read(DocumentFile));
    sentences := PreprocessText(texts, tokenize, stopWords, lemmatize);
    if NoVocabulary(sentences) {
      return sentences, EmptyVocabulary;
    }
    ending := Saved;
    WriteFile(disk, ModelFile, model);
    SaveCorpus(disk, sentences, CorpusFile(url));
    disk.Remove(DocumentFile);
  }
}

=== FILE: pychars.dfy ===
/**
 * Python's character classes as the scripts use them: `str.isspace`,
 * `isalpha`, `isdigit`, `isalnum`, `lower` and `string.punctuation`.
 * Letters, digits and case mapping are modelled for code points up to
 * U+017F (Basic Latin, Latin-1 Supplement, Latin Extended-A); beyond that a
 * character counts as neither letter nor digit and `lower` leaves it alone.
 */
module PyChars {

  /** The characters for which `str.isspace()` holds: what `strip()` and
      `split()` with no argument treat as whitespace. */
  const Whitespace: set<char> := {
    '\t', '\n', '\U{B}', '\U{C}', '\r', '\U{1C}', '\U{1D}', '\U{1E}', '\U{1F}', ' ',
    '\U{85}', '\U{A0}', '\U{1680}',
    '\U{2000}', '\U{2001}', '\U{2002}', '\U{2003}', '\U{2004}', '\U{2005}',
    '\U{2006}', '\U{2007}', '\U{2008}', '\U{2009}', '\U{200A}',
    '\U{2028}', '\U{2029}', '\U{202F}', '\U{205F}', '\U{3000}'
  }

  /** `string.punctuation`: the 32 ASCII punctuation characters. */
  const Punctuation: set<char> := {
    '!', '"', '#', '$', '%', '&', '\'', '(', ')', '*', '+', ',', '-', '.', '/',
    ':', ';', '<', '=', '>', '?', '@', '[', '\\', ']', '^', '_', '`', '{', '|', '}', '~'
  }

  predicate IsAlphaChar(c: char)
  {
    ('A' <= c <= 'Z') || ('a' <= c <= 'z') ||
    c == '\U{AA}' || c == '\U{B5}' || c == '\U{BA}' ||
    ('\U{C0}' <= c <= '\U{D6}') || ('\U{D8}' <= c <= '\U{F6}') || ('\U{F8}' <= c <= '\U{17F}')
  }

  /** `isdigit` holds for the ASCII digits and the superscripts two, three and one. */
  predicate IsDigitChar(c: char)
  {
    ('0' <= c <= '9') || c == '\U{B2}' || c == '\U{B3}' || c == '\U{B9}'
  }

  /** `isnumeric` adds the vulgar fractions one quarter, one half, three quarters. */
  predicate IsNumericChar(c: char)
  {
    IsDigitChar(c) || c == '\U{BC}' || c == '\U{BD}' || c == '\U{BE}'
  }

  predicate IsAlnumChar(c: char) { IsAlphaChar(c) || IsNumericChar(c) }

  /** `s.isalpha()`: non-empty and made of letters only. */
  predicate IsAlpha(s: string) { |s| > 0 && forall k :: 0 <= k < |s| ==> IsAlphaChar(s[k]) }

  /** `s.isdigit()`: non-empty and made of digits only. */
  predicate IsDigit(s: string) { |s| > 0 && forall k :: 0 <= k < |s| ==> IsDigitChar(s[k]) }

  /** `s.isalnum()`: non-empty and made of letters and numeric characters only. */
  predicate IsAlnum(s: string) { |s| > 0 && forall k :: 0 <= k < |s| ==> IsAlnumChar(s[k]) }

  /** Lower-case mapping of one character. U+0130 (capital I with dot above),
      which Python maps to two characters, is left unchanged. */
  function LowerChar(c: char): (r: char)
    ensures IsAlphaChar(c) <==> IsAlphaChar(r)
  {
    if ('A' <= c <= 'Z') || ('\U{C0}' <= c <= '\U{DE}' && c != '\U{D7}') then
      (c as int + 32) as char
    else if '\U{100}' <= c <= '\U{17F}' then
      var n := c as int;
      if (0x100 <= n <= 0x12F || 0x132 <= n <= 0x137 || 0x14A <= n <= 0x177) && n % 2 == 0 then
        (n + 1) as char
      else if (0x139 <= n <= 0x148 || 0x179 <= n <= 0x17E) && n % 2 == 1 then
        (n + 1) as char
      else if n == 0x178 then '\U{FF}'
      else c
    else c
  }

  /** `s.lower()`, character by character. */
  function Lower(s: string): (r: string)
    ensures |r| == |s|
    ensures forall k :: 0 <= k < |s| ==> r[k] == LowerChar(s[k])
  {
    seq(|s|, k requires 0 <= k < |s| => LowerChar(s[k]))
  }

  /** Lower-casing changes letters only: every other character is left as it is. */
  lemma LowerCharOnlyLetters(c: char)
    requires !IsAlphaChar(c)
    ensures LowerChar(c) == c
  {
  }

  /** No letter is punctuation, so a word that passes `isalpha` loses nothing
      to punctuation stripping. */
  lemma LetterIsNotPunctuation(c: char)
    requires IsAlphaChar(c)
    ensures c !in Punctuation
  {
  }

  /** No letter is whitespace. */
  lemma LetterIsNotWhitespace(c: char)
    requires IsAlnumChar(c)
    ensures c !in Whitespace
  {
  }

  /** Punctuation is printable ASCII other than a letter or a digit. */
  lemma PunctuationIsAsciiSymbol(c: char)
    requires c in Punctuation
    ensures '!' <= c <= '~' && !('A' <= c <= 'Z') && !('a' <= c <= 'z')
  {
  }

  /** Punctuation is neither a letter nor whitespace. */
  lemma PunctuationIsNotLetterOrSpace(c: char)
    requires c in Punctuation
    ensures !IsAlphaChar(c) && c !in Whitespace
  {
    PunctuationIsAsciiSymbol(c);
  }
}

=== FILE: pylines.dfy ===
/**
 * Python's `str.split()` with no argument (words) and `str.splitlines()`.
 */
module PyLines {
  import opened Base
  import opened PyStr
  import opened PyChars

  /** Length of the leading run of non-whitespace characters. */
  function RunLen(s: string): (n: nat)
    ensures n <= |s|
    ensures forall k :: 0 <= k < n ==> s[k] !in Whitespace
    ensures n < |s| ==> s[n] in Whitespace
    decreases |s|
  {
    if s == [] || s[0] in Whitespace then 0 else 1 + RunLen(s[1..])
  }

  /** `s.split()`: the maximal runs of non-whitespace characters, in order. */
  function Words(s: string): (r: seq<string>)
    ensures forall k :: 0 <= k < |r| ==> |r[k]| > 0 && NoneIn(r[k], Whitespace)
    decreases |s|
  {
    if s == [] then []
    else if s[0] in Whitespace then Words(s[1..])
    else
      var n := RunLen(s);
      [s[..n]] + Words(s[n..])
  }

  /** The number of positions at which a run of non-whitespace characters
      begins; `afterSpace` says whether the position before `s` counts as
      whitespace (true at the start of the text). */
  function RunStarts(s: string, afterSpace: bool): nat
    decreases |s|
  {
    if s == [] then 0
    else (if s[0] !in Whitespace && afterSpace then 1 else 0) + RunStarts(s[1..], s[0] in Whitespace)
  }

  lemma {:induction false} RunStartsSkipRun(s: string, m: nat)
    requires m <= |s|
    requires forall k :: 0 <= k < m ==> s[k] !in Whitespace
    ensures RunStarts(s, false) == RunStarts(s[m..], false)
    decreases m
  {
    if m > 0 {
      RunStartsSkipRun(s[1..], m - 1);
      assert s[1..][m - 1..] == s[m..];
    }
  }

  lemma RunStartsAtSpace(s: string)
    requires s == [] || s[0] in Whitespace
    ensures RunStarts(s, false) == RunStarts(s, true)
  {
  }

  /** The number of words `split()` returns is the number of places where a
      run of non-whitespace begins; in particular empty or all-blank text has
      no words. */
  lemma {:induction false} WordCountIsRunStarts(s: string)
    ensures |Words(s)| == RunStarts(s, true)
    decreases |s|
  {
    if s == [] {
    } else if s[0] in Whitespace {
      WordCountIsRunStarts(s[1..]);
    } else {
      var n := RunLen(s);
      WordCountIsRunStarts(s[n..]);
      RunStartsSkipRun(s[1..], n - 1);
      assert s[1..][n - 1..] == s[n..];
      RunStartsAtSpace(s[n..]);
    }
  }

  /** The line boundaries of `str.splitlines()`. */
  const LineBreaks: set<char> := {
    '\n', '\r', '\U{B}', '\U{C}', '\U{1C}', '\U{1D}', '\U{1E}', '\U{85}', '\U{2028}', '\U{2029}'
  }

  /** Index of the first line terminator, or the length when there is none. */
  function LineEnd(s: string): (n: nat)
    ensures n <= |s|
    ensures forall k :: 0 <= k < n ==> s[k] !in LineBreaks
    ensures n < |s| ==> s[n] in LineBreaks
    decreases |s|
  {
    if s == [] || s[0] in LineBreaks then 0 else 1 + LineEnd(s[1..])
  }

  /** Length of the line terminator at index `n`: "\r\n" counts as one. */
  function BreakLen(s: string, n: nat): (len: nat)
    requires n < |s|
    ensures 1 <= len <= 2 && n + len <= |s|
  {
    if s[n] == '\r' && n + 1 < |s| && s[n + 1] == '\n' then 2 else 1
  }

  /** `s.splitlines()`: the lines without their terminators; a final
      terminator does not start an empty line. */
  function SplitLines(s: string): (r: seq<string>)
    ensures forall k :: 0 <= k < |r| ==> NoneIn(r[k], LineBreaks)
    decreases |s|
  {
    if s == [] then []
    else
      var n := LineEnd(s);
      if n == |s| then [s]
      else [s[..n]] + SplitLines(s[n + BreakLen(s, n)..])
  }

  /** The number of line terminators in `s`, "\r\n" counted once. */
  function Terminators(s: string): nat
    decreases |s|
  {
    if s == [] then 0
    else if s[0] == '\r' && |s| > 1 && s[1] == '\n' then 1 + Terminators(s[2..])
    else (if s[0] in LineBreaks then 1 else 0) + Terminators(s[1..])
  }

  lemma {:induction false} TerminatorsSkip(s: string, m: nat)
    requires m <= |s|
    requires forall k :: 0 <= k < m ==> s[k] !in LineBreaks
    ensures Terminators(s) == Terminators(s[m..])
    decreases m
  {
    if m > 0 {
      TerminatorsSkip(s[1..], m - 1);
      assert s[1..][m - 1..] == s[m..];
    }
  }

  /** `len(s.splitlines())` is the number of line terminators plus one for a
      last line that has none; empty text has no lines. */
  lemma {:induction false} LineCountIsTerminators(s: string)
    ensures |SplitLines(s)| == Terminators(s) + (if s != [] && s[|s| - 1] !in LineBreaks then 1 else 0)
    decreases |s|
  {
    if s != [] {
      var n := LineEnd(s);
      TerminatorsSkip(s, n);
      if n < |s| {
        var rest := s[n + BreakLen(s, n)..];
        LineCountIsTerminators(rest);
        TerminatorsAtBreak(s, n);
        if rest != [] {
          assert s[|s| - 1] == rest[|rest| - 1];
        }
      }
    }
  }

  /** A line terminator counts once, "\r\n" included. */
  lemma TerminatorsAtBreak(s: string, n: nat)
    requires n < |s| && s[n] in LineBreaks
    ensures Terminators(s[n..]) == 1 + Terminators(s[n + BreakLen(s, n)..])
  {
    if BreakLen(s, n) == 2 {
      assert s[n..][2..] == s[n + 2..];
    } else {
      assert s[n..][1..] == s[n + 1..];
    }
  }
}

=== FILE: pynum.dfy ===
/**
 * Python's `str(n)` for integers and the `int(s)` parse the scripts apply to
 * the page-count prompt: surrounding whitespace, an optional sign, then one or
 * more ASCII digits.
 */
module PyNum {
  import opened Base
  import opened PyStr
  import opened PyChars

  predicate IsAsciiDigit(c: char) { '0' <= c <= '9' }

  predicate AllAsciiDigits(s: string)
  {
    |s| > 0 && forall k :: 0 <= k < |s| ==> IsAsciiDigit(s[k])
  }

  function DigitChar(d: nat): (c: char)
    requires d < 10
    ensures IsAsciiDigit(c) && c as int - '0' as int == d
  {
    ('0' as int + d) as char
  }

  /** `str(n)` for a non-negative `n`: decimal digits, no leading zero. */
  function NatToString(n: nat): (r: string)
    ensures AllAsciiDigits(r)
    decreases n
  {
    if n < 10 then [DigitChar(n)] else NatToString(n / 10) + [DigitChar(n % 10)]
  }

  /** `str(n)` for any integer. */
  function IntToString(n: int): (r: string)
    ensures |r| > 0 && (r[0] == '-' || IsAsciiDigit(r[0]))
    ensures forall k :: 1 <= k < |r| ==> IsAsciiDigit(r[k])
    ensures (r[0] == '-') <==> n < 0
  {
    if n < 0 then "-" + NatToString(-n) else NatToString(n)
  }

  /** The value of a string of ASCII digits, read most significant first. */
  function DigitsValue(s: string): nat
    requires forall k :: 0 <= k < |s| ==> IsAsciiDigit(s[k])
    decreases |s|
  {
    if s == [] then 0
    else
      assert IsAsciiDigit(s[|s| - 1]);
      DigitsValue(s[..|s| - 1]) * 10 + (s[|s| - 1] as int - '0' as int)
  }

  /** Reading back the digits of `str(n)` gives `n`. */
  lemma {:induction false} DigitsOfNatToString(n: nat)
    ensures DigitsValue(NatToString(n)) == n
    decreases n
  {
    if n >= 10 {
      DigitsOfNatToString(n / 10);
      var s := NatToString(n);
      assert s[..|s| - 1] == NatToString(n / 10);
    }
  }

  /** `int(s)`: None where Python raises ValueError. */
  function ParseInt(s: string): Option<int>
  {
    ParseStripped(StripSet(s, Whitespace))
  }

  /** `int` on text without surrounding whitespace: an optional sign, then
      one or more digits. */
  function ParseStripped(t: string): Option<int>
  {
    if |t| > 0 && (t[0] == '-' || t[0] == '+') then
      if AllAsciiDigits(t[1..]) then
        var v: int := DigitsValue(t[1..]);
        Some(if t[0] == '-' then -v else v)
      else None
    else if AllAsciiDigits(t) then Some(DigitsValue(t))
    else None
  }

  /** Neither a digit nor the minus sign is whitespace. */
  lemma NumberCharNotSpace(c: char)
    requires c == '-' || IsAsciiDigit(c)
    ensures c !in Whitespace
  {
  }

  /** `int(str(n)) == n`. */
  lemma ParseIntOfIntToString(n: int)
    ensures ParseInt(IntToString(n)) == Some(n)
  {
    if n < 0 {
      ParseIntOfNegative(n);
    } else {
      ParseIntOfNonNegative(n);
    }
  }

  lemma ParseIntOfNonNegative(n: nat)
    ensures ParseInt(IntToString(n)) == Some(n as int)
  {
    var digits := NatToString(n);
    assert IntToString(n) == digits;
    DigitsOfNatToString(n);
    ParseDigits(digits);
  }

  lemma ParseIntOfNegative(n: int)
    requires n < 0
    ensures ParseInt(IntToString(n)) == Some(n)
  {
    var digits := NatToString(-n);
    assert IntToString(n) == "-" + digits;
    DigitsOfNatToString(-n);
    ParseNegative(digits);
    assert -(DigitsValue(digits) as int) == n;
  }

  /** A string of digits parses as its value. */
  lemma ParseDigits(t: string)
    requires AllAsciiDigits(t)
    ensures ParseInt(t) == Some(DigitsValue(t))
  {
    NumberCharNotSpace(t[0]);
    NumberCharNotSpace(t[|t| - 1]);
    StripSetFixed(t, Whitespace);
  }

  /** A minus sign followed by digits parses as the negated value. */
  lemma ParseNegative(t: string)
    requires AllAsciiDigits(t)
    ensures ParseInt("-" + t) == Some(-(DigitsValue(t) as int))
  {
    var s := "-" + t;
    NumberCharNotSpace(s[0]);
    NumberCharNotSpace(s[|s| - 1]);
    StripSetFixed(s, Whitespace);
    ParseStrippedNegative(t);
  }

  lemma ParseStrippedNegative(t: string)
    requires AllAsciiDigits(t)
    ensures ParseStripped("-" + t) == Some(-(DigitsValue(t) as int))
  {
    assert ("-" + t)[1..] == t;
  }

  /** Different numbers print differently. */
  lemma IntToStringInjective(a: int, b: int)
    requires IntToString(a) == IntToString(b)
    ensures a == b
  {
    ParseIntOfIntToString(a);
    ParseIntOfIntToString(b);
  }
}

=== FILE: pypdf2.dfy ===
/**
 * Projekt/pypdf2.py: every name in "hrcak" whose lower-case form ends in
 * ".pdf" is read with a PDF reader; the page texts, a page without text
 * counting as empty, are written to `pypdf2_text/<stem>.txt`.  Any exception
 * while reading a file is reported and that file gets no output; the loop
 * goes on.  The PDF reader is a parameter.
 */
module PyPdf2 {
  import opened Base
  import opened PyStr
  import opened PyChars
  import opened Fs

  const InputFolder: string := "hrcak"
  const OutputFolder: string := "pypdf2_text"

  /** One page as the reader gives it: `extract_text()` raises, or returns a
      text or None. */
  datatype Page = Raises | Extracted(text: Option<string>)

  /** `page.extract_text() or ''` for a page that does not raise. */
  function OrEmpty(text: Option<string>): string
  {
    if text.Some? then text.value else ""
  }

  /** The text `+=` accumulates over the pages, or None when a page raises. */
  function PagesText(pages: seq<Page>): Option<string>
    decreases |pages|
  {
    if pages == [] then Some("")
    else
      var n := |pages| - 1;
      match PagesText(pages[..n])
      case None => None
      case Some(t) =>
        if pages[n].Raises? then None else Some(t + OrEmpty(pages[n].text))
  }

  /** The text exists exactly when no page raises, and is then every page's
      text, or "" for a page without text, in page order. */
  lemma {:induction false} PagesTextIsConcat(pages: seq<Page>)
    ensures PagesText(pages).Some? <==> forall k :: 0 <= k < |pages| ==> pages[k].Extracted?
    ensures PagesText(pages).Some? ==>
              PagesText(pages).value == Concat(seq(|pages|, k requires 0 <= k < |pages| => OrEmpty(pages[k].text)))
    decreases |pages|
  {
    if pages != [] {
      var n := |pages| - 1;
      var front := pages[..n];
      PagesTextIsConcat(front);
      assert forall k :: 0 <= k < n ==> front[k] == pages[k];
      assert PagesText(pages).Some? <==> PagesText(front).Some? && pages[n].Extracted?;
      if PagesText(pages).Some? {
        var texts := seq(|pages|, k requires 0 <= k < |pages| => OrEmpty(pages[k].text));
        assert texts[..n] == seq(n, k requires 0 <= k < n => OrEmpty(front[k].text));
        assert PagesText(pages).value == PagesText(front).value + texts[n];
        ConcatLast(texts);
      }
    }
  }

  /** The loop over `reader.pages`; an exception leaves it at once. */
  method ExtractText(pages: seq<Page>) returns (extractedText: Option<string>)
    ensures extractedText == PagesText(pages)
  {
    var text := "";
    var i := 0;
    while i < |pages|
      invariant 0 <= i <= |pages|
      invariant PagesText(pages[..i]) == Some(text)
    {
      assert pages[..i + 1][..i] == pages[..i];
      if pages[i].Raises? {
        PagesTextRaises(pages, i + 1);
        return None;
      }
      text := text + OrEmpty(pages[i].text);
      i := i + 1;
    }
    assert pages[..i] == pages;
    return Some(text);
  }

  /** Once a page raises, the whole text is None. */
  lemma {:induction false} PagesTextRaises(pages: seq<Page>, m: nat)
    requires m <= |pages| && PagesText(pages[..m]).None?
    ensures PagesText(pages).None?
    decreases |pages| - m
  {
    if m < |pages| {
      assert pages[..m + 1][..m] == pages[..m];
      PagesTextRaises(pages, m + 1);
    } else {
      assert pages[..m] == pages;
    }
  }

  /** `filename.lower().endswith('.pdf')`. */
  predicate IsPdfName(name: string)
  {
    EndsWith(Lower(name), ".pdf")
  }

  /** The letters of ".pdf" in any case are selected. */
  lemma UpperCasePdfSelected(base: string)
    ensures IsPdfName(base + ".PDF") && IsPdfName(base + ".pdf")
  {
    var up := Lower(base + ".PDF");
    var low := Lower(base + ".pdf");
    assert up[|up| - 4..] == ".pdf";
    assert low[|low| - 4..] == ".pdf";
  }

  /** The output file of a listed PDF. */
  function OutputPath(name: string): string
  {
    TxtPath(OutputFolder, name)
  }

  /** For a plain name `<base>.pdf`, the output is `pypdf2_text/<base>.txt`. */
  lemma OutputPathOfPdf(base: string, ext: string)
    requires ext == ".pdf" || ext == ".PDF"
    requires forall k :: 0 <= k < |base| ==> base[k] != '/'
    requires !AllDots(base)
    ensures OutputPath(base + ext) == "pypdf2_text/" + base + ".txt"
  {
    TxtPathOfName(OutputFolder, base, ext);
  }

  /** What the loop body does for one listed name, given what the reader
      makes of the PDF at each path (None when opening it raises): a selected
      name that reads without an exception gets its text file; anything else
      writes nothing. */
  function Job(read: string -> Option<seq<Page>>): string -> Option<(string, string)>
  {
    name =>
      if !IsPdfName(name) then None
      else
        match read(PathJoin(InputFolder, name))
        case None => None
        case Some(pages) =>
          match PagesText(pages)
          case None => None
          case Some(text) => Some((OutputPath(name), text))
  }

  /** A file whose reading raises writes nothing, and the run goes on: the
      outputs of the other files are as if it were not listed. */
  lemma FailureSkipped(files: map<string, string>, before: seq<string>, name: string, after: seq<string>,
                       read: string -> Option<seq<Page>>)
    requires Job(read)(name).None?
    ensures Batch(files, before + [name] + after, Job(read)) == Batch(files, before + after, Job(read))
  {
    BatchSkip(files, before, name, after, Job(read));
  }

  /** The body of the module-level loop for one listed name. */
  method ProcessFile(disk: Disk<char>, filename: string, read: string -> Option<seq<Page>>)
    modifies disk
    ensures Job(read)(filename).None? ==> disk.files == old(disk.files)
    ensures Job(read)(filename).Some? ==>
              disk.files == old(disk.files)[Job(read)(filename).value.0 := Job(read)(filename).value.1]
  {
    if !EndsWith(Lower(filename), ".pdf") {
      return;
    }
    var pdfPath := PathJoin(InputFolder, filename);
    var outputPath := PathJoin(OutputFolder, Stem(filename) + ".txt");
    var reader := read(pdfPath);
    if reader.None? {
      return;
    }
    var extractedText := ExtractText(reader.value);
    if extractedText.None? {
      return;
    }
    WriteFile(disk, outputPath, extractedText.value);
  }

  /** The module-level loop over the listing of "hrcak", in listing order. */
  method RunScript(disk: Disk<char>, names: seq<string>, read: string -> Option<seq<Page>>)
    modifies disk
    ensures disk.files == Batch(old(disk.files), names, Job(read))
  {
    var i := 0;
    while i < |names|
      invariant 0 <= i <= |names|
      invariant disk.files == Batch(old(disk.files), names[..i], Job(read))
    {
      BatchSnoc(old(disk.files), names, i, Job(read));
      ProcessFile(disk, names[i], read);
      i := i + 1;
    }
    assert names[..i] == names;
  }
}

=== FILE: pystr.dfy ===
/**
 * The Python `str` operations the scripts use: prefix and suffix tests,
 * `in`, `find`, `split(sep)`, `sep.join`, `replace`, `strip(chars)` and
 * per-character deletion or substitution.  Strings are `seq<char>`.
 */
module PyStr {
  import opened Base

  predicate StartsWith(s: string, p: string) { |p| <= |s| && s[..|p|] == p }

  predicate EndsWith(s: string, p: string) { |p| <= |s| && s[|s| - |p|..] == p }

  /** `sub` occurs in `s` starting at index `i`. */
  predicate OccursAt(s: string, sub: string, i: int)
  {
    0 <= i && i + |sub| <= |s| && s[i..i + |sub|] == sub
  }

  /** An occurrence in a suffix is an occurrence in the whole string, shifted. */
  lemma OccursAtShift(s: string, sub: string, j: int)
    requires |s| > 0 && j >= 0
    ensures OccursAt(s[1..], sub, j) <==> OccursAt(s, sub, j + 1)
  {
    if 0 <= j && j + |sub| <= |s| - 1 {
      assert s[1..][j..j + |sub|] == s[j + 1..j + 1 + |sub|];
    }
  }

  /** `s.find(sub)`: the leftmost occurrence, or None where Python returns -1. */
  function Find(s: string, sub: string): (r: Option<nat>)
    ensures r.Some? ==> OccursAt(s, sub, r.value)
    ensures r.Some? ==> forall j :: 0 <= j < r.value ==> !OccursAt(s, sub, j)
    ensures r.None? ==> forall j :: !OccursAt(s, sub, j)
    decreases |s|
  {
    if |s| < |sub| then None
    else if s[..|sub|] == sub then Some(0)
    else
      match Find(s[1..], sub)
      case None =>
        assert forall j :: !OccursAt(s, sub, j) by {
          forall j ensures !OccursAt(s, sub, j) {
            if j >= 1 { OccursAtShift(s, sub, j - 1); }
          }
        }
        None
      case Some(k) =>
        assert OccursAt(s, sub, k + 1) by { OccursAtShift(s, sub, k); }
        assert forall j :: 0 <= j < k + 1 ==> !OccursAt(s, sub, j) by {
          forall j | 0 < j < k + 1 ensures !OccursAt(s, sub, j) {
            OccursAtShift(s, sub, j - 1);
          }
        }
        Some(k + 1)
  }

  /** Python's `sub in s`. */
  predicate Contains(s: string, sub: string) { Find(s, sub).Some? }

  /** `sub in s` holds exactly when `sub` occurs at some index. */
  lemma ContainsIff(s: string, sub: string)
    ensures Contains(s, sub) <==> exists i :: OccursAt(s, sub, i)
  {
  }

  /** An occurrence inside a prefix is an occurrence in the string. */
  lemma OccursInPrefix(s: string, n: nat, sub: string, j: int)
    requires n <= |s|
    requires OccursAt(s[..n], sub, j)
    ensures OccursAt(s, sub, j) && j + |sub| <= n
  {
    assert s[..n][j..j + |sub|] == s[j..j + |sub|];
  }

  /** `s.split(sep)` for a non-empty separator: the pieces between the
      non-overlapping occurrences of `sep`, found left to right. */
  function Split(s: string, sep: string): (r: seq<string>)
    requires sep != []
    ensures |r| >= 1
    ensures forall k :: 0 <= k < |r| ==> !Contains(r[k], sep)
    decreases |s|
  {
    match Find(s, sep)
    case None => [s]
    case Some(i) =>
      var head := s[..i];
      assert !Contains(head, sep) by {
        if Contains(head, sep) {
          var j := Find(head, sep).value;
          OccursInPrefix(s, i, sep, j);
        }
      }
      [head] + Split(s[i + |sep|..], sep)
  }

  /** `sep.join(pieces)`. */
  function Join(pieces: seq<string>, sep: string): string
    decreases |pieces|
  {
    if |pieces| == 0 then ""
    else if |pieces| == 1 then pieces[0]
    else pieces[0] + sep + Join(pieces[1..], sep)
  }

  /** Joining the pieces of a split with the same separator gives back the string. */
  lemma {:induction false} JoinSplit(s: string, sep: string)
    requires sep != []
    ensures Join(Split(s, sep), sep) == s
    decreases |s|
  {
    match Find(s, sep)
    case None =>
    case Some(i) =>
      var rest := s[i + |sep|..];
      SplitAtFirst(s, sep, i);
      JoinSplit(rest, sep);
      JoinCons(s[..i], Split(rest, sep), sep);
      AroundOccurrence(s, sep, i);
  }

  /** Joining a first piece in front of a non-empty list of pieces. */
  lemma JoinCons(head: string, tail: seq<string>, sep: string)
    requires tail != []
    ensures Join([head] + tail, sep) == head + sep + Join(tail, sep)
  {
    assert ([head] + tail)[1..] == tail;
  }

  /** A string is what precedes an occurrence, the occurrence and what follows. */
  lemma AroundOccurrence(s: string, sub: string, i: int)
    requires OccursAt(s, sub, i)
    ensures s == s[..i] + sub + s[i + |sub|..]
  {
    assert s == s[..i] + s[i..i + |sub|] + s[i + |sub|..];
  }

  /** Splitting a string that holds no separator yields the string alone. */
  lemma SplitAbsent(s: string, sep: string)
    requires sep != [] && !Contains(s, sep)
    ensures Split(s, sep) == [s]
  {
  }

  /** `s.replace(pat, rep)` for a non-empty `pat`: every non-overlapping
      occurrence, left to right, is replaced. */
  function Replace(s: string, pat: string, rep: string): string
    requires pat != []
  {
    Join(Split(s, pat), rep)
  }

  /** A string that does not contain `pat` is left unchanged by `replace`. */
  lemma ReplaceAbsent(s: string, pat: string, rep: string)
    requires pat != [] && !Contains(s, pat)
    ensures Replace(s, pat, rep) == s
  {
  }

  /** When the only occurrence of `pat` is at the very end, `replace` swaps
      that suffix for `rep` and nothing else. */
  lemma ReplaceOnlySuffix(stem: string, pat: string, rep: string)
    requires pat != [] && !Contains(stem + pat[..|pat| - 1], pat)
    ensures Replace(stem + pat, pat, rep) == stem + rep
  {
    var s := stem + pat;
    assert OccursAt(s, pat, |stem|) by { assert s[|stem|..|stem| + |pat|] == pat; }
    forall j | 0 <= j < |stem| ensures !OccursAt(s, pat, j) {
      var p := stem + pat[..|pat| - 1];
      assert !OccursAt(p, pat, j);
      assert p[j..j + |pat|] == s[j..j + |pat|];
    }
    var f := Find(s, pat);
    assert f.Some? && f.value == |stem|;
    assert s[..|stem|] == stem;
    assert s[|stem| + |pat|..] == [];
    assert Find([], pat).None?;
    assert Split([], pat) == [[]];
    assert Split(s, pat) == [stem] + [[]];
    assert Join([stem, []], rep) == stem + rep + Join([[]], rep);
  }

  /** No character of `s` is in `cs`. */
  predicate NoneIn(s: string, cs: set<char>)
  {
    forall k :: 0 <= k < |s| ==> s[k] !in cs
  }

  /** Every character of `s` is in `cs`. */
  predicate AllIn(s: string, cs: set<char>)
  {
    forall k :: 0 <= k < |s| ==> s[k] in cs
  }

  /** `r` is what stripping the characters of `cs` leaves of `s`: `s` is a
      run of such characters, then `r`, then another such run, and `r`
      neither starts nor ends with one of them. */
  predicate IsStripOf(r: string, s: string, cs: set<char>)
  {
    var a := LeadIn(s, cs);
    a + |r| <= |s| && r == s[a..a + |r|] && AllIn(s[..a], cs) && AllIn(s[a + |r|..], cs) &&
    (r == [] || (r[0] !in cs && r[|r| - 1] !in cs))
  }

  /** `r` is `s` read from position `start`, every character of `bad`
      replaced by `c`. */
  predicate ReplacedFrom(r: string, s: string, start: nat, bad: set<char>, c: char)
  {
    start + |r| <= |s| && forall k :: 0 <= k < |r| ==> r[k] == (if s[start + k] in bad then c else s[start + k])
  }

  /** A prefix of a replaced copy is a replaced copy of the same place. */
  lemma ReplacedFromPrefix(r: string, s: string, start: nat, bad: set<char>, c: char, n: nat)
    requires ReplacedFrom(r, s, start, bad, c) && n <= |r|
    ensures ReplacedFrom(r[..n], s, start, bad, c)
  {
    forall k | 0 <= k < n ensures r[..n][k] == r[k] {
    }
  }

  /** Number of leading characters of `s` that belong to `cs`. */
  function LeadIn(s: string, cs: set<char>): (n: nat)
    ensures n <= |s|
    ensures forall k :: 0 <= k < n ==> s[k] in cs
    ensures n < |s| ==> s[n] !in cs
    decreases |s|
  {
    if s == [] || s[0] !in cs then 0 else 1 + LeadIn(s[1..], cs)
  }

  /** Number of trailing characters of `s` that belong to `cs`. */
  function TrailIn(s: string, cs: set<char>): (n: nat)
    ensures n <= |s|
    ensures forall k :: |s| - n <= k < |s| ==> s[k] in cs
    ensures n < |s| ==> s[|s| - 1 - n] !in cs
    decreases |s|
  {
    if s == [] || s[|s| - 1] !in cs then 0 else 1 + TrailIn(s[..|s| - 1], cs)
  }

  /** `s.strip(chars)`: drop the longest prefix and then the longest suffix
      made of characters of `cs`. */
  function StripSet(s: string, cs: set<char>): (r: string)
    ensures r == [] || (r[0] !in cs && r[|r| - 1] !in cs)
    ensures LeadIn(s, cs) + |r| <= |s| && r == s[LeadIn(s, cs)..LeadIn(s, cs) + |r|]
    ensures IsStripOf(r, s, cs)
  {
    var a := LeadIn(s, cs);
    var t := s[a..];
    var b := TrailIn(t, cs);
    var r := t[..|t| - b];
    assert r == s[a..a + |r|];
    assert s[a + |r|..] == t[|t| - b..];
    r
  }

  /** Stripping has one possible outcome: two strips of the same string are
      equal. */
  lemma IsStripOfUnique(r1: string, r2: string, s: string, cs: set<char>)
    requires IsStripOf(r1, s, cs) && IsStripOf(r2, s, cs)
    ensures r1 == r2
  {
  }

  /** The characters kept by `strip` are those after the leading run, in place. */
  lemma StripSetIndex(s: string, cs: set<char>, k: nat)
    requires k < |StripSet(s, cs)|
    ensures LeadIn(s, cs) + k < |s| && StripSet(s, cs)[k] == s[LeadIn(s, cs) + k]
  {
    var a := LeadIn(s, cs);
    var r := StripSet(s, cs);
    assert r == s[a..a + |r|];
  }

  /** The leading run of characters of `cs` is determined by where it stops. */
  lemma LeadInUnique(t: string, cs: set<char>, n: nat)
    requires n <= |t| && (forall k :: 0 <= k < n ==> t[k] in cs) && (n == |t| || t[n] !in cs)
    ensures LeadIn(t, cs) == n
  {
  }

  /** Stripping a string made only of characters of `cs` leaves nothing. */
  lemma StripSetAllIn(s: string, cs: set<char>)
    requires forall k :: 0 <= k < |s| ==> s[k] in cs
    ensures StripSet(s, cs) == []
  {
    LeadInUnique(s, cs, |s|);
  }

  /** A string with a character outside `cs` does not strip to nothing. */
  lemma StripSetNonEmpty(s: string, cs: set<char>, k: nat)
    requires k < |s| && s[k] !in cs
    ensures StripSet(s, cs) != []
  {
    var a := LeadIn(s, cs);
    assert AllIn(s[..a], cs) && AllIn(s[a + |StripSet(s, cs)|..], cs);
  }

  /** Substituting `c` for the characters of `bad` and then stripping those
      of `ws`: no character of `bad` is left, and a string made only of
      characters of `ws` strips to nothing. */
  lemma SubstituteStrip(s: string, bad: set<char>, c: char, ws: set<char>)
    requires c !in bad && bad !! ws
    ensures NoneIn(StripSet(Substitute(s, bad, c), ws), bad)
    ensures (forall k :: 0 <= k < |s| ==> s[k] in ws) ==> StripSet(Substitute(s, bad, c), ws) == []
  {
    var replaced := Substitute(s, bad, c);
    StripSetKeepsNoneIn(replaced, ws, bad);
    if forall k :: 0 <= k < |s| ==> s[k] in ws {
      assert forall k :: 0 <= k < |replaced| ==> replaced[k] == s[k];
      StripSetAllIn(replaced, ws);
    }
  }

  /** Substituting characters outside `ws` by a character outside `ws` keeps
      the leading run of `ws`. */
  lemma SubstituteLeadIn(s: string, bad: set<char>, c: char, ws: set<char>)
    requires c !in bad && c !in ws && bad !! ws
    ensures LeadIn(Substitute(s, bad, c), ws) == LeadIn(s, ws)
  {
    var r := Substitute(s, bad, c);
    var a := LeadIn(s, ws);
    forall k | 0 <= k < a ensures r[k] in ws {
      assert s[k] in ws && s[k] !in bad;
    }
    LeadInUnique(r, ws, a);
  }

  /** Substituting and then stripping keeps the substituted characters after
      the leading run of the original, in place. */
  lemma SubstituteStripIndex(s: string, bad: set<char>, c: char, ws: set<char>, k: nat)
    requires c !in bad && c !in ws && bad !! ws
    requires k < |StripSet(Substitute(s, bad, c), ws)|
    ensures LeadIn(s, ws) + k < |s|
    ensures StripSet(Substitute(s, bad, c), ws)[k] ==
            (if s[LeadIn(s, ws) + k] in bad then c else s[LeadIn(s, ws) + k])
  {
    SubstituteLeadIn(s, bad, c, ws);
    StripSetIndex(Substitute(s, bad, c), ws, k);
  }

  /** Substituting and then stripping: what is left is the original read
      from the end of its leading run, one character for one, and only
      characters of `ws` follow it. */
  lemma SubstituteStripOneForOne(s: string, bad: set<char>, c: char, ws: set<char>)
    requires c !in bad && c !in ws && bad !! ws
    ensures var r := StripSet(Substitute(s, bad, c), ws);
            var a := LeadIn(s, ws);
            ReplacedFrom(r, s, a, bad, c) && AllIn(s[..a], ws) && AllIn(s[a + |r|..], ws)
  {
    var r := StripSet(Substitute(s, bad, c), ws);
    var a := LeadIn(s, ws);
    SubstituteStripTail(s, bad, c, ws);
    forall k | 0 <= k < |r| ensures r[k] == (if s[a + k] in bad then c else s[a + k]) {
      SubstituteStripIndex(s, bad, c, ws, k);
    }
    forall k | 0 <= k < a ensures s[..a][k] in ws {
      assert s[..a][k] == s[k];
    }
  }

  /** Only characters of `ws` follow what is left of a substituted string
      after stripping. */
  lemma SubstituteStripTail(s: string, bad: set<char>, c: char, ws: set<char>)
    requires c !in bad && c !in ws && bad !! ws
    ensures var r := StripSet(Substitute(s, bad, c), ws);
            LeadIn(s, ws) + |r| <= |s| && AllIn(s[LeadIn(s, ws) + |r|..], ws)
  {
    var t := Substitute(s, bad, c);
    var r := StripSet(t, ws);
    var a := LeadIn(s, ws);
    SubstituteLeadIn(s, bad, c, ws);
    var tail := s[a + |r|..];
    forall j | 0 <= j < |tail| ensures tail[j] in ws {
      assert t[a + |r|..][j] == t[a + |r| + j];
    }
  }

  /** `[p.strip(chars) for p in pieces]`. */
  function StripEach(pieces: seq<string>, cs: set<char>): (r: seq<string>)
    ensures |r| == |pieces|
    ensures forall i :: 0 <= i < |r| ==> r[i] == StripSet(pieces[i], cs)
  {
    seq(|pieces|, i requires 0 <= i < |pieces| => StripSet(pieces[i], cs))
  }

  /** `[p.strip(chars) for p in pieces if p.strip(chars)]`. */
  method StripNonEmpty(pieces: seq<string>, cs: set<char>) returns (kept: seq<string>)
    ensures kept == Filter(StripEach(pieces, cs), NonEmpty)
  {
    kept := [];
    var i := 0;
    while i < |pieces|
      invariant 0 <= i <= |pieces|
      invariant kept == Filter(StripEach(pieces[..i], cs), NonEmpty)
    {
      var p := StripSet(pieces[i], cs);
      StripNonEmptyPrefix(pieces, cs, i);
      if p != [] {
        kept := kept + [p];
      }
      i := i + 1;
    }
    assert pieces[..i] == pieces;
  }

  lemma StripNonEmptyPrefix(pieces: seq<string>, cs: set<char>, i: nat)
    requires i < |pieces|
    ensures var p := StripSet(pieces[i], cs);
            Filter(StripEach(pieces[..i + 1], cs), NonEmpty) ==
            Filter(StripEach(pieces[..i], cs), NonEmpty) + (if p != [] then [p] else [])
  {
    StripEachPrefix(pieces, cs, i);
    FilterSnoc(StripEach(pieces[..i], cs), StripSet(pieces[i], cs), NonEmpty);
  }

  lemma StripEachPrefix(pieces: seq<string>, cs: set<char>, i: nat)
    requires i < |pieces|
    ensures StripEach(pieces[..i + 1], cs) == StripEach(pieces[..i], cs) + [StripSet(pieces[i], cs)]
  {
    var a := StripEach(pieces[..i + 1], cs);
    var b := StripEach(pieces[..i], cs) + [StripSet(pieces[i], cs)];
    assert |a| == |b|;
    forall k | 0 <= k < |a| ensures a[k] == b[k] {
      assert pieces[..i + 1][k] == pieces[k];
    }
  }

  /** The non-empty stripped strings start and end outside the stripped set. */
  lemma StrippedKeptEnds(pieces: seq<string>, cs: set<char>, t: string)
    requires t in Filter(StripEach(pieces, cs), NonEmpty)
    ensures t != [] && t[0] !in cs && t[|t| - 1] !in cs
  {
    var stripped := StripEach(pieces, cs);
    FilterMember(stripped, NonEmpty, t);
    var j :| 0 <= j < |stripped| && stripped[j] == t;
    assert t == StripSet(pieces[j], cs);
  }

  /** Stripping a string that has none of `cs` at either end changes nothing. */
  lemma StripSetFixed(s: string, cs: set<char>)
    requires s == [] || (s[0] !in cs && s[|s| - 1] !in cs)
    ensures StripSet(s, cs) == s
  {
  }

  /** Stripping what a strip left changes nothing. */
  lemma StripOfFixed(r: string, s: string, cs: set<char>)
    requires IsStripOf(r, s, cs)
    ensures StripSet(r, cs) == r
  {
    StripSetFixed(r, cs);
  }

  /** A character class that a string avoids is avoided by every slice of it. */
  lemma NoneInSlice(s: string, cs: set<char>, a: nat, b: nat)
    requires a <= b <= |s| && NoneIn(s, cs)
    ensures NoneIn(s[a..b], cs)
  {
  }

  /** Stripping keeps a string free of any class of characters it was free of. */
  lemma StripSetKeepsNoneIn(s: string, cs: set<char>, bad: set<char>)
    requires NoneIn(s, bad)
    ensures NoneIn(StripSet(s, cs), bad)
  {
    var r := StripSet(s, cs);
    var a := LeadIn(s, cs);
    NoneInSlice(s, bad, a, a + |r|);
  }

  /** Every character of `cs` deleted (`re.sub('[...]', '', s)` or
      `s.translate(str.maketrans('', '', chars))`). */
  function Delete(s: string, cs: set<char>): (r: string)
    ensures NoneIn(r, cs)
    ensures |r| <= |s|
    ensures forall c :: c in r <==> c in s && c !in cs
    decreases |s|
  {
    if s == [] then []
    else
      assert s == [s[0]] + s[1..];
      if s[0] in cs then Delete(s[1..], cs)
      else [s[0]] + Delete(s[1..], cs)
  }

  /** Deleting keeps exactly the characters outside `cs`, in order and with
      their multiplicity: it is the filter by "not in `cs`". */
  lemma {:induction false} DeleteIsFilter(s: string, cs: set<char>)
    ensures Delete(s, cs) == Filter(s, c => c !in cs)
    decreases |s|
  {
    if s != [] {
      DeleteIsFilter(s[1..], cs);
    }
  }

  /** Deleting character by character: one more character is kept exactly
      when it is outside `cs`. */
  lemma DeleteSnoc(s: string, c: char, cs: set<char>)
    ensures Delete(s + [c], cs) == Delete(s, cs) + (if c in cs then [] else [c])
  {
    DeleteIsFilter(s + [c], cs);
    DeleteIsFilter(s, cs);
    FilterSnoc(s, c, c => c !in cs);
  }

  /** Deleting characters a string does not contain changes nothing. */
  lemma {:induction false} DeleteAbsent(s: string, cs: set<char>)
    requires NoneIn(s, cs)
    ensures Delete(s, cs) == s
    decreases |s|
  {
    if s != [] {
      DeleteAbsent(s[1..], cs);
    }
  }

  /** Deleting every character a string is made of leaves nothing. */
  lemma {:induction false} DeleteAll(s: string, cs: set<char>)
    requires forall k :: 0 <= k < |s| ==> s[k] in cs
    ensures Delete(s, cs) == []
    decreases |s|
  {
    if s != [] {
      DeleteAll(s[1..], cs);
    }
  }

  /** Every character of `cs` replaced one-for-one by `c`
      (`re.sub('[...]', c, s)`). */
  function Substitute(s: string, cs: set<char>, c: char): (r: string)
    requires c !in cs
    ensures |r| == |s| && NoneIn(r, cs)
    ensures forall k :: 0 <= k < |s| ==> r[k] == (if s[k] in cs then c else s[k])
  {
    seq(|s|, k requires 0 <= k < |s| => if s[k] in cs then c else s[k])
  }

  /** A string in which `c` does not occur does not contain the one-character string `[c]`. */
  lemma NoneInNotContains(s: string, c: char)
    requires NoneIn(s, {c})
    ensures !Contains(s, [c])
  {
    forall j | 0 <= j && j + 1 <= |s| ensures !OccursAt(s, [c], j) {
      assert s[j..j + 1][0] == s[j];
    }
  }

  /** When `a` has no `c`, the first `c` in `a + [c] + b` is the one right after `a`. */
  lemma FindAfterClean(a: string, c: char, b: string)
    requires NoneIn(a, {c})
    ensures Find(a + [c] + b, [c]) == Some(|a|)
  {
    var s := a + [c] + b;
    assert s[|a|..|a| + 1] == [c];
    assert OccursAt(s, [c], |a|);
    var i := Find(s, [c]).value;
    assert s[i..i + 1] == [c];
    assert s[i] == c;
  }

  /** A string without the first character of `sep` does not contain `sep`. */
  lemma NoneInFirstNotContains(s: string, sep: string)
    requires sep != [] && NoneIn(s, {sep[0]})
    ensures !Contains(s, sep)
  {
    forall j | 0 <= j && j + |sep| <= |s| ensures !OccursAt(s, sep, j) {
      assert s[j..j + |sep|][0] == s[j];
    }
  }

  /** The first occurrence of `sep` right after a string without its first
      character is right there. */
  lemma FindAfterCleanSep(a: string, sep: string, b: string)
    requires sep != [] && NoneIn(a, {sep[0]})
    ensures Find(a + sep + b, sep) == Some(|a|)
  {
    var s := a + sep + b;
    assert s[|a|..|a| + |sep|] == sep;
    assert OccursAt(s, sep, |a|);
    var i := Find(s, sep).value;
    assert s[i..i + |sep|][0] == s[i];
  }

  /** Splitting at the first occurrence of the separator. */
  lemma SplitAtFirst(s: string, sep: string, i: nat)
    requires sep != [] && Find(s, sep) == Some(i)
    ensures Split(s, sep) == [s[..i]] + Split(s[i + |sep|..], sep)
  {
  }

  /** Splitting undoes joining with the same separator, provided no piece
      holds the separator's first character. */
  lemma {:induction false} SplitJoin(pieces: seq<string>, sep: string)
    requires |pieces| >= 1 && sep != []
    requires forall k :: 0 <= k < |pieces| ==> NoneIn(pieces[k], {sep[0]})
    ensures Split(Join(pieces, sep), sep) == pieces
    decreases |pieces|
  {
    if |pieces| == 1 {
      NoneInFirstNotContains(pieces[0], sep);
      SplitAbsent(pieces[0], sep);
    } else {
      var rest := Join(pieces[1..], sep);
      var s := pieces[0] + sep + rest;
      assert Join(pieces, sep) == s;
      FindAfterCleanSep(pieces[0], sep, rest);
      assert s[..|pieces[0]|] == pieces[0];
      assert s[|pieces[0]| + |sep|..] == rest;
      SplitAtFirst(s, sep, |pieces[0]|);
      SplitJoin(pieces[1..], sep);
      assert pieces == [pieces[0]] + pieces[1..];
    }
  }

  /** Joining pieces that avoid a class of characters, with a separator that
      avoids it too, gives a string that avoids it. */
  lemma {:induction false} JoinNoneIn(pieces: seq<string>, sep: string, cs: set<char>)
    requires NoneIn(sep, cs)
    requires forall k :: 0 <= k < |pieces| ==> NoneIn(pieces[k], cs)
    ensures NoneIn(Join(pieces, sep), cs)
    decreases |pieces|
  {
    if |pieces| > 1 {
      JoinNoneIn(pieces[1..], sep, cs);
    }
  }

  /** A class of characters avoided by two strings is avoided by their concatenation. */
  lemma NoneInConcat(a: string, b: string, cs: set<char>)
    requires NoneIn(a, cs) && NoneIn(b, cs)
    ensures NoneIn(a + b, cs)
  {
  }

  /** `sep.join([a, b, c])`. */
  lemma JoinThree(a: string, b: string, c: string, sep: string)
    ensures Join([a, b, c], sep) == a + sep + (b + sep + c)
  {
    assert Join([b, c], sep) == b + sep + c;
    assert [a, b, c][1..] == [b, c];
  }

  /** A string that does not contain `[c]` has no character `c`. */
  lemma NotContainsNoneIn(s: string, c: char)
    requires !Contains(s, [c])
    ensures NoneIn(s, {c})
  {
    forall k | 0 <= k < |s| ensures s[k] != c {
      assert s[k..k + 1] == [s[k]];
      assert !OccursAt(s, [c], k);
    }
  }

  /** A join ends with its last piece. */
  lemma {:induction false} JoinEndsWithLast(pieces: seq<string>, sep: string)
    requires |pieces| >= 1
    ensures EndsWith(Join(pieces, sep), pieces[|pieces| - 1])
    decreases |pieces|
  {
    if |pieces| > 1 {
      JoinEndsWithLast(pieces[1..], sep);
      var j := Join(pieces[1..], sep);
      var last := pieces[|pieces| - 1];
      assert pieces[1..][|pieces[1..]| - 1] == last;
      assert Join(pieces, sep) == pieces[0] + sep + j;
      assert j[|j| - |last|..] == last;
      assert (pieces[0] + sep + j)[|pieces[0] + sep + j| - |last|..] == j[|j| - |last|..];
    }
  }

  /** Each line followed by `end`, in order: what a loop writing
      `line + end` for every line leaves in a file opened with 'w'. */
  function Terminated(lines: seq<string>, end: string): (r: string)
    decreases |lines|
  {
    if lines == [] then ""
    else Terminated(lines[..|lines| - 1], end) + lines[|lines| - 1] + end
  }

  lemma TerminatedSnoc(lines: seq<string>, line: string, end: string)
    ensures Terminated(lines + [line], end) == Terminated(lines, end) + line + end
  {
    assert (lines + [line])[..|lines|] == lines;
  }

  /** Writing two batches of lines one after the other writes their concatenation. */
  lemma {:induction false} TerminatedAppend(a: seq<string>, b: seq<string>, end: string)
    ensures Terminated(a + b, end) == Terminated(a, end) + Terminated(b, end)
    decreases |b|
  {
    if b == [] {
      assert a + b == a;
    } else {
      var n := |b| - 1;
      var front := b[..n];
      TerminatedAppend(a, front, end);
      assert a + b == (a + front) + [b[n]];
      assert b == front + [b[n]];
      TerminatedSnoc(a + front, b[n], end);
      TerminatedSnoc(front, b[n], end);
      AppendAssoc(Terminated(a, end), Terminated(front, end), b[n]);
      AppendAssoc(Terminated(a, end), Terminated(front, end) + b[n], end);
    }
  }

  /** The first line and its terminator come first. */
  lemma TerminatedCons(line: string, lines: seq<string>, end: string)
    ensures Terminated([line] + lines, end) == line + end + Terminated(lines, end)
  {
    TerminatedAppend([line], lines, end);
    TerminatedSnoc([], line, end);
    assert [] + [line] == [line];
  }

  /** Reading back lines terminated by a character none of them contains:
      splitting on it gives the lines and one empty piece after the last
      terminator. */
  lemma {:induction false} SplitTerminated(lines: seq<string>, c: char)
    requires forall k :: 0 <= k < |lines| ==> NoneIn(lines[k], {c})
    ensures Split(Terminated(lines, [c]), [c]) == lines + [""]
    decreases |lines|
  {
    if lines == [] {
      assert Find("", [c]).None?;
    } else {
      var rest := Terminated(lines[1..], [c]);
      assert lines == [lines[0]] + lines[1..];
      TerminatedCons(lines[0], lines[1..], [c]);
      var s := lines[0] + [c] + rest;
      FindAfterClean(lines[0], c, rest);
      assert s[..|lines[0]|] == lines[0];
      assert s[|lines[0]| + 1..] == rest;
      SplitTerminated(lines[1..], c);
      assert Split(s, [c]) == [lines[0]] + Split(rest, [c]);
    }
  }

  /** No proper suffix of `p` is also a prefix of it, so two occurrences of
      `p` never overlap. */
  predicate Unbordered(p: string)
  {
    forall d :: 0 < d < |p| ==> p[d..] != p[..|p| - d]
  }

  /** Two occurrences of an unbordered pattern never overlap. */
  lemma UnborderedApart(s: string, sep: string, i: int, m: int)
    requires Unbordered(sep) && OccursAt(s, sep, i) && OccursAt(s, sep, m) && i <= m
    ensures i == m || i + |sep| <= m
  {
    // Were they to overlap, the overlap would be both a suffix and a prefix
    // of `sep`.
    var d := if m - i <= |sep| then m - i else |sep|;
    var hi := if m <= i + |sep| then i + |sep| else m;
    var overlap, suffix, prefix := s[m..hi], sep[d..], sep[..|sep| - d];
    assert i < m < i + |sep| ==> overlap == suffix && overlap == prefix;
  }

  /** Splitting a string that ends with an unbordered separator gives at
      least two pieces, the last of them empty. */
  lemma {:induction false} SplitEndsEmpty(s: string, sep: string)
    requires sep != [] && Unbordered(sep) && EndsWith(s, sep)
    ensures |Split(s, sep)| >= 2 && Split(s, sep)[|Split(s, sep)| - 1] == []
    decreases |s|
  {
    var m := |s| - |sep|;
    assert OccursAt(s, sep, m);
    var i := Find(s, sep).value;
    assert i <= m;
    UnborderedApart(s, sep, i, m);
    var rest := s[i + |sep|..];
    var tail := Split(rest, sep);
    if i == m {
      assert rest == [];
      assert tail == [[]];
    } else {
      assert rest[|rest| - |sep|..] == s[m..];
      SplitEndsEmpty(rest, sep);
    }
    SplitAtFirst(s, sep, i);
    var whole := [s[..i]] + tail;
    assert Split(s, sep) == whole;
    assert |tail| >= 1 && tail[|tail| - 1] == [];
    assert whole[|whole| - 1] == tail[|tail| - 1];
  }

  /** Replacing an unbordered pattern that ends the string leaves the
      replacement at the end. */
  lemma ReplaceEndsWith(s: string, pat: string, rep: string)
    requires pat != [] && Unbordered(pat) && EndsWith(s, pat)
    ensures EndsWith(Replace(s, pat, rep), rep)
  {
    SplitEndsEmpty(s, pat);
    JoinEndsWithSep(Split(s, pat), rep);
  }

  /** Two or more pieces, the last empty, join to a string ending with the
      separator. */
  lemma {:induction false} JoinEndsWithSep(pieces: seq<string>, sep: string)
    requires |pieces| >= 2 && pieces[|pieces| - 1] == []
    ensures EndsWith(Join(pieces, sep), sep)
    decreases |pieces|
  {
    var tail := pieces[1..];
    assert pieces == [pieces[0]] + tail;
    JoinCons(pieces[0], tail, sep);
    if |pieces| == 2 {
      assert Join(tail, sep) == [];
    } else {
      var t := Join(tail, sep);
      JoinEndsWithSep(tail, sep);
      EndsWithAppend(pieces[0] + sep, t, sep);
    }
  }

  /** A suffix of the second part is a suffix of the whole. */
  lemma EndsWithAppend(a: string, b: string, p: string)
    requires EndsWith(b, p)
    ensures EndsWith(a + b, p)
  {
    assert (a + b)[|a + b| - |p|..] == b[|b| - |p|..];
  }
}

=== FILE: scholar.dfy ===
/**
 * Projekt/scholar.py: Google Scholar results are paged ten at a time, each
 * article page is scanned for links ending in ".pdf", and each link is
 * downloaded into scholar_pdf/ under a name made from the article title.
 * The scholarly result stream, the HTTP requests, HTML parsing and URL
 * resolution are inputs.
 */
module Scholar {
  import opened Base
  import opened PyStr
  import opened PyChars
  import opened PyNum
  import opened Fs
  import opened Http
  import opened Html

  /** Characters `sanitize_filename` replaces by '_'. */
  const Forbidden: set<char> := {'<', '>', ':', '"', '/', '\\', '|', '?', '*'}

  /** '_', which stands in for forbidden characters, is not one of them. */
  lemma UnderscoreAllowed()
    ensures '_' !in Forbidden
  {
  }

  /** Characters `sanitize_filename` strips from both ends. */
  const DotSpace: set<char> := {'.', ' '}

  /** No forbidden character is stripped. */
  lemma ForbiddenNotDotSpace()
    ensures Forbidden !! DotSpace
  {
  }

  const MaxNameLength: nat := 100

  const Untitled: string := "untitled"

  /** `sanitize_filename`: forbidden characters become '_', dots and spaces
      are stripped from both ends, and the result is cut to 100 characters,
      with "untitled" standing in for a name that stripping empties. */
  function SanitizeFilename(filename: string): (r: string)
    ensures 0 < |r| <= MaxNameLength
    ensures NoneIn(r, Forbidden)
    ensures r[0] !in DotSpace
    ensures AllIn(filename, DotSpace) ==> r == Untitled
  {
    UnderscoreAllowed();
    ForbiddenNotDotSpace();
    var s := StripSet(Substitute(filename, Forbidden, '_'), DotSpace);
    SubstituteStrip(filename, Forbidden, '_', DotSpace);
    if s == [] then Untitled
    else
      var n := if |s| <= MaxNameLength then |s| else MaxNameLength;
      NoneInSlice(s, Forbidden, 0, n);
      s[..n]
  }

  /** `r` is the name read from its `a`-th character, one character for one
      with '_' in place of each forbidden character, cut where the name ends
      up to trailing dots and spaces or at 100 characters: when shorter than
      the limit it ends in neither a dot nor a space and only dots and spaces
      follow it in the name, and when it reaches the limit something other
      than a dot or a space comes at or after its last character. */
  predicate IsCutCopy(r: string, filename: string, a: nat)
  {
    0 < |r| <= MaxNameLength && ReplacedFrom(r, filename, a, Forbidden, '_') &&
    (|r| < MaxNameLength ==> r[|r| - 1] !in DotSpace && AllIn(filename[a + |r|..], DotSpace)) &&
    (|r| == MaxNameLength ==> !AllIn(filename[a + MaxNameLength - 1..], DotSpace))
  }

  /** Read against the name itself: past its leading dots and spaces, the
      sanitized name is the cut copy of the name. */
  lemma SanitizeOneForOne(filename: string)
    ensures LeadIn(filename, DotSpace) < |filename| ==>
              IsCutCopy(SanitizeFilename(filename), filename, LeadIn(filename, DotSpace))
  {
    UnderscoreAllowed();
    var s := StripSet(Substitute(filename, Forbidden, '_'), DotSpace);
    var a := LeadIn(filename, DotSpace);
    if a < |filename| {
      StrippedOneForOne(filename);
      // the let-bound facts about `s`, one by one, for CutOneForOne
      assert s != [];
      assert s[|s| - 1] !in DotSpace;
      assert ReplacedFrom(s, filename, a, Forbidden, '_');
      assert AllIn(filename[a + |s|..], DotSpace);
      CutOneForOne(SanitizeFilename(filename), s, filename, a);
    }
  }

  /** There is only one cut copy of a name from a given place, so the cut
      copy pins the sanitized name down. */
  lemma {:induction false} CutCopyUnique(r1: string, r2: string, filename: string, a: nat)
    requires IsCutCopy(r1, filename, a) && IsCutCopy(r2, filename, a)
    ensures r1 == r2
  {
    CutCopyNotShorter(r1, r2, filename, a);
    CutCopyNotShorter(r2, r1, filename, a);
    forall k | 0 <= k < |r1|
      ensures r1[k] == r2[k]
    {
    }
  }

  /** A cut copy leaves no room for a longer one. */
  lemma CutCopyNotShorter(r1: string, r2: string, filename: string, a: nat)
    requires IsCutCopy(r1, filename, a) && IsCutCopy(r2, filename, a)
    ensures |r2| <= |r1|
  {
    if |r1| < |r2| {
      ForbiddenNotDotSpace();
      var tail := filename[a + |r1|..];
      assert tail[|r2| - 1 - |r1|] == filename[a + |r2| - 1];
      if |r2| == MaxNameLength {
        var rest := filename[a + MaxNameLength - 1..];
        forall k | 0 <= k < |rest|
          ensures rest[k] in DotSpace
        {
          assert rest[k] == tail[k + MaxNameLength - 1 - |r1|];
        }
      }
    }
  }

  /** The cut to 100 characters keeps a one-for-one copy one-for-one, and
      tells where in the name the cut copy ends. */
  lemma CutOneForOne(r: string, s: string, filename: string, a: nat)
    requires ReplacedFrom(s, filename, a, Forbidden, '_')
    requires s != [] && s[|s| - 1] !in DotSpace && AllIn(filename[a + |s|..], DotSpace)
    requires r == if |s| <= MaxNameLength then s else s[..MaxNameLength]
    ensures IsCutCopy(r, filename, a)
  {
    if |s| >= MaxNameLength {
      ReplacedEndsBeyond(s, filename, a, MaxNameLength);
      ReplacedFromPrefix(s, filename, a, Forbidden, '_', MaxNameLength);
    }
  }

  /** Before the cut to 100 characters: a name with something past its
      leading dots and spaces strips to a non-empty copy of it. */
  lemma StrippedOneForOne(filename: string)
    requires LeadIn(filename, DotSpace) < |filename|
    ensures var s := StripSet(Substitute(filename, Forbidden, '_'), DotSpace);
            var a := LeadIn(filename, DotSpace);
            s != [] && s[|s| - 1] !in DotSpace &&
            ReplacedFrom(s, filename, a, Forbidden, '_') && AllIn(filename[a + |s|..], DotSpace)
  {
    UnderscoreAllowed();
    ForbiddenNotDotSpace();
    SubstituteStripOneForOne(filename, Forbidden, '_', DotSpace);
  }

  /** A replaced copy that ends in neither a dot nor a space still sees,
      in the name, a character other than those at its last place, so at or
      after any of its places. */
  lemma ReplacedEndsBeyond(s: string, filename: string, a: nat, n: nat)
    requires ReplacedFrom(s, filename, a, Forbidden, '_')
    requires 0 < n <= |s| && s[|s| - 1] !in DotSpace
    ensures a + n <= |filename|
    ensures !AllIn(filename[a + n - 1..], DotSpace)
  {
    ForbiddenNotDotSpace();
    var last := filename[a + |s| - 1];
    assert s[|s| - 1] == (if last in Forbidden then '_' else last);
    assert last !in DotSpace;
    var tail := filename[a + n - 1..];
    assert tail[|s| - n] == last;
  }

  /** A name that is already safe (non-empty, short enough, no forbidden
      character, no dot or space at either end) is kept as it is. */
  lemma SanitizeKeepsSafeName(filename: string)
    requires 0 < |filename| <= MaxNameLength
    requires NoneIn(filename, Forbidden)
    requires filename[0] !in DotSpace && filename[|filename| - 1] !in DotSpace
    ensures SanitizeFilename(filename) == filename
  {
    UnderscoreAllowed();
    var replaced := Substitute(filename, Forbidden, '_');
    assert replaced == filename;
    StripSetFixed(filename, DotSpace);
  }

  // ---------------------------------------------------------------------
  // search_articles: the ten-result window of a page

  /** Index of the first result on page `page` (1-based). */
  function PageStart(page: int): int { (page - 1) * 10 }

  function Clamp(x: int, n: nat): (r: nat)
    ensures r <= n
  {
    if x < 0 then 0 else if x > n then n else x
  }

  /** The results that page `page` shows: those with stream index in
      [(page-1)*10, (page-1)*10 + 10). */
  function Window<T>(stream: seq<T>, page: int): (r: seq<T>)
    ensures |r| <= 10
    ensures forall k :: 0 <= k < |r| ==> 0 <= PageStart(page) + k < |stream| && r[k] == stream[PageStart(page) + k]
    ensures page >= 1 ==> |r| == (if PageStart(page) >= |stream| then 0
                                  else if |stream| - PageStart(page) < 10 then |stream| - PageStart(page)
                                  else 10)
  {
    stream[Clamp(PageStart(page), |stream|)..Clamp(PageStart(page) + 10, |stream|)]
  }

  /** `search_articles(query, page)`: skips the results before the page,
      stops at the first result after it. */
  method SearchArticles<T>(stream: seq<T>, page: int) returns (results: seq<T>)
    ensures results == Window(stream, page)
  {
    results := [];
    var start := (page - 1) * 10;
    var end := start + 10;
    ghost var lo := Clamp(start, |stream|);
    var i := 0;
    while i < |stream|
      invariant 0 <= i <= |stream|
      invariant i == 0 || i <= end
      invariant results == (if i <= lo then [] else stream[lo..i])
    {
      if i < start {
        i := i + 1;
        continue;
      }
      if i >= end {
        break;
      }
      assert stream[lo..i + 1] == (if i <= lo then [] else stream[lo..i]) + [stream[i]];
      results := results + [stream[i]];
      i := i + 1;
    }
  }

  /** Pages 1..p together show the first p*10 results, in order. */
  lemma {:induction false} WindowsTile<T>(stream: seq<T>, p: nat)
    ensures Concat(seq(p, k requires 0 <= k < p => Window(stream, k + 1))) == stream[..Clamp(p * 10, |stream|)]
  {
    if p > 0 {
      var ws := seq(p, k requires 0 <= k < p => Window(stream, k + 1));
      var prev := seq(p - 1, k requires 0 <= k < p - 1 => Window(stream, k + 1));
      assert ws == prev + [Window(stream, p)];
      ConcatSnoc(prev, Window(stream, p));
      WindowsTile(stream, p - 1);
      assert Window(stream, p) == stream[Clamp((p - 1) * 10, |stream|)..Clamp(p * 10, |stream|)];
      PrefixSplit(stream, Clamp((p - 1) * 10, |stream|), Clamp(p * 10, |stream|));
    }
  }

  /** Once a page is empty every later page is empty too, so stopping the
      page loop at the first empty page loses no result. */
  lemma EmptyPageStaysEmpty<T>(stream: seq<T>, p: int, q: int)
    requires 1 <= p <= q && Window(stream, p) == []
    ensures Window(stream, q) == []
  {
  }

  // ---------------------------------------------------------------------
  // find_pdf_links

  predicate IsPdfHref(href: string) { EndsWith(Lower(href), ".pdf") }

  /** A relative link is resolved against the article URL; one that starts
      with "http" is kept verbatim. */
  function Resolve(articleUrl: string, href: string, urljoin: (string, string) -> string): string
  {
    if StartsWith(href, "http") then href else urljoin(articleUrl, href)
  }

  /** The links `find_pdf_links` returns for a page whose hrefs are `hrefs`. */
  function PdfLinks(hrefs: seq<string>, articleUrl: string, urljoin: (string, string) -> string): (r: seq<string>)
    ensures |r| == |Filter(hrefs, IsPdfHref)|
  {
    var kept := Filter(hrefs, IsPdfHref);
    seq(|kept|, k requires 0 <= k < |kept| => Resolve(articleUrl, kept[k], urljoin))
  }

  /** One more href adds its resolved link exactly when it ends in ".pdf". */
  lemma PdfLinksSnoc(hrefs: seq<string>, h: string, articleUrl: string, urljoin: (string, string) -> string)
    ensures PdfLinks(hrefs + [h], articleUrl, urljoin) ==
            PdfLinks(hrefs, articleUrl, urljoin) + (if IsPdfHref(h) then [Resolve(articleUrl, h, urljoin)] else [])
  {
    var kept := Filter(hrefs, IsPdfHref);
    var last := Filter([h], IsPdfHref);
    FilterAppend(hrefs, [h], IsPdfHref);
    assert last == (if IsPdfHref(h) then [h] else []) + Filter([], IsPdfHref);
    var whole := PdfLinks(hrefs + [h], articleUrl, urljoin);
    var front := PdfLinks(hrefs, articleUrl, urljoin);
    var extra := if IsPdfHref(h) then [Resolve(articleUrl, h, urljoin)] else [];
    assert |whole| == |front| + |extra|;
    forall k | 0 <= k < |whole| ensures whole[k] == (front + extra)[k] {
      if k < |front| {
        assert whole[k] == Resolve(articleUrl, (kept + last)[k], urljoin);
      }
    }
  }

  /** Exactly the `.pdf` hrefs, in their order, are kept and resolved. */
  lemma PdfLinksExactly(hrefs: seq<string>, articleUrl: string, urljoin: (string, string) -> string)
    ensures forall h :: h in hrefs && IsPdfHref(h) ==> Resolve(articleUrl, h, urljoin) in PdfLinks(hrefs, articleUrl, urljoin)
    ensures forall l :: l in PdfLinks(hrefs, articleUrl, urljoin) ==>
              exists h :: h in hrefs && IsPdfHref(h) && l == Resolve(articleUrl, h, urljoin)
  {
    var kept := Filter(hrefs, IsPdfHref);
    var links := PdfLinks(hrefs, articleUrl, urljoin);
    forall h | h in hrefs && IsPdfHref(h)
      ensures Resolve(articleUrl, h, urljoin) in links
    {
      FilterKeeps(hrefs, IsPdfHref, h);
      var k :| 0 <= k < |kept| && kept[k] == h;
      assert links[k] == Resolve(articleUrl, h, urljoin);
    }
    forall l | l in links
      ensures exists h :: h in hrefs && IsPdfHref(h) && l == Resolve(articleUrl, h, urljoin)
    {
      var k :| 0 <= k < |links| && links[k] == l;
      assert kept[k] in multiset(kept);
      assert kept[k] in hrefs;
    }
  }

  /** `find_pdf_links(article_url)`: any failure of the request or of
      `raise_for_status` gives no links. */
  method FindPdfLinks(articleUrl: string, response: Response, parse: seq<byte> -> seq<Node>,
                      urljoin: (string, string) -> string) returns (links: seq<string>)
    ensures !Succeeds(response) ==> links == []
    ensures Succeeds(response) ==> links == PdfLinks(Hrefs(FindAll(parse(response.body), "a")), articleUrl, urljoin)
  {
    if !Succeeds(response) {
      return [];
    }
    var hrefs := Hrefs(FindAll(parse(response.body), "a"));
    links := [];
    var i := 0;
    while i < |hrefs|
      invariant 0 <= i <= |hrefs|
      invariant links == PdfLinks(hrefs[..i], articleUrl, urljoin)
    {
      var href := hrefs[i];
      PdfLinksSnoc(hrefs[..i], href, articleUrl, urljoin);
      assert hrefs[..i + 1] == hrefs[..i] + [href];
      if EndsWith(Lower(href), ".pdf") {
        if !StartsWith(href, "http") {
          href := urljoin(articleUrl, href);
        }
        links := links + [href];
      }
      i := i + 1;
    }
    assert hrefs[..i] == hrefs;
  }

  // ---------------------------------------------------------------------
  // download_pdf

  /** A streamed answer to a PDF request: a transport failure, or a status,
      the Content-Type header, the chunks `iter_content` delivered, and
      whether the stream ended normally or broke after those chunks. */
  datatype PdfResponse =
    | Unreachable
    | Streamed(status: int, contentType: Option<string>, chunks: seq<seq<byte>>, complete: bool)

  /** The bytes `%PDF` that open every PDF file. */
  const PdfMagic: seq<byte> := [0x25, 0x50, 0x44, 0x46]

  /** The first four bytes read back from the file are `%PDF`. */
  predicate HasPdfHeader(content: seq<byte>) { |content| >= 4 && content[..4] == PdfMagic }

  datatype Verdict = Saved | WrongContentType | NotPdf | Failed

  function HeaderValue(h: Option<string>): string
  {
    match h case Some(v) => v case None => ""
  }

  /** What `download_pdf` decides about one response. */
  function DownloadVerdict(resp: PdfResponse): (v: Verdict)
    ensures v == Saved ==> resp.Streamed? && !IsHttpError(resp.status) && resp.complete
    ensures v == Saved ==> Contains(Lower(HeaderValue(resp.contentType)), "application/pdf")
    ensures v == Saved ==> HasPdfHeader(Concat(resp.chunks))
    ensures v == WrongContentType ==> resp.Streamed? && !Contains(Lower(HeaderValue(resp.contentType)), "application/pdf")
    ensures resp.Unreachable? || (resp.Streamed? && IsHttpError(resp.status)) ==> v == Failed
  {
    match resp
    case Unreachable => Failed
    case Streamed(status, contentType, chunks, complete) =>
      if IsHttpError(status) then Failed
      else if !Contains(Lower(HeaderValue(contentType)), "application/pdf") then WrongContentType
      else if !complete then Failed
      else if HasPdfHeader(Concat(chunks)) then Saved
      else NotPdf
  }

  /** The disk after `download_pdf(url, filename)`: a saved file holds the
      whole body; a wrong content type touches nothing; any other failure
      leaves no file at `filename`. */
  function AfterDownload(files: map<string, seq<byte>>, filename: string, resp: PdfResponse): map<string, seq<byte>>
  {
    match DownloadVerdict(resp)
    case Saved => files[filename := Concat(resp.chunks)]
    case WrongContentType => files
    case NotPdf => files - {filename}
    case Failed => files - {filename}
  }

  /** A download never touches another file, and a file it creates or
      changes always starts with `%PDF`. */
  lemma DownloadKeepsOnlyPdfs(files: map<string, seq<byte>>, filename: string, resp: PdfResponse)
    ensures forall p :: p != filename ==> (p in AfterDownload(files, filename, resp) <==> p in files)
    ensures forall p :: p != filename && p in files ==> AfterDownload(files, filename, resp)[p] == files[p]
    ensures var after := AfterDownload(files, filename, resp);
            filename in after && (filename !in files || after[filename] != files[filename]) ==>
              HasPdfHeader(after[filename])
    ensures DownloadVerdict(resp) != WrongContentType && DownloadVerdict(resp) != Saved ==>
              filename !in AfterDownload(files, filename, resp)
  {
  }

  /** The streaming loop of `download_pdf`: each non-empty chunk is written
      in turn, so the file ends with all the chunks, in order. */
  method WriteChunks(disk: Disk<byte>, filename: string, chunks: seq<seq<byte>>)
    requires filename in disk.files
    modifies disk
    ensures disk.files == old(disk.files)[filename := old(disk.files[filename]) + Concat(chunks)]
  {
    ghost var start := disk.files[filename];
    assert chunks[..0] == [];
    assert start + Concat(chunks[..0]) == start;
    assert disk.files == disk.files[filename := start];
    var i := 0;
    while i < |chunks|
      invariant 0 <= i <= |chunks|
      invariant disk.files == old(disk.files)[filename := start + Concat(chunks[..i])]
    {
      var chunk := chunks[i];
      assert chunks[..i + 1] == chunks[..i] + [chunk];
      ConcatSnoc(chunks[..i], chunk);
      assert disk.Read(filename) == start + Concat(chunks[..i]);
      if chunk != [] {
        ghost var before := disk.files;
        disk.Write(filename, chunk);
        assert disk.files == before[filename := start + Concat(chunks[..i]) + chunk];
        assert start + Concat(chunks[..i]) + chunk == start + Concat(chunks[..i + 1]);
        assert before[filename := start + Concat(chunks[..i + 1])] ==
               old(disk.files)[filename := start + Concat(chunks[..i + 1])];
      } else {
        assert Concat(chunks[..i + 1]) == Concat(chunks[..i]) + [];
        assert start + Concat(chunks[..i + 1]) == start + Concat(chunks[..i]);
      }
      i := i + 1;
    }
    assert chunks[..i] == chunks;
  }

  /** `download_pdf(pdf_url, filename)` against a disk. */
  method DownloadPdf(disk: Disk<byte>, resp: PdfResponse, filename: string) returns (verdict: Verdict)
    modifies disk
    ensures verdict == DownloadVerdict(resp)
    ensures disk.files == AfterDownload(old(disk.files), filename, resp)
  {
    verdict := DownloadVerdict(resp);
    if resp.Unreachable? || IsHttpError(resp.status) {
      if filename in disk.files {
        disk.Remove(filename);
      }
      return;
    }
    var contentType := Lower(HeaderValue(resp.contentType));
    if !Contains(contentType, "application/pdf") {
      return;
    }
    SaveStream(disk, resp, filename);
  }

  /** Comparing the first (at most) four bytes with `%PDF` is the header test. */
  lemma HeaderCheck(content: seq<byte>)
    ensures (if |content| <= 4 then content else content[..4]) == PdfMagic <==> HasPdfHeader(content)
  {
  }

  /** What a response with a PDF Content-Type leaves on the disk. */
  lemma StreamOutcome(files: map<string, seq<byte>>, filename: string, resp: PdfResponse)
    requires resp.Streamed? && !IsHttpError(resp.status)
    requires Contains(Lower(HeaderValue(resp.contentType)), "application/pdf")
    ensures !resp.complete ==> AfterDownload(files, filename, resp) == files[filename := Concat(resp.chunks)] - {filename}
    ensures resp.complete && !HasPdfHeader(Concat(resp.chunks)) ==>
              AfterDownload(files, filename, resp) == files[filename := Concat(resp.chunks)] - {filename}
    ensures resp.complete && HasPdfHeader(Concat(resp.chunks)) ==>
              AfterDownload(files, filename, resp) == files[filename := Concat(resp.chunks)]
  {
    UpdateThenRemove(files, filename, Concat(resp.chunks));
  }

  /** The part of `download_pdf` after the Content-Type check: the chunks are
      streamed into the file, which is removed again when the stream broke
      or the file does not start with `%PDF`. */
  method SaveStream(disk: Disk<byte>, resp: PdfResponse, filename: string)
    requires resp.Streamed? && !IsHttpError(resp.status)
    requires Contains(Lower(HeaderValue(resp.contentType)), "application/pdf")
    modifies disk
    ensures disk.files == AfterDownload(old(disk.files), filename, resp)
  {
    ghost var start := disk.files;
    ghost var body := Concat(resp.chunks);
    disk.Create(filename);
    WriteChunks(disk, filename, resp.chunks);
    assert [] + body == body;
    ghost var written := start[filename := body];
    assert disk.files == written;
    StreamOutcome(start, filename, resp);
    if !resp.complete {
      disk.Remove(filename);
      assert disk.files == written - {filename};
      return;
    }
    var content := disk.Read(filename);
    assert content == body;
    var header := if |content| <= 4 then content else content[..4];
    HeaderCheck(content);
    if header != PdfMagic {
      disk.Remove(filename);
      assert disk.files == written - {filename};
      return;
    }
  }

  // ---------------------------------------------------------------------
  // main: keywords, page count, article URL and file names

  /** The keywords typed at the prompt: the input is stripped and split on
      ',', every piece stripped, empty pieces dropped. */
  function ParseKeywords(line: string): (r: seq<string>)
    ensures forall k :: 0 <= k < |r| ==> IsKeyword(r[k])
  {
    var pieces := Split(StripSet(line, Whitespace), ",");
    var stripped := StripEach(pieces, Whitespace);
    var r := Filter(stripped, NonEmpty);
    assert forall k :: 0 <= k < |r| ==> IsKeyword(r[k]) by {
      forall k | 0 <= k < |r| ensures IsKeyword(r[k]) {
        var t := r[k];
        StrippedKeptEnds(pieces, Whitespace, t);
        FilterMember(stripped, NonEmpty, t);
        var i :| 0 <= i < |stripped| && stripped[i] == t;
        NotContainsNoneIn(pieces[i], ',');
        StripSetKeepsNoneIn(pieces[i], Whitespace, {','});
      }
    }
    r
  }

  /** The two statements that read the keywords: the line is stripped and
      split on ',', then `[k.strip() for k in keywords if k.strip()]`. */
  method ReadKeywords(line: string) returns (keywords: seq<string>)
    ensures keywords == ParseKeywords(line)
  {
    var pieces := Split(StripSet(line, Whitespace), ",");
    keywords := StripNonEmpty(pieces, Whitespace);
  }

  /** Keywords are stripped, non-empty and comma-free. */
  predicate IsKeyword(k: string)
  {
    k != [] && NoneIn(k, {','}) && k[0] !in Whitespace && k[|k| - 1] !in Whitespace
  }

  /** Typing keywords separated by commas gives back exactly those keywords. */
  lemma ParseKeywordsOfJoin(keywords: seq<string>)
    requires forall k :: 0 <= k < |keywords| ==> IsKeyword(keywords[k])
    ensures ParseKeywords(Join(keywords, ",")) == keywords
  {
    if keywords == [] {
      ParseKeywordsOfEmpty();
    } else {
      var line := Join(keywords, ",");
      KeywordsUnpadded(keywords);
      KeywordsSplit(keywords);
      ParseKeywordsOfPieces(line, keywords);
    }
  }

  /** A comma-joined list of keywords has nothing to strip. */
  lemma KeywordsUnpadded(keywords: seq<string>)
    requires |keywords| >= 1
    requires forall k :: 0 <= k < |keywords| ==> IsKeyword(keywords[k])
    ensures StripSet(Join(keywords, ","), Whitespace) == Join(keywords, ",")
  {
    assert IsKeyword(keywords[0]) && IsKeyword(keywords[|keywords| - 1]);
    JoinStripped(keywords);
  }

  /** A comma-joined list of keywords splits back into the keywords. */
  lemma KeywordsSplit(keywords: seq<string>)
    requires |keywords| >= 1
    requires forall k :: 0 <= k < |keywords| ==> IsKeyword(keywords[k])
    ensures Split(Join(keywords, ","), ",") == keywords
  {
    SplitJoin(keywords, [',']);
  }

  /** Keywords joined by commas have nothing to strip when the first
      keyword starts, and the last one ends, with a non-blank character. */
  lemma JoinStripped(keywords: seq<string>)
    requires |keywords| >= 1 && forall k :: 0 <= k < |keywords| ==> keywords[k] != []
    requires keywords[0][0] !in Whitespace
    requires keywords[|keywords| - 1][|keywords[|keywords| - 1]| - 1] !in Whitespace
    ensures StripSet(Join(keywords, ","), Whitespace) == Join(keywords, ",")
  {
    JoinEnds(keywords);
    StripUnpadded(Join(keywords, ","));
  }

  lemma StripUnpadded(line: string)
    requires line != [] && line[0] !in Whitespace && line[|line| - 1] !in Whitespace
    ensures StripSet(line, Whitespace) == line
  {
    StripSetFixed(line, Whitespace);
  }

  /** An empty answer gives no keywords. */
  lemma ParseKeywordsOfEmpty()
    ensures ParseKeywords("") == []
  {
    assert StripSet("", Whitespace) == "";
    assert Split("", ",") == [""];
    var stripped := StripEach([""], Whitespace);
    assert stripped == [""];
    assert Filter(stripped, NonEmpty) == [] + Filter([], NonEmpty);
  }

  /** When the stripped line splits into proper keywords, those are the result. */
  lemma ParseKeywordsOfPieces(line: string, pieces: seq<string>)
    requires Split(StripSet(line, Whitespace), ",") == pieces
    requires forall k :: 0 <= k < |pieces| ==> IsKeyword(pieces[k])
    ensures ParseKeywords(line) == pieces
  {
    var stripped := StripEach(pieces, Whitespace);
    forall i | 0 <= i < |pieces| ensures stripped[i] == pieces[i] {
      StripSetFixed(pieces[i], Whitespace);
    }
    assert stripped == pieces;
    FilterAll(stripped, NonEmpty);
  }

  /** The join of non-empty pieces begins with the first piece's first
      character and ends with the last piece's last character. */
  lemma {:induction false} JoinEnds(pieces: seq<string>)
    requires |pieces| >= 1 && forall k :: 0 <= k < |pieces| ==> pieces[k] != []
    ensures var j := Join(pieces, ",");
            j != [] && j[0] == pieces[0][0] && j[|j| - 1] == pieces[|pieces| - 1][|pieces[|pieces| - 1]| - 1]
    decreases |pieces|
  {
    if |pieces| > 1 {
      JoinEnds(pieces[1..]);
    }
  }

  /** The number of pages typed at the prompt; anything that is not an
      integer of at least 1 gives 1. */
  function PageCount(answer: string): (n: int)
    ensures n >= 1
  {
    match ParseInt(answer)
    case Some(v) => if v < 1 then 1 else v
    case None => 1
  }

  /** Typing a positive number gives that many pages. */
  lemma PageCountOfNumeral(n: int)
    requires n >= 1
    ensures PageCount(IntToString(n)) == n
  {
    ParseIntOfIntToString(n);
  }

  /** `pub.get('pub_url') or pub['bib'].get('url')`, with an empty result
      meaning the article is skipped. */
  function ArticleUrl(pubUrl: Option<string>, bibUrl: Option<string>): (r: Option<string>)
    ensures r.Some? ==> r.value != [] && (r == pubUrl || r == bibUrl)
    ensures pubUrl.Some? && pubUrl.value != [] ==> r == pubUrl
    ensures r.None? <==> (pubUrl.None? || pubUrl.value == []) && (bibUrl.None? || bibUrl.value == [])
  {
    if pubUrl.Some? && pubUrl.value != [] then pubUrl
    else if bibUrl.Some? && bibUrl.value != [] then bibUrl
    else None
  }

  /** The file for link number `idx` (1-based) of `count` links. */
  function TargetPath(title: Option<string>, idx: int, count: nat): string
  {
    var base := BaseTitle(title);
    var name := if count > 1 then base + "_" + IntToString(idx) else base;
    PathJoin("scholar_pdf", name + ".pdf")
  }

  /** The title a file is named after: the sanitized title, or "untitled". */
  function BaseTitle(title: Option<string>): (r: string)
    ensures r != [] && r[0] != '/'
  {
    SanitizeFilename(match title case Some(t) => t case None => Untitled)
  }

  /** With several links, link `idx` goes to `<base>_<idx>.pdf` in scholar_pdf/. */
  lemma TargetPathSuffixed(title: Option<string>, idx: int, count: nat)
    requires count > 1
    ensures TargetPath(title, idx, count) == "scholar_pdf/" + BaseTitle(title) + "_" + IntToString(idx) + ".pdf"
  {
    var base := BaseTitle(title);
    var name := base + "_" + IntToString(idx);
    assert TargetPath(title, idx, count) == PathJoin("scholar_pdf", name + ".pdf");
    assert name[0] == base[0];
    TargetPathShape(name, base[0]);
    AppendAssoc("scholar_pdf/", base + "_", IntToString(idx));
    AppendAssoc("scholar_pdf/", base, "_");
  }

  /** With several links every link gets its own file. */
  lemma TargetPathsDistinct(title: Option<string>, i: int, j: int, count: nat)
    requires count > 1 && i != j
    ensures TargetPath(title, i, count) != TargetPath(title, j, count)
  {
    var pre := "scholar_pdf/" + BaseTitle(title) + "_";
    TargetPathSuffixed(title, i, count);
    TargetPathSuffixed(title, j, count);
    if TargetPath(title, i, count) == TargetPath(title, j, count) {
      SameAffixes(pre, IntToString(i), IntToString(j), ".pdf");
      IntToStringInjective(i, j);
    }
  }

  /** The path of a name that does not start with '/' is the name inside scholar_pdf/. */
  lemma TargetPathShape(name: string, c: char)
    requires name != [] && name[0] == c && c != '/'
    ensures PathJoin("scholar_pdf", name + ".pdf") == "scholar_pdf/" + name + ".pdf"
  {
    assert (name + ".pdf")[0] == c;
  }

  /** Strings that agree around a middle part agree in that part. */
  lemma SameAffixes(p: string, x: string, y: string, q: string)
    requires p + x + q == p + y + q
    ensures x == y
  {
    assert |x| == |y|;
    assert x == (p + x + q)[|p|..|p| + |x|];
    assert y == (p + y + q)[|p|..|p| + |y|];
  }

  /** With one link the file is named after the title alone. */
  lemma TargetPathSingle(title: Option<string>, idx: int)
    ensures TargetPath(title, idx, 1) ==
            "scholar_pdf/" + BaseTitle(title) + ".pdf"
  {
    var base := BaseTitle(title);
    TargetPathShape(base, base[0]);
  }

  /** One link of the inner loop of `main`: an existing file is skipped,
      otherwise the link is downloaded. */
  function LinkStep(files: map<string, seq<byte>>, path: string, resp: PdfResponse): map<string, seq<byte>>
  {
    if path in files then files else AfterDownload(files, path, resp)
  }

  /** The disk after the links with the given target paths and responses. */
  function AfterLinks(files: map<string, seq<byte>>, paths: seq<string>, resps: seq<PdfResponse>): map<string, seq<byte>>
    requires |paths| == |resps|
    decreases |paths|
  {
    if paths == [] then files
    else
      var n := |paths| - 1;
      LinkStep(AfterLinks(files, paths[..n], resps[..n]), paths[n], resps[n])
  }

  /** Files that existed before are never overwritten or removed. */
  lemma {:induction false} AfterLinksKeepsExisting(files: map<string, seq<byte>>, paths: seq<string>,
                                                   resps: seq<PdfResponse>, p: string)
    requires |paths| == |resps| && p in files
    ensures p in AfterLinks(files, paths, resps) && AfterLinks(files, paths, resps)[p] == files[p]
    decreases |paths|
  {
    if paths != [] {
      var n := |paths| - 1;
      AfterLinksKeepsExisting(files, paths[..n], resps[..n], p);
      DownloadKeepsOnlyPdfs(AfterLinks(files, paths[..n], resps[..n]), paths[n], resps[n]);
    }
  }

  /** The target file of every link, in link order. */
  function TargetPaths(title: Option<string>, count: nat): seq<string>
  {
    seq(count, k requires 0 <= k < count => TargetPath(title, k + 1, count))
  }

  /** The response to every link, in link order. */
  function Fetches(links: seq<string>, fetch: string -> PdfResponse): seq<PdfResponse>
  {
    seq(|links|, k requires 0 <= k < |links| => fetch(links[k]))
  }

  /** The inner loop of `main` over the PDF links of one article. */
  method DownloadLinks(disk: Disk<byte>, title: Option<string>, links: seq<string>, fetch: string -> PdfResponse)
    modifies disk
    ensures disk.files == AfterLinks(old(disk.files), TargetPaths(title, |links|), Fetches(links, fetch))
  {
    ghost var paths := TargetPaths(title, |links|);
    ghost var resps := Fetches(links, fetch);
    var idx := 0;
    while idx < |links|
      invariant 0 <= idx <= |links|
      invariant disk.files == AfterLinks(old(disk.files), paths[..idx], resps[..idx])
    {
      ghost var before := disk.files;
      assert paths[..idx + 1][..idx] == paths[..idx];
      assert resps[..idx + 1][..idx] == resps[..idx];
      assert AfterLinks(old(disk.files), paths[..idx + 1], resps[..idx + 1]) == LinkStep(before, paths[idx], resps[idx]);
      var filename := TargetPath(title, idx + 1, |links|);
      if filename !in disk.files {
        var _ := DownloadPdf(disk, fetch(links[idx]), filename);
      }
      idx := idx + 1;
    }
    assert paths[..idx] == paths && resps[..idx] == resps;
  }

  /** What `main` uses of one search result: `pub.get('pub_url')`,
      `pub['bib'].get('url')` and `pub['bib'].get('title')`. */
  datatype Pub = Pub(pubUrl: Option<string>, bibUrl: Option<string>, title: Option<string>)

  /** The web as `main` sees it: the answer to the request for an article
      page, the HTML parser, `urljoin`, and the streamed answer to the request
      for a PDF link. */
  datatype Web = Web(page: string -> Response, parse: seq<byte> -> seq<Node>,
                     urljoin: (string, string) -> string, fetch: string -> PdfResponse)

  /** The disk after the body of the loop over one page's results for one
      result: without an article URL, or when the article page cannot be
      fetched, nothing happens; otherwise every PDF link is downloaded to its
      target path unless that file exists. */
  function PubStep(files: map<string, seq<byte>>, pub: Pub, web: Web): map<string, seq<byte>>
  {
    match ArticleUrl(pub.pubUrl, pub.bibUrl)
    case None => files
    case Some(url) =>
      if !Succeeds(web.page(url)) then files
      else
        var links := PdfLinks(Hrefs(FindAll(web.parse(web.page(url).body), "a")), url, web.urljoin);
        AfterLinks(files, TargetPaths(pub.title, |links|), Fetches(links, web.fetch))
  }

  /** One search result of the loop in `main`. */
  method ProcessPub(disk: Disk<byte>, pub: Pub, web: Web)
    modifies disk
    ensures disk.files == PubStep(old(disk.files), pub, web)
  {
    var articleUrl := ArticleUrl(pub.pubUrl, pub.bibUrl);
    if articleUrl.None? {
      return;
    }
    var links := FindPdfLinks(articleUrl.value, web.page(articleUrl.value), web.parse, web.urljoin);
    if links == [] {
      return;
    }
    DownloadLinks(disk, pub.title, links, web.fetch);
  }

  /** The disk after the loop body has run for each result in turn. */
  function AfterPubs(files: map<string, seq<byte>>, pubs: seq<Pub>, web: Web): map<string, seq<byte>>
    decreases |pubs|
  {
    if pubs == [] then files
    else
      var n := |pubs| - 1;
      PubStep(AfterPubs(files, pubs[..n], web), pubs[n], web)
  }

  /** Processing two runs of results one after the other is processing
      their concatenation. */
  lemma {:induction false} AfterPubsAppend(files: map<string, seq<byte>>, a: seq<Pub>, b: seq<Pub>, web: Web)
    ensures AfterPubs(files, a + b, web) == AfterPubs(AfterPubs(files, a, web), b, web)
    decreases |b|
  {
    if b == [] {
      assert a + b == a;
    } else {
      var n := |b| - 1;
      assert (a + b)[..|a + b| - 1] == a + b[..n];
      assert AfterPubs(files, a + b, web) == PubStep(AfterPubs(files, a + b[..n], web), b[n], web);
      AfterPubsAppend(files, a, b[..n], web);
    }
  }

  /** A file that existed before is never overwritten or removed by a
      result. */
  lemma PubStepKeepsExisting(files: map<string, seq<byte>>, pub: Pub, web: Web, p: string)
    requires p in files
    ensures p in PubStep(files, pub, web) && PubStep(files, pub, web)[p] == files[p]
  {
    var url := ArticleUrl(pub.pubUrl, pub.bibUrl);
    if url.Some? && Succeeds(web.page(url.value)) {
      var links := PdfLinks(Hrefs(FindAll(web.parse(web.page(url.value).body), "a")), url.value, web.urljoin);
      AfterLinksKeepsExisting(files, TargetPaths(pub.title, |links|), Fetches(links, web.fetch), p);
    }
  }

  /** A file that existed before is never overwritten or removed by any
      number of results. */
  lemma {:induction false} AfterPubsKeepsExisting(files: map<string, seq<byte>>, pubs: seq<Pub>, web: Web, p: string)
    requires p in files
    ensures p in AfterPubs(files, pubs, web) && AfterPubs(files, pubs, web)[p] == files[p]
    decreases |pubs|
  {
    if pubs != [] {
      var n := |pubs| - 1;
      AfterPubsKeepsExisting(files, pubs[..n], web, p);
      PubStepKeepsExisting(AfterPubs(files, pubs[..n], web), pubs[n], web, p);
    }
  }

  /** The loop over the results of one page. */
  method ProcessPubs(disk: Disk<byte>, articles: seq<Pub>, web: Web)
    modifies disk
    ensures disk.files == AfterPubs(old(disk.files), articles, web)
  {
    var i := 0;
    while i < |articles|
      invariant 0 <= i <= |articles|
      invariant disk.files == AfterPubs(old(disk.files), articles[..i], web)
    {
      assert articles[..i + 1][..i] == articles[..i];
      ProcessPub(disk, articles[i], web);
      i := i + 1;
    }
    assert articles[..i] == articles;
  }

  /** The page loop of `main` for one keyword whose search yields `stream`:
      pages 1..numPages are searched, stopping at the first page with no
      results, and the results of each page are processed before the next
      page is searched.  The pages seen are the first `numPages * 10`
      results, ten to a page, and the disk is as after processing those
      results in order. */
  method SearchKeyword(disk: Disk<byte>, stream: seq<Pub>, numPages: int, web: Web)
    returns (pages: seq<seq<Pub>>)
    modifies disk
    ensures numPages < 1 ==> pages == []
    ensures numPages >= 1 ==> |pages| <= numPages
    ensures forall k :: 0 <= k < |pages| ==> pages[k] == Window(stream, k + 1) && pages[k] != []
    ensures |pages| < numPages ==> Window(stream, |pages| + 1) == []
    ensures Concat(pages) == stream[..Clamp(numPages * 10, |stream|)]
    ensures disk.files == AfterPubs(old(disk.files), stream[..Clamp(numPages * 10, |stream|)], web)
  {
    pages := [];
    var page := 1;
    while page <= numPages
      invariant 1 <= page && |pages| == page - 1
      invariant page == 1 || page <= numPages + 1
      invariant PagesShown(stream, pages)
      invariant disk.files == AfterPubs(old(disk.files), Concat(pages), web)
    {
      ghost var done := Concat(pages);
      var articles := SearchPage(disk, stream, page, web, old(disk.files), done);
      if articles == [] {
        break;
      }
      PagesShownSnoc(stream, pages, articles);
      ConcatSnoc(pages, articles);
      pages := pages + [articles];
      page := page + 1;
    }
    PagesTile(stream, pages);
  }

  /** `pages` are the first pages of results, in order, none of them empty. */
  predicate PagesShown(stream: seq<Pub>, pages: seq<seq<Pub>>)
  {
    forall k :: 0 <= k < |pages| ==> pages[k] == Window(stream, k + 1) && pages[k] != []
  }

  lemma PagesShownSnoc(stream: seq<Pub>, pages: seq<seq<Pub>>, articles: seq<Pub>)
    requires PagesShown(stream, pages) && articles == Window(stream, |pages| + 1) && articles != []
    ensures PagesShown(stream, pages + [articles])
  {
  }

  /** The first pages of results together are the first results. */
  lemma PagesTile(stream: seq<Pub>, pages: seq<seq<Pub>>)
    requires PagesShown(stream, pages)
    ensures Concat(pages) == stream[..Clamp(|pages| * 10, |stream|)]
  {
    assert pages == seq(|pages|, k requires 0 <= k < |pages| => Window(stream, k + 1));
    WindowsTile(stream, |pages|);
  }

  /** One turn of the page loop: the page is searched and, when it has
      results, they are processed. */
  method SearchPage(disk: Disk<byte>, stream: seq<Pub>, page: int, web: Web,
                    ghost start: map<string, seq<byte>>, ghost done: seq<Pub>)
    returns (articles: seq<Pub>)
    requires disk.files == AfterPubs(start, done, web)
    modifies disk
    ensures articles == Window(stream, page)
    ensures articles == [] ==> disk.files == old(disk.files)
    ensures articles != [] ==> disk.files == AfterPubs(start, done + articles, web)
  {
    articles := SearchArticles(stream, page);
    if articles == [] {
      return;
    }
    AfterPubsAppend(start, done, articles, web);
    ProcessPubs(disk, articles, web);
  }

  /** The disk after the keyword loop of `main`. */
  function AfterKeywords(files: map<string, seq<byte>>, keywords: seq<string>, numPages: int,
                         search: string -> seq<Pub>, web: Web): map<string, seq<byte>>
    decreases |keywords|
  {
    if keywords == [] then files
    else
      var n := |keywords| - 1;
      var stream := search(keywords[n]);
      AfterPubs(AfterKeywords(files, keywords[..n], numPages, search, web), stream[..Clamp(numPages * 10, |stream|)], web)
  }

  lemma AfterKeywordsSnoc(files: map<string, seq<byte>>, keywords: seq<string>, i: nat, numPages: int,
                          search: string -> seq<Pub>, web: Web)
    requires i < |keywords|
    ensures var stream := search(keywords[i]);
            AfterKeywords(files, keywords[..i + 1], numPages, search, web) ==
            AfterPubs(AfterKeywords(files, keywords[..i], numPages, search, web), stream[..Clamp(numPages * 10, |stream|)], web)
  {
    assert keywords[..i + 1][..i] == keywords[..i];
  }

  /** A file that existed before `main` is still there, unchanged, after it:
      existing files are skipped, never overwritten. */
  lemma {:induction false} AfterKeywordsKeepsExisting(files: map<string, seq<byte>>, keywords: seq<string>, numPages: int,
                                                      search: string -> seq<Pub>, web: Web, p: string)
    requires p in files
    ensures var out := AfterKeywords(files, keywords, numPages, search, web);
            p in out && out[p] == files[p]
    decreases |keywords|
  {
    if keywords != [] {
      var n := |keywords| - 1;
      var stream := search(keywords[n]);
      AfterKeywordsKeepsExisting(files, keywords[..n], numPages, search, web, p);
      AfterPubsKeepsExisting(AfterKeywords(files, keywords[..n], numPages, search, web),
                             stream[..Clamp(numPages * 10, |stream|)], web, p);
    }
  }

  /** `main()`: the keywords and the page count are read from the two
      answers typed at the prompts (`main` returns at once when there are no
      keywords), and each keyword's results are processed in turn.  The
      search for a keyword is the stream `search` gives for it. */
  method RunScript(disk: Disk<byte>, keywordLine: string, pagesAnswer: string,
                   search: string -> seq<Pub>, web: Web)
    returns (keywords: seq<string>)
    modifies disk
    ensures keywords == ParseKeywords(keywordLine)
    ensures disk.files == AfterKeywords(old(disk.files), keywords, PageCount(pagesAnswer), search, web)
  {
    keywords := ReadKeywords(keywordLine);
    if keywords == [] {
      return;
    }
    var numPages := PageCount(pagesAnswer);
    SearchKeywords(disk, keywords, numPages, search, web);
  }

  /** The loop of `main` over the keywords, in order. */
  method SearchKeywords(disk: Disk<byte>, keywords: seq<string>, numPages: int, search: string -> seq<Pub>, web: Web)
    modifies disk
    ensures disk.files == AfterKeywords(old(disk.files), keywords, numPages, search, web)
  {
    var i := 0;
    while i < |keywords|
      invariant 0 <= i <= |keywords|
      invariant disk.files == AfterKeywords(old(disk.files), keywords[..i], numPages, search, web)
    {
      AfterKeywordsSnoc(old(disk.files), keywords, i, numPages, search, web);
      SearchKeywordFrom(disk, keywords[i], numPages, search, web);
      i := i + 1;
    }
    assert keywords[..i] == keywords;
  }

  /** One turn of the keyword loop: the keyword's results, page by page. */
  method SearchKeywordFrom(disk: Disk<byte>, keyword: string, numPages: int, search: string -> seq<Pub>, web: Web)
    modifies disk
    ensures var stream := search(keyword);
            disk.files == AfterPubs(old(disk.files), stream[..Clamp(numPages * 10, |stream|)], web)
  {
    var _ := SearchKeyword(disk, search(keyword), numPages, web);
  }
}

=== FILE: scraping.dfy ===
/**
 * Projekt/Scraping.py: `scrape_document(url, output_file)` fetches a page
 * and, when the status is 200, writes the text of every paragraph element,
 * each followed by a line break.  The request and the HTML parser are
 * parameters; a transport failure is not caught and raises.
 */
module Scraping {
  import opened Base
  import opened PyStr
  import opened Fs
  import opened Http
  import opened Html

  /** The texts of the `p` elements, in document order. */
  function ParagraphTexts(doc: seq<Node>): (r: seq<string>)
    ensures |r| == |FindAll(doc, "p")|
  {
    var paragraphs := FindAll(doc, "p");
    seq(|paragraphs|, k requires 0 <= k < |paragraphs| => GetText(paragraphs[k]))
  }

  /** `scrape_document(url, output_file)` given the response to `requests.get(url)`. */
  method ScrapeDocument(disk: Disk<char>, resp: Response, parse: seq<byte> -> seq<Node>, outputFile: string)
    returns (raised: bool)
    modifies disk
    ensures raised <==> resp.TransportError?
    ensures resp.Reply? && resp.status != 200 ==> disk.files == old(disk.files)
    ensures resp.Reply? && resp.status == 200 ==>
              disk.files == old(disk.files)[outputFile := Terminated(ParagraphTexts(parse(resp.body)), "\n")]
  {
    if resp.TransportError? {
      return true;
    }
    raised := false;
    if resp.status != 200 {
      return;
    }
    var soup := parse(resp.body);
    var paragraphs := FindAll(soup, "p");
    var texts := seq(|paragraphs|, k requires 0 <= k < |paragraphs| => GetText(paragraphs[k]));
    WriteLines(disk, outputFile, texts, "\n");
  }

  /** Reading the file back line by line gives one line per paragraph and
      nothing after the last line break, when no paragraph text holds a
      line break itself; in particular a page without paragraphs gives an
      empty file. */
  lemma ParagraphsReadBack(doc: seq<Node>)
    requires forall k :: 0 <= k < |ParagraphTexts(doc)| ==> NoneIn(ParagraphTexts(doc)[k], {'\n'})
    ensures Split(Terminated(ParagraphTexts(doc), "\n"), "\n") == ParagraphTexts(doc) + [""]
    ensures |Split(Terminated(ParagraphTexts(doc), "\n"), "\n")| == |FindAll(doc, "p")| + 1
  {
    SplitTerminated(ParagraphTexts(doc), '\n');
  }
}

=== FILE: scraping_soup.dfy ===
/**
 * Projekt/Scraping_soup.py: `scrape_document(url, output_file)` fetches a
 * page with a fixed User-Agent, removes every header and footer element,
 * and writes the text of the body, one stripped non-empty string per line.
 * The request and the HTML parser are parameters.
 */
module ScrapingSoup {
  import opened Base
  import opened PyStr
  import opened PyChars
  import opened Fs
  import opened Http
  import opened Html

  const UserAgent: string :=
    "Mozilla/5.0 (Windows NT 10.0; Win64; x64) AppleWebKit/537.36 (KHTML, like Gecko) Chrome/58.0.3029.110 Safari/537.3"

  /** The headers every request carries. */
  const Headers: map<string, string> := map["User-Agent" := UserAgent]

  /** The tags whose elements are decomposed. */
  const Removed: set<string> := {"header", "footer"}

  /** The two `decompose()` loops: every header, then every footer, with all
      that is below it. */
  function Cleaned(doc: seq<Node>): seq<Node>
  {
    Prune(Prune(doc, {"header"}), {"footer"})
  }

  /** The two loops remove exactly what removing both tags at once removes:
      no header or footer is left, and only text goes missing. */
  lemma CleanedRemovesHeadersAndFooters(doc: seq<Node>)
    ensures Cleaned(doc) == Prune(doc, Removed)
    ensures FindAll(Cleaned(doc), "header") == [] && FindAll(Cleaned(doc), "footer") == []
    ensures multiset(Strings(Cleaned(doc))) <= multiset(Strings(doc))
  {
    PruneCompose(doc, {"header"}, {"footer"});
    assert {"header"} + {"footer"} == Removed;
    PruneRemovesAll(doc, Removed, "header");
    PruneRemovesAll(doc, Removed, "footer");
    PruneRemovesOnlyText(doc, Removed);
  }

  /** The strings of `get_text(strip=True)`: each text string stripped of
      surrounding whitespace, the empty ones left out. */
  function StrippedStrings(body: Node): (r: seq<string>)
    ensures forall k :: 0 <= k < |r| ==> r[k] != [] && r[k][0] !in Whitespace && r[k][|r[k]| - 1] !in Whitespace
  {
    var strings := Strings([body]);
    var r := Filter(StripEach(strings, Whitespace), NonEmpty);
    forall k | 0 <= k < |r| ensures r[k] != [] && r[k][0] !in Whitespace && r[k][|r[k]| - 1] !in Whitespace {
      StrippedKeptEnds(strings, Whitespace, r[k]);
    }
    r
  }

  /** `body.get_text(separator='\n', strip=True)`. */
  function BodyText(body: Node): string
  {
    Join(StrippedStrings(body), "\n")
  }

  /** Reading the written text back line by line gives the stripped strings,
      when none of them holds a line break inside. */
  lemma BodyTextLines(body: Node)
    requires StrippedStrings(body) != []
    requires forall k :: 0 <= k < |StrippedStrings(body)| ==> NoneIn(StrippedStrings(body)[k], {'\n'})
    ensures Split(BodyText(body), "\n") == StrippedStrings(body)
  {
    SplitJoin(StrippedStrings(body), ['\n']);
  }

  /** The body `find('body')` picks from the cleaned document holds no header
      or footer, so none of their text is written. */
  lemma BodyHasNoHeaderOrFooter(doc: seq<Node>)
    requires FindFirst(Cleaned(doc), "body").Some?
    ensures var body := FindFirst(Cleaned(doc), "body").value;
            FindAll([body], "header") == [] && FindAll([body], "footer") == []
  {
    var clean := Cleaned(doc);
    CleanedRemovesHeadersAndFooters(doc);
    var body := FindFirst(clean, "body").value;
    assert body == FindAll(clean, "body")[0];
    AbsentBelowFound(clean, "body", "header", body);
    AbsentBelowFound(clean, "body", "footer", body);
  }

  /** The files after `scrape_document(url, output_file)` given the response:
      a request error (transport failure or error status) or a document
      without a body writes nothing; otherwise the output file holds the
      body's text. */
  function AfterScrape(files: map<string, seq<char>>, resp: Response, parse: seq<byte> -> seq<Node>,
                       outputFile: string): (r: map<string, seq<char>>)
    ensures !Succeeds(resp) ==> r == files
    ensures Succeeds(resp) ==>
              match FindFirst(Cleaned(parse(resp.body)), "body")
              case None => r == files
              case Some(body) => r == files[outputFile := BodyText(body)]
  {
    if !Succeeds(resp) then files
    else
      match FindFirst(Cleaned(parse(resp.body)), "body")
      case None => files
      case Some(body) => files[outputFile := BodyText(body)]
  }

  /** `scrape_document(url, output_file)`. */
  method ScrapeDocument(disk: Disk<char>, url: string, get: (string, map<string, string>) -> Response,
                        parse: seq<byte> -> seq<Node>, outputFile: string)
    modifies disk
    ensures disk.files == AfterScrape(old(disk.files), get(url, Headers), parse, outputFile)
  {
    var response := get(url, Headers);
    if !Succeeds(response) {
      return;
    }
    var soup := parse(response.body);
    soup := Prune(soup, {"header"});
    soup := Prune(soup, {"footer"});
    assert soup == Cleaned(parse(response.body));
    var bodyContent := FindFirst(soup, "body");
    if bodyContent.Some? {
      WriteFile(disk, outputFile, BodyText(bodyContent.value));
    }
  }
}

=== FILE: unstructured.dfy ===
/**
 * Projekt/Unstructured.py: a page scraped by `Scraping_soup.scrape_document`
 * into "output1.txt" is partitioned into elements; the text of each element
 * is cleaned (alphanumeric non-stopword tokens, lower-cased, joined by
 * spaces) and written, followed by a blank line, to
 * `Corpus_unstructured/<site>.txt`; the cleaned texts longer than 30
 * characters go on to analysis, and the scraped file is removed.  The
 * tokenizer, the stopword list and `partition_text` are parameters; the
 * sentiment and entity models are not modelled.
 */
module Unstructured {
  import opened Base
  import opened PyStr
  import opened PyChars
  import opened Fs
  import opened Http
  import opened Html
  import opened Corpus
  import ScrapingSoup

  const ScratchFile: string := "output1.txt"
  const CorpusFolder: string := "Corpus_unstructured"

  /** Only cleaned texts longer than this are analysed. */
  const AnalysisThreshold: nat := 30

  /** The test of the comprehension in `clean_text`. */
  predicate Keep(token: string, stopWords: set<string>)
  {
    IsAlnum(token) && Lower(token) !in stopWords
  }

  /** A lower-cased alphanumeric token is alphanumeric: a lower-case letter is
      still a letter, and every other character is left as it is. */
  lemma LowerIsAlnum(token: string)
    requires IsAlnum(token)
    ensures IsAlnum(Lower(token)) && NoneIn(Lower(token), {' '})
  {
    forall k | 0 <= k < |token| ensures IsAlnumChar(Lower(token)[k]) && Lower(token)[k] != ' ' {
      if !IsAlphaChar(token[k]) {
        LowerCharOnlyLetters(token[k]);
      }
      LetterIsNotWhitespace(Lower(token)[k]);
    }
  }

  /** `cleaned_tokens`: the kept tokens, lower-cased, in token order. */
  function CleanTokens(tokens: seq<string>, stopWords: set<string>): (r: seq<string>)
    ensures |r| <= |tokens|
    ensures forall k :: 0 <= k < |r| ==> IsAlnum(r[k]) && NoneIn(r[k], {' '}) && r[k] !in stopWords
  {
    var kept := Filter(tokens, t => Keep(t, stopWords));
    var r := seq(|kept|, k requires 0 <= k < |kept| => Lower(kept[k]));
    forall k | 0 <= k < |r| ensures IsAlnum(r[k]) && NoneIn(r[k], {' '}) && r[k] !in stopWords {
      LowerIsAlnum(kept[k]);
    }
    r
  }

  /** Every kept token contributes its lower-case form, and nothing else
      appears: each cleaned token is the lower-case form of a token that is
      alphanumeric and not a stopword. */
  lemma CleanTokensExactly(tokens: seq<string>, stopWords: set<string>)
    ensures forall t :: t in tokens && Keep(t, stopWords) ==> Lower(t) in CleanTokens(tokens, stopWords)
    ensures forall w :: w in CleanTokens(tokens, stopWords) ==>
              exists t :: t in tokens && Keep(t, stopWords) && w == Lower(t)
  {
    var keep := t => Keep(t, stopWords);
    var kept := Filter(tokens, keep);
    var r := CleanTokens(tokens, stopWords);
    forall t | t in tokens && Keep(t, stopWords) ensures Lower(t) in r {
      FilterKeeps(tokens, keep, t);
      var k :| 0 <= k < |kept| && kept[k] == t;
      assert r[k] == Lower(t);
    }
    forall w | w in r ensures exists t :: t in tokens && Keep(t, stopWords) && w == Lower(t) {
      var k :| 0 <= k < |r| && r[k] == w;
      assert kept[k] in multiset(kept);
      assert kept[k] in tokens && keep(kept[k]);
    }
  }

  /** Token by token: one token more adds its lower-case form at the end
      exactly when it is kept, so the cleaned tokens follow the token order,
      one for each kept token. */
  lemma CleanTokensSnoc(tokens: seq<string>, t: string, stopWords: set<string>)
    ensures CleanTokens([], stopWords) == []
    ensures CleanTokens(tokens + [t], stopWords) ==
              CleanTokens(tokens, stopWords) + (if Keep(t, stopWords) then [Lower(t)] else [])
  {
    var keep := t => Keep(t, stopWords);
    FilterSnoc(tokens, t, keep);
    var kept := Filter(tokens, keep);
    if keep(t) {
      var longer := Filter(tokens + [t], keep);
      assert longer == kept + [t];
      assert forall k :: 0 <= k < |kept| ==> longer[k] == kept[k];
    }
  }

  /** `clean_text(text)`: the cleaned tokens joined by single spaces. */
  function CleanText(text: string, tokenize: string -> seq<string>, stopWords: set<string>): string
  {
    Join(CleanTokens(tokenize(text), stopWords), " ")
  }

  /** Cleaned tokens are non-empty and hold no space, so the cleaned text is
      empty exactly when no token was kept, and otherwise splitting it on ' '
      gives back the cleaned tokens. */
  lemma CleanTextSplits(text: string, tokenize: string -> seq<string>, stopWords: set<string>)
    ensures var tokens := CleanTokens(tokenize(text), stopWords);
            (CleanText(text, tokenize, stopWords) == "" <==> tokens == []) &&
            (tokens != [] ==> Split(CleanText(text, tokenize, stopWords), " ") == tokens)
  {
    var tokens := CleanTokens(tokenize(text), stopWords);
    if tokens != [] {
      SplitJoin(tokens, [' ']);
      assert |Join(tokens, " ")| >= |tokens[0]| > 0;
    }
  }

  /** The cleaned text of every element, in element order. */
  function CleanAll(elements: seq<string>, tokenize: string -> seq<string>, stopWords: set<string>): (r: seq<string>)
    ensures |r| == |elements|
    ensures forall k :: 0 <= k < |r| ==> NoneIn(r[k], {'\n'})
  {
    var r := seq(|elements|, k requires 0 <= k < |elements| => CleanText(elements[k], tokenize, stopWords));
    forall k | 0 <= k < |r| ensures NoneIn(r[k], {'\n'}) {
      var tokens := CleanTokens(tokenize(elements[k]), stopWords);
      forall j | 0 <= j < |tokens| ensures NoneIn(tokens[j], {'\n'}) {
        forall i | 0 <= i < |tokens[j]| ensures tokens[j][i] != '\n' {
          LetterIsNotWhitespace(tokens[j][i]);
        }
      }
      JoinNoneIn(tokens, " ", {'\n'});
    }
    r
  }

  /** The loop over the elements that collects `cleaned_texts`. */
  method CleanElements(elements: seq<string>, tokenize: string -> seq<string>, stopWords: set<string>)
    returns (cleanedTexts: seq<string>)
    ensures cleanedTexts == CleanAll(elements, tokenize, stopWords)
  {
    cleanedTexts := [];
    var i := 0;
    while i < |elements|
      invariant 0 <= i <= |elements|
      invariant cleanedTexts == CleanAll(elements[..i], tokenize, stopWords)
    {
      var cleanedText := CleanText(elements[i], tokenize, stopWords);
      cleanedTexts := cleanedTexts + [cleanedText];
      i := i + 1;
    }
    assert elements[..i] == elements;
  }

  /** The corpus file: the site's name, with ".txt", in the corpus folder. */
  function CorpusFileName(url: string): (r: string)
    ensures r == CorpusFolder + "/" + SiteName(url) + ".txt"
    ensures r != ScratchFile
  {
    var name := SiteName(url) + ".txt";
    assert name[|name| - 4] == '.';
    assert !StartsWith(name, "/") by {
      if SiteName(url) != [] {
        assert name[0] == SiteName(url)[0];
      }
    }
    var r := PathJoin(CorpusFolder, name);
    assert r[0] == 'C';
    r
  }

  /** Long enough to be analysed. */
  predicate LongEnough(t: string)
  {
    |t| > AnalysisThreshold
  }

  /** The texts passed on to the analysis: those longer than the threshold,
      in order. */
  function Analysed(cleanedTexts: seq<string>): (r: seq<string>)
    ensures forall k :: 0 <= k < |r| ==> |r[k]| > AnalysisThreshold
  {
    Filter(cleanedTexts, LongEnough)
  }

  /** A text is analysed exactly when it is one of the cleaned texts and is
      longer than the threshold. */
  lemma AnalysedExactly(cleanedTexts: seq<string>, t: string)
    ensures t in Analysed(cleanedTexts) <==> t in cleanedTexts && |t| > AnalysisThreshold
  {
    FilterMember(cleanedTexts, LongEnough, t);
  }

  /** The analysis loop: the texts the sentiment and entity models are run on. */
  method AnalyseTexts(cleanedTexts: seq<string>) returns (analysed: seq<string>)
    ensures analysed == Analysed(cleanedTexts)
  {
    analysed := [];
    var i := 0;
    while i < |cleanedTexts|
      invariant 0 <= i <= |cleanedTexts|
      invariant analysed == Analysed(cleanedTexts[..i])
    {
      var cleanedText := cleanedTexts[i];
      assert cleanedTexts[..i + 1] == cleanedTexts[..i] + [cleanedText];
      FilterSnoc(cleanedTexts[..i], cleanedText, LongEnough);
      if |cleanedText| > AnalysisThreshold {
        analysed := analysed + [cleanedText];
      }
      i := i + 1;
    }
    assert cleanedTexts[..i] == cleanedTexts;
  }

  /** The script: scrape into "output1.txt"; if the file exists, its elements
      are cleaned, written to the corpus file (each followed by "\n\n") and
      the long ones analysed; finally "output1.txt" is removed, which raises
      when the scraper wrote nothing. */
  method RunScript(disk: Disk<char>, url: string, get: (string, map<string, string>) -> Response,
                   parse: seq<byte> -> seq<Node>, partition: string -> seq<string>,
                   tokenize: string -> seq<string>, stopWords: set<string>)
    returns (analysed: seq<string>, aborted: bool)
    modifies disk
    ensures var scraped := ScrapingSoup.AfterScrape(old(disk.files), get(url, ScrapingSoup.Headers), parse, ScratchFile);
            (aborted <==> ScratchFile !in scraped) &&
            (aborted ==> analysed == [] && disk.files == scraped) &&
            (!aborted ==>
               var cleaned := CleanAll(partition(scraped[ScratchFile]), tokenize, stopWords);
               analysed == Analysed(cleaned) &&
               disk.files == scraped[CorpusFileName(url) := Terminated(cleaned, "\n\n")] - {ScratchFile})
  {
    ScrapingSoup.ScrapeDocument(disk, url, get, parse, ScratchFile);
    if ScratchFile !in disk.files {
      return [], true;
    }
    aborted := false;
    var elements := partition(disk.Read(ScratchFile));
    var cleanedTexts := CleanElements(elements, tokenize, stopWords);
    WriteLines(disk, CorpusFileName(url), cleanedTexts, "\n\n");
    analysed := AnalyseTexts(cleanedTexts);
    disk.Remove(ScratchFile);
  }
}

=== FILE: unstructured_process.dfy ===
/**
 * Projekt/unstructured_process.py: `process_pdfs()` selects the names in
 * "pdfs" whose lower-case form ends in ".pdf"; with none it reports and
 * returns; otherwise each selected PDF is partitioned into elements, whose
 * strings, joined by a blank line, are written to `unstruc_txt/<stem>.txt`.
 * A failure on one file is reported and the loop goes on.  `partition_pdf`
 * is a parameter.
 */
module UnstructuredProcess {
  import opened Base
  import opened PyStr
  import opened PyChars
  import opened Fs

  const InputFolder: string := "pdfs"
  const OutputFolder: string := "unstruc_txt"

  /** The separator between elements. */
  const Separator: string := "\n\n"

  predicate IsPdfName(name: string)
  {
    EndsWith(Lower(name), ".pdf")
  }

  /** `pdf_files`: the PDF names of the listing, in listing order. */
  function PdfFiles(names: seq<string>): (r: seq<string>)
    ensures |r| <= |names|
    ensures forall k :: 0 <= k < |r| ==> IsPdfName(r[k])
  {
    Filter(names, IsPdfName)
  }

  /** A name is selected exactly when it is listed and is a PDF name. */
  lemma PdfFilesExactly(names: seq<string>, name: string)
    ensures name in PdfFiles(names) <==> name in names && IsPdfName(name)
  {
    FilterMember(names, IsPdfName, name);
  }

  /** `"\n\n".join([str(el) for el in elements])`. */
  function FullText(elements: seq<string>): string
  {
    Join(elements, Separator)
  }

  /** Elements without line breaks are recovered by splitting on the blank
      line, in order. */
  lemma FullTextSplits(elements: seq<string>)
    requires elements != []
    requires forall k :: 0 <= k < |elements| ==> NoneIn(elements[k], {'\n'})
    ensures Split(FullText(elements), Separator) == elements
  {
    SplitJoin(elements, Separator);
  }

  /** The output file of a selected PDF. */
  function OutputPath(pdfFile: string): string
  {
    TxtPath(OutputFolder, pdfFile)
  }

  /** For a plain name `<base>.pdf`, the output is `unstruc_txt/<base>.txt`. */
  lemma OutputPathOfPdf(base: string)
    requires forall k :: 0 <= k < |base| ==> base[k] != '/'
    requires !AllDots(base)
    ensures OutputPath(base + ".pdf") == "unstruc_txt/" + base + ".txt"
  {
    TxtPathOfName(OutputFolder, base, ".pdf");
  }

  /** What the loop body does for one selected file, given the elements of
      each PDF by path (None when partitioning raises). */
  function Job(partition: string -> Option<seq<string>>): string -> Option<(string, string)>
  {
    pdfFile =>
      match partition(PathJoin(InputFolder, pdfFile))
      case None => None
      case Some(elements) => Some((OutputPath(pdfFile), FullText(elements)))
  }

  /** A file that fails is skipped and the others are processed as if it had
      not been selected. */
  lemma FailureSkipped(files: map<string, string>, before: seq<string>, pdfFile: string, after: seq<string>,
                       partition: string -> Option<seq<string>>)
    requires partition(PathJoin(InputFolder, pdfFile)).None?
    ensures Batch(files, before + [pdfFile] + after, Job(partition)) == Batch(files, before + after, Job(partition))
  {
    BatchSkip(files, before, pdfFile, after, Job(partition));
  }

  /** `process_pdfs()`: `found` is false when nothing was selected, and then
      nothing is written. */
  method ProcessPdfs(disk: Disk<char>, names: seq<string>, partition: string -> Option<seq<string>>)
    returns (found: bool)
    modifies disk
    ensures found <==> PdfFiles(names) != []
    ensures disk.files == Batch(old(disk.files), PdfFiles(names), Job(partition))
  {
    var pdfFiles := PdfFiles(names);
    if pdfFiles == [] {
      return false;
    }
    found := true;
    var i := 0;
    while i < |pdfFiles|
      invariant 0 <= i <= |pdfFiles|
      invariant disk.files == Batch(old(disk.files), pdfFiles[..i], Job(partition))
    {
      BatchSnoc(old(disk.files), pdfFiles, i, Job(partition));
      var pdfFile := pdfFiles[i];
      var inputPath := PathJoin(InputFolder, pdfFile);
      var outputPath := PathJoin(OutputFolder, Stem(pdfFile) + ".txt");
      var elements := partition(inputPath);
      if elements.Some? {
        var fullText := Join(elements.value, "\n\n");
        assert Job(partition)(pdfFile) == Some((outputPath, fullText));
        WriteFile(disk, outputPath, fullText);
      }
      i := i + 1;
    }
    assert pdfFiles[..i] == pdfFiles;
  }
}
